=== FILE: README.md ===
# ExoSpotter, modelled in Dafny

ExoSpotter looks for exoplanet transits in a star's light curve: a sequence of
(flux, Julian date) samples. A planet crossing the star dims it for a while
once per orbit. The detector runs in four stages:

1. keep the samples whose flux is at or below a depth threshold
   (`findPlanetCandidates`);
2. collapse each transit window into its deepest sample
   (`groupDatapoints`);
3. bucket the transits by depth, first fit against each bucket's first flux
   (`splitDatapoints`);
4. look for a periodic pattern in every bucket.

The last stage has two matchers. The fast one, `planetInData`, takes the
first three consecutive transits with equal gaps. The precise one,
`planetInDataPrecise`, projects each pair of transits one period ahead and
checks for a transit near that date.

The repository holds three generations of this detector:

- the canonical `ExoSpotter` classes in `include/exoSpotter`;
- the struct-based `ExoplanetFinder` in `detectExoplanets.cpp`;
- the map-based `DetectExoplanets` in `detect_exoplanets.cpp`.

It also holds three CSV readers (`parseData.cpp`) and a Python converter
that prepares CSV files from telescope data (`convert_data.py`).

The model is one module per component:

| module | file | models |
|---|---|---|
| `Common` | common.dfy | absolute value, float-to-int truncation, `std::round`, sums, order-preserving selections |
| `Lightcurves` | lightcurve.dfy | the canonical `Lightcurve` and `Exoplanet` records |
| `CandidateFilter` | filter.dfy | `findPlanetCandidates` |
| `TransitGrouper` | grouper.dfy | `groupDatapoints` |
| `NearestDate` | nearest.dfy | `findClosestIndex` and the inline closest-date scans |
| `SizeBucketer` | bucketer.dfy | `splitDatapoints` |
| `Pipeline` | pipeline.dfy | the three stages chained, shared by all generations |
| `ExoSpotter` | exospotter.dfy | the canonical matchers and `findPlanets` / `findPlanetsPrecise` |
| `ExoplanetFinder` | finder.dfy | the struct generation: length check, planet record, exhaustive pair search |
| `DetectExoplanets` | detect.dfy | the map generation: first-hit precise matcher |
| `CsvParse` | parse.dfy | the three `readData` readers |
| `ConvertData` | convert.dfy | `remove_nan`, `normalize_data` and the data path of `main` |

Numbers are modelled as follows:

- Flux and dates are exact reals.
- C++ `float` to `int` conversions round toward zero (`Common.Trunc`).
- `round` rounds half away from zero (`Common.Round`).
- `fabs`, and the unqualified `abs` on float differences, give the real
  absolute value (`Common.Abs`). This is the floating-point overload of
  `abs`, which is what the comparisons are evidently meant to use. Under a
  standard library that puts only `int abs(int)` in the global scope, the
  difference is truncated first (`Common.IntAbs`); see "## Findings".
- A program exit or an uncaught exception is the `Failure` case of a
  `Result`.

The model follows the code where the code departs from its own comments and
documentation:

- The canonical length check compares the raw size with itself, so it never
  fires. The constructor's length check is the only guard left.
- In the canonical precise matcher, the extrapolation loop declares its own
  `closestIndex`. The candidate is therefore built from the first test's
  match, the one at line 284.
- The duplicate test binds `greatest` and `smallest` as references to the
  loop's copy and to the candidate. The "swap" assignments copy values, so
  `smallest` is always the candidate. When the candidate's period is the
  longer one, `greatest` is the candidate too
  (`ExoSpotter.LongerPeriodIsDuplicate`).
- The canonical confidence, `1 - missed/expected`, is computed but plays
  no part in accepting a candidate. It can be negative
  (`ExoSpotter.ConfidenceNotClamped`), even though the header describes it
  as a value between 0 and 1.
- The canonical header declares `minimumConfidence` and `planetsInData`.
  Neither is defined or used in the implementation.

## Model

| member | source | states |
|---|---|---|
| `Common.Trunc` | include/exoSpotter/exoSpotter.cpp:293-294 | a float-to-int conversion of the transit counts rounds toward zero: the integer part of x, never further from 0 than x |
| `Common.Round` | include/exoSpotter/exoSpotter.cpp:332 | `round` returns the integer within one half of x, halves going away from zero |
| `Common.IntAbs` | include/exoSpotter/exoSpotter.cpp:222 | `abs` resolved to `int abs(int)` gives the whole part of the distance: at most the real distance and less than one below it |
| `Lightcurves.Make` | include/exoSpotter/exoSpotter.cpp:11-16 | constructing a light curve fails exactly when the flux and date vectors differ in length; otherwise it holds one sample per flux |
| `Lightcurves.MakeFromAccessors` | include/exoSpotter/exoSpotter.h:13-16 | rebuilding a light curve from its own `flux()` and `date()` always succeeds and gives back the same light curve |
| `Lightcurves.Lightcurve.AddPair` | include/exoSpotter/exoSpotter.cpp:40-44 | the flux and the date are appended together at the end; earlier samples are untouched and the two sequences stay equally long |
| `Lightcurves.Lightcurve.AddPairs` | include/exoSpotter/exoSpotter.cpp:47-55 | appending two vectors fails exactly when they differ in length; otherwise the old samples are followed by the new ones, in order |
| `Lightcurves.Lightcurve.Slice` | include/exoSpotter/exoSpotter.cpp:19-37 | an empty light curve when begin > end; otherwise the samples begin to end inclusive, each at its offset from begin |
| `Lightcurves.SliceWhole` | include/exoSpotter/exoSpotter.cpp:19-37 | slicing from 0 to size-1 gives back the whole light curve |
| `Lightcurves.GapSumTelescopes` | include/exoSpotter/exoSpotter.cpp:72-78 | the consecutive date gaps summed in the constructor add up to the last date minus the first |
| `Lightcurves.NewExoplanet` | include/exoSpotter/exoSpotter.cpp:64-88 | an exoplanet keeps its datapoints and confidence; its average flux times n is the flux total, and its average period times (n-1) is the span from first to last date |
| `Lightcurves.FindRadiusRatio` | include/exoSpotter/exoSpotter.cpp:106-113 | the ratio is not computable (-1) exactly when the average flux is not positive; otherwise it is the square root of 1 - averageFlux, a radicand below 1 |
| `CandidateFilter.CandidatesSelect` | include/exoSpotter/exoSpotter.cpp:130-146 | the candidates are exactly the samples with flux at or below the threshold, in input order, each with its own date |
| `CandidateFilter.FindPlanetCandidates` | include/exoSpotter/exoSpotter.cpp:137-145 | the filtering loop builds exactly that order-preserving selection |
| `NearestDate.ClosestIndex` | include/exoSpotter/exoSpotter.cpp:189-206 | the scan from the start position stops at k: distances to the target never grow from start to k, and grow strictly right after k |
| `NearestDate.ClosestIndexUnique` | include/exoSpotter/exoSpotter.cpp:195-203 | any position with those two properties is the one the scan returns |
| `NearestDate.ClosestAmongScanned` | include/exoSpotter/exoSpotter.cpp:195-203 | the returned date is at least as close to the target as every date the scan passed |
| `NearestDate.ClosestIsNearest` | include/exoSpotter/exoSpotter.cpp:189-206 | on strictly increasing dates, the returned date is the nearest to the target of all dates from the start position on |
| `NearestDate.FindClosestIndex` | include/exoSpotter/exoSpotter.cpp:189-206 | the loop with its early break returns that stopping position |
| `NearestDate.DistAsWritten` | include/exoSpotter/exoSpotter.cpp:192-201 | the truncated distance of the scan as written under `int abs(int)` is within one below the real distance |
| `NearestDate.TruncatedClosestExample` | include/exoSpotter/exoSpotter.cpp:192-201 | dates 0 and 0.5 with target 0: the truncated distances tie, so the scan as written moves on to position 1, while the real distances grow and the modelled scan stops at 0 |
| `TransitGrouper.Step` | include/exoSpotter/exoSpotter.cpp:161-178 | one iteration: the running peak is no deeper than the new sample allows (at most its flux); the window start stays or moves to the new date; at most one sample is emitted, at the end, and only when the new date is more than maxTransitDurationDays after the window start, and then it is the old running peak; inside a window the peak never rises |
| `TransitGrouper.GroupDatapoints` | include/exoSpotter/exoSpotter.cpp:153-186 | the result is a valid light curve; what it holds is stated by `GroupedAreWindowPeaks` and `GroupedChronological` |
| `TransitGrouper.ScanInvariant` | include/exoSpotter/exoSpotter.cpp:161-178 | after any prefix of the samples, everything emitted is the deepest sample of a closed window, and the running peak is the earliest deepest sample of the open window |
| `TransitGrouper.FlushPending` | include/exoSpotter/exoSpotter.cpp:163-167 | emitting the running peak when a window closes adds that window's earliest deepest sample, unless it is the sentinel pair |
| `TransitGrouper.OpeningStep` | include/exoSpotter/exoSpotter.cpp:163-172 | a sample more than maxTransitDurationDays after the window's start closes the old window and opens a new one that starts at this sample |
| `TransitGrouper.QuietStep` | include/exoSpotter/exoSpotter.cpp:174-177 | a sample inside the window emits nothing and keeps the running peak the earliest deepest sample so far |
| `TransitGrouper.FlushOrdered` | include/exoSpotter/exoSpotter.cpp:164-167 | emitting the running peak keeps the emitted dates strictly increasing |
| `TransitGrouper.FlushBefore` | include/exoSpotter/exoSpotter.cpp:163-167 | when a window opens at date d, every date emitted so far, the old peak included, lies before d |
| `TransitGrouper.OpenOrdered` | include/exoSpotter/exoSpotter.cpp:163-172 | opening a window keeps the emitted dates strictly increasing and before the new window's start |
| `TransitGrouper.PeakOrdered` | include/exoSpotter/exoSpotter.cpp:174-177 | moving the peak to a date inside the current window keeps the ordered state |
| `TransitGrouper.StepOrdered` | include/exoSpotter/exoSpotter.cpp:161-178 | one iteration on a date no earlier than the last keeps the emitted dates strictly increasing and behind the window start |
| `TransitGrouper.ScanOrdered` | include/exoSpotter/exoSpotter.cpp:161-178 | after every non-empty prefix of non-decreasing dates, the loop state is ordered |
| `TransitGrouper.GroupedChronological` | include/exoSpotter/exoSpotter.cpp:153-186 | with a non-negative duration, non-decreasing dates come out strictly increasing: equal dates always share a window |
| `TransitGrouper.GroupedAreWindowPeaks` | include/exoSpotter/exoSpotter.cpp:153-186 | the grouped samples are input samples in input order, each the earliest deepest sample of its own transit window, never the sentinel pair (flux 2, date 0); there are no more of them than inputs |
| `SizeBucketer.FirstFit` | include/exoSpotter/exoSpotter.cpp:221-228 | a sample goes to the first bucket whose first flux is within the size threshold of it; no earlier bucket fits |
| `SizeBucketer.Place` | include/exoSpotter/exoSpotter.cpp:218-235 | one placement: a new one-sample bucket is pushed at the end exactly when no bucket fits; otherwise the sample is appended to a fitting bucket with no fitting bucket before it, and nothing else changes |
| `SizeBucketer.FitsAsWrittenAdmitsMore` | include/exoSpotter/exoSpotter.cpp:222 | the truncating comparison accepts every sample the real comparison accepts |
| `SizeBucketer.TruncatedFitExample` | include/exoSpotter/exoSpotter.cpp:222 | with threshold 0.01, flux 0.5 fits the bucket of flux 0.9 under the truncating comparison, but not under the real one |
| `SizeBucketer.AppendKeepsCoherent` | include/exoSpotter/exoSpotter.cpp:222-226 | adding a sample to the bucket it fits keeps every bucket within the threshold of its first flux |
| `SizeBucketer.NewBucketKeepsCoherent` | include/exoSpotter/exoSpotter.cpp:234 | opening a new bucket for a sample that fits none keeps every bucket non-empty and within the threshold of its first flux |
| `SizeBucketer.PlaceKeepsCoherent` | include/exoSpotter/exoSpotter.cpp:218-235 | placing one sample keeps the buckets coherent, adds at most one bucket, and never changes a bucket's first flux |
| `SizeBucketer.SplitDatapoints` | include/exoSpotter/exoSpotter.cpp:214-238 | every bucket is non-empty and all its fluxes are within the threshold of its first flux; there are no more buckets than samples |
| `SizeBucketer.SplitScan` | include/exoSpotter/exoSpotter.cpp:218-235 | after the first n samples, the buckets are non-empty and coherent, and there are at most n of them; `SplitScanPartition` gives their contents |
| `SizeBucketer.PlaceHeads` | include/exoSpotter/exoSpotter.cpp:223-234 | adding to an existing bucket keeps its first sample, and a new bucket is pushed at the end starting at the newest sample, so buckets stay in creation order |
| `SizeBucketer.PlacePartition` | include/exoSpotter/exoSpotter.cpp:218-235 | placing the next sample keeps the buckets a first-fit partition of the samples seen so far, in creation order |
| `SizeBucketer.PartitionStart` | include/exoSpotter/exoSpotter.cpp:216 | before the loop there are no buckets, which partition the empty prefix |
| `SizeBucketer.PartitionOpensWithFirst` | include/exoSpotter/exoSpotter.cpp:223-234 | in any partition of a non-empty prefix, the first bucket is the one sample 0 opened: its first position is 0 and its first flux is sample 0's |
| `SizeBucketer.CreationOrderExample` | include/exoSpotter/exoSpotter.cpp:223-234 | for fluxes 0, 0.8, 0.4 and threshold 0.5, the buckets [0.8, 0.4] then [0] have valid members and first fluxes, but they are not a partition for any index lists, because the bucket opened by sample 0 must come first |
| `SizeBucketer.PlaceKeepsPartition` | include/exoSpotter/exoSpotter.cpp:218-235 | one more iteration extends the partition of the scan by one sample |
| `SizeBucketer.SplitScanPartition` | include/exoSpotter/exoSpotter.cpp:218-235 | after n samples, the buckets partition them: each sample is in exactly one bucket, in input order within it; buckets are in creation order (their first samples' positions increase); each sample is in the first bucket it fitted |
| `SizeBucketer.SplitIsFirstFitPartition` | include/exoSpotter/exoSpotter.cpp:214-238 | the buckets partition the input: each sample is in exactly one bucket, samples keep input order within a bucket, buckets are in creation order, and each sample went to the first bucket it fitted |
| `SizeBucketer.BucketsChronological` | include/exoSpotter/exoSpotter.cpp:214-238 | samples in time order give buckets whose dates strictly increase |
| `Pipeline.Buckets` | include/exoSpotter/exoSpotter.cpp:387-389 | the three stages yield non-empty, valid buckets |
| `Pipeline.BucketsChronological` | include/exoSpotter/exoSpotter.cpp:415-417 | samples in time order stay in time order through filter, grouping and bucketing, so every bucket's dates strictly increase |
| `Pipeline.BucketsChronologicalRepeated` | include/exoSpotter/exoSpotter.cpp:415-417 | dates that never go backwards, under a non-negative transit duration, still give buckets whose dates strictly increase, because grouping merges equal dates |
| `Pipeline.BucketsInTimeOrder` | include/exoSpotter/exoSpotter.cpp:415-417 | strictly increasing raw dates, or non-decreasing ones under a non-negative duration, give strictly increasing bucket dates |
| `ExoSpotter.FirstEvenTriple` | include/exoSpotter/exoSpotter.cpp:254-261 | finds the first position whose two following gaps differ by less than TTVRange; no earlier position has such gaps, and none at all when absent |
| `ExoSpotter.TruncatedEvenGapsExample` | include/exoSpotter/exoSpotter.cpp:255-260 | gaps of 10 and 10.9 days pass the even-gaps test as written under `int abs(int)` with TTVRange 0.5, but not the real test |
| `ExoSpotter.PlanetInData` | include/exoSpotter/exoSpotter.cpp:248-264 | no planet exactly when the bucket has fewer than 3 samples or no evenly spaced triple; a planet has confidence 1 and three datapoints |
| `ExoSpotter.PlanetInDataFirstTriple` | include/exoSpotter/exoSpotter.cpp:254-259 | a fast detection holds the slice of the first evenly spaced triple, and its period is half that triple's span |
| `ExoSpotter.FastMatcherExample` | include/exoSpotter/exoSpotter.cpp:248-264 | three transits 10 days apart are detected with period 10 |
| `ExoSpotter.FindPlanets` | include/exoSpotter/exoSpotter.cpp:385-407 | at most one planet per bucket |
| `ExoSpotter.FindPlanetsPerBucket` | include/exoSpotter/exoSpotter.cpp:393-399 | the planets are the fast detections of the buckets that have one, in bucket order, and every such bucket contributes |
| `ExoSpotter.Match` | include/exoSpotter/exoSpotter.cpp:284 | the match for a pair lies at or after its second sample |
| `ExoSpotter.PairPeriod` | include/exoSpotter/exoSpotter.cpp:307-314 | on increasing dates the candidate's period is positive |
| `ExoSpotter.ExtraMisses` | include/exoSpotter/exoSpotter.cpp:296-305 | no extrapolation misses when the next projection is past the last date; otherwise fewer misses than whole periods left before the last date |
| `ExoSpotter.CountExtraMisses` | include/exoSpotter/exoSpotter.cpp:296-305 | the extrapolation loop counts exactly the projections whose closest date misses by more than TTVRange * iter * 0.75 |
| `ExoSpotter.ExpectedTransits` | include/exoSpotter/exoSpotter.cpp:293 | on increasing dates, at least one transit is expected, so the confidence division is defined |
| `ExoSpotter.CountMissedTransits` | include/exoSpotter/exoSpotter.cpp:293-305 | the missed count is the whole periods between the first raw date and date[i], plus the extrapolation misses |
| `ExoSpotter.Confidence` | include/exoSpotter/exoSpotter.cpp:313 | the confidence scaled by the expected transits is the number of expected transits that were not missed |
| `ExoSpotter.CandidateAt` | include/exoSpotter/exoSpotter.cpp:307-314 | a candidate holds samples i, j and the first test's match; its period is half the span from date[i] to the match, and its confidence is as above |
| `ExoSpotter.EvaluatePair` | include/exoSpotter/exoSpotter.cpp:280-314 | a pair yields a candidate exactly when its match lies within TTVRange of the projection, and that candidate is the pair's |
| `ExoSpotter.AnyDuplicate` | include/exoSpotter/exoSpotter.cpp:323-336 | the dedup loop breaks exactly when some detection makes the candidate a duplicate |
| `ExoSpotter.LongerPeriodIsDuplicate` | include/exoSpotter/exoSpotter.cpp:324-332 | a candidate with a longer period than an existing detection is a duplicate exactly when TTVRange is positive |
| `ExoSpotter.HarmonicIsDuplicate` | include/exoSpotter/exoSpotter.cpp:332 | a candidate whose period divides an existing period a whole number of times is a duplicate |
| `ExoSpotter.PeriodsNonIncreasing` | include/exoSpotter/exoSpotter.cpp:323-341 | detections that are not duplicates of earlier ones have non-increasing periods |
| `ExoSpotter.CoveredExtends` | include/exoSpotter/exoSpotter.cpp:339 | a pair already accounted for stays accounted for when a detection is appended |
| `ExoSpotter.RejectKeepsEarlier` | include/exoSpotter/exoSpotter.cpp:289-291 | passing over a pair that is not kept, not gated or a duplicate keeps every qualifying pair tried so far accounted for |
| `ExoSpotter.DuplicateIsCovered` | include/exoSpotter/exoSpotter.cpp:323-336 | a qualifying pair rejected as a duplicate is accounted for by the detection that rejected it |
| `ExoSpotter.ExhaustedKeepsInvariant` | include/exoSpotter/exoSpotter.cpp:280 | when the inner loop finishes without accepting, the search moves to the next first index with its invariant intact |
| `ExoSpotter.AcceptKeepsCoverage` | include/exoSpotter/exoSpotter.cpp:338-341 | accepting a candidate and leaving the inner loop leaves every qualifying pair with a first index up to i accounted for |
| `ExoSpotter.AcceptKeepsPairs` | include/exoSpotter/exoSpotter.cpp:338-341 | after accepting, every detection is the candidate of its own qualifying pair, with first indices strictly increasing |
| `ExoSpotter.AcceptKeepsOrigins` | include/exoSpotter/exoSpotter.cpp:338-339 | after accepting, every detection is the candidate of its own qualifying pair, with a first index up to i and a positive period |
| `ExoSpotter.AcceptCovers` | include/exoSpotter/exoSpotter.cpp:338-341 | after accepting the candidate of (i, j), any one qualifying pair with first index up to i is accounted for |
| `ExoSpotter.AcceptKeepsDistinct` | include/exoSpotter/exoSpotter.cpp:338-339 | appending a candidate that duplicates no detection keeps the detections pairwise not duplicates |
| `ExoSpotter.AcceptKeepsInvariant` | include/exoSpotter/exoSpotter.cpp:338-341 | accepting a candidate and leaving the inner loop keeps the search invariant for the next first index |
| `ExoSpotter.SearchPairsFrom` | include/exoSpotter/exoSpotter.cpp:280-343 | the inner loop for one first index adds at most one detection and keeps all earlier ones |
| `ExoSpotter.PreciseConclusion` | include/exoSpotter/exoSpotter.cpp:279-346 | at the end of the search, nothing was detected exactly when no pair qualifies |
| `ExoSpotter.PlanetInDataPrecise` | include/exoSpotter/exoSpotter.cpp:271-347 | each detection is the candidate of a qualifying pair, with at most one per first index; no detection duplicates an earlier one; every qualifying pair is detected or rejected as a duplicate of an earlier detection; empty exactly when no pair qualifies |
| `ExoSpotter.FindPlanetsPrecise` | include/exoSpotter/exoSpotter.cpp:413-432 | the planets are the concatenation, in bucket order, of one precise-matcher result per bucket: within a bucket each planet comes from a qualifying pair and duplicates no earlier one; every qualifying pair of every bucket is covered; a bucket contributes nothing exactly when it has fewer than 3 samples or no qualifying pair. Raw dates may repeat when the transit duration is not negative |
| `ExoSpotter.CollectBucket` | include/exoSpotter/exoSpotter.cpp:421-425 | one iteration appends bucket b's precise result to the planets and keeps the per-bucket bookkeeping |
| `ExoSpotter.AppendResult` | include/exoSpotter/exoSpotter.cpp:424 | recording bucket b's result keeps the planets equal to the concatenation of the per-bucket results |
| `ExoSpotter.AllPreciseAt` | include/exoSpotter/exoSpotter.cpp:421-425 | the recorded part of any one bucket is a precise-matcher result on that bucket |
| `ExoSpotter.AllPreciseEach` | include/exoSpotter/exoSpotter.cpp:421-425 | the recorded part of every bucket is a precise-matcher result on that bucket |
| `ExoSpotter.AppendBucket` | include/exoSpotter/exoSpotter.cpp:421-425 | appending one bucket's detections keeps bucket order and every detection's origin |
| `ExoSpotter.ConcatOrigins` | include/exoSpotter/exoSpotter.cpp:424 | after the insert, each planet still comes from a qualifying pair of its bucket, and buckets stay in order |
| `ExoSpotter.ConcatDistinct` | include/exoSpotter/exoSpotter.cpp:424 | after the insert, no two planets of the same bucket are duplicates |
| `ExoSpotter.ConfidenceAtMostOne` | include/exoSpotter/exoSpotter.cpp:313 | when the first raw date is not after the pair's first date, the confidence is at most 1 |
| `ExoSpotter.ConfidenceNotClamped` | include/exoSpotter/exoSpotter.cpp:293-313 | a kept pair in a bucket that starts 100 days after the first raw date gets confidence -49: the value is not kept within 0 and 1 |
| `ExoSpotter.EvenTransitsNoMiss` | include/exoSpotter/exoSpotter.cpp:296-305 | on transits exactly 10 days apart, the extrapolation misses nothing |
| `ExoSpotter.EvenTransitsPeriods` | include/exoSpotter/exoSpotter.cpp:281-285 | on transits exactly 10 days apart, consecutive pairs match the next transit and have period 10 |
| `ExoSpotter.PreciseFirstPairExample` | include/exoSpotter/exoSpotter.cpp:280-320 | on evenly spaced transits the first pair qualifies, with period 10 |
| `ExoSpotter.PreciseFirstPairConfidence` | include/exoSpotter/exoSpotter.cpp:293-313 | with nothing missed, the first pair's confidence is 1 |
| `ExoSpotter.PreciseRepeatExample` | include/exoSpotter/exoSpotter.cpp:323-336 | the next pair of the same planet is a duplicate of the first detection |
| `ExoSpotter.PreciseGateExample` | include/exoSpotter/exoSpotter.cpp:320 | a kept pair two periods into the bucket fails the allowedMissedTransits gate of 2 |
| `ExoplanetFinder.FindPlanetCandidates` | include/exoplanetFinder/detectExoplanets.cpp:40-57 | the program exits with code 2 exactly when flux and date differ in length; otherwise the canonical selection |
| `ExoplanetFinder.FindPlanet.Buckets` | include/exoplanetFinder/detectExoplanets.cpp:220-222 | the stages stop exactly on a length mismatch, and otherwise give the canonical buckets |
| `ExoplanetFinder.PlanetInData` | include/exoplanetFinder/detectExoplanets.cpp:142-158 | no planet (the default record) exactly when there are fewer than 3 samples or no evenly spaced triple |
| `ExoplanetFinder.PlanetInDataFirstTriple` | include/exoplanetFinder/detectExoplanets.cpp:148-154 | a detection reports the first evenly spaced triple's first date and flux, and half its span as period |
| `ExoplanetFinder.FastMatchersAgree` | include/exoplanetFinder/detect_exoplanets.cpp:137-153 | the struct/map fast matcher and the canonical one detect on the same buckets, with the same period, first date and first flux |
| `ExoplanetFinder.FindPlanets` | include/exoplanetFinder/detectExoplanets.cpp:218-233 | stops on a length mismatch; otherwise at most one planet per bucket |
| `ExoplanetFinder.FindPlanetsPerBucket` | include/exoplanetFinder/detect_exoplanets.cpp:198-212 | the planets are the flagged fast detections, in bucket order, one for each bucket that has one |
| `ExoplanetFinder.AnyClash` | include/exoplanetFinder/detectExoplanets.cpp:198-203 | the loop breaks exactly when some detection's period is less than 2 TTVRange above the candidate's |
| `ExoplanetFinder.RejectKeepsInvariant` | include/exoplanetFinder/detectExoplanets.cpp:193-204 | passing over an unkept or discarded pair keeps the search invariant |
| `ExoplanetFinder.AccountedExtends` | include/exoplanetFinder/detectExoplanets.cpp:206 | an accounted pair stays accounted when a detection is appended |
| `ExoplanetFinder.AcceptKeepsAccounted` | include/exoplanetFinder/detectExoplanets.cpp:205-207 | after a push, every kept pair visited so far is accounted for |
| `ExoplanetFinder.AcceptKeepsPairs` | include/exoplanetFinder/detectExoplanets.cpp:205-207 | after a push, each detection is the candidate of its own kept pair, in visiting order |
| `ExoplanetFinder.AcceptKeepsDistinct` | include/exoplanetFinder/detectExoplanets.cpp:198-207 | a pushed candidate that clashes with no detection keeps the detections pairwise clash-free |
| `ExoplanetFinder.AcceptKeepsInvariant` | include/exoplanetFinder/detectExoplanets.cpp:205-207 | pushing a kept, clash-free candidate keeps the search invariant |
| `ExoplanetFinder.ConsiderPair` | include/exoplanetFinder/detectExoplanets.cpp:174-208 | one inner-loop iteration appends the pair's candidate exactly when the pair is kept and no detection clashes with it, and otherwise leaves the detections alone; it keeps the search invariant |
| `ExoplanetFinder.NextStartKeepsInvariant` | include/exoplanetFinder/detectExoplanets.cpp:172-173 | finishing the inner loop moves the invariant to the next first index |
| `ExoplanetFinder.SearchConclusion` | include/exoplanetFinder/detectExoplanets.cpp:172-212 | at the end every kept pair is accounted for, and nothing was detected exactly when no pair is kept |
| `ExoplanetFinder.PlanetInDataPrecise` | include/exoplanetFinder/detectExoplanets.cpp:164-213 | each detection is the candidate of a kept pair, in visiting order; each period is at least 2 TTVRange below every earlier one; every kept pair is detected or discarded by an earlier detection; empty exactly when no pair is kept |
| `ExoplanetFinder.SearchFrom` | include/exoplanetFinder/detectExoplanets.cpp:173-209 | the inner loop for one first index only appends detections, never changes earlier ones, and keeps the search invariant |
| `ExoplanetFinder.OneDetectionPerStart` | include/exoplanetFinder/detectExoplanets.cpp:172-207 | on increasing dates, no two detections share a first index and periods strictly decrease |
| `ExoplanetFinder.FindPlanetsPrecise` | include/exoplanetFinder/detectExoplanets.cpp:271-283 | stops on a length mismatch; otherwise the planets are the concatenation, in bucket order, of one precise-matcher result per bucket: within a bucket each planet comes from a kept pair, 2 TTVRange below every earlier one; every kept pair of every bucket is accounted for; a bucket contributes nothing exactly when it has fewer than 3 samples or no kept pair |
| `ExoplanetFinder.CollectBucket` | include/exoplanetFinder/detectExoplanets.cpp:279-283 | one iteration appends bucket b's precise result to the planets and keeps the per-bucket bookkeeping |
| `ExoplanetFinder.AppendSearched` | include/exoplanetFinder/detectExoplanets.cpp:282 | recording bucket b's result keeps the planets equal to the concatenation of the per-bucket results |
| `ExoplanetFinder.AllSearchedAt` | include/exoplanetFinder/detectExoplanets.cpp:279-283 | the recorded part of any one bucket is a precise-matcher result on that bucket |
| `ExoplanetFinder.AllSearchedEach` | include/exoplanetFinder/detectExoplanets.cpp:279-283 | the recorded part of every bucket is a precise-matcher result on that bucket |
| `ExoplanetFinder.ConcatOrigins` | include/exoplanetFinder/detectExoplanets.cpp:282 | after the insert, each planet still comes from a kept pair of its bucket, in bucket order |
| `ExoplanetFinder.ConcatSeparated` | include/exoplanetFinder/detectExoplanets.cpp:282 | after the insert, planets of the same bucket stay 2 TTVRange apart |
| `DetectExoplanets.FirstKept` | include/exoplanetFinder/detect_exoplanets.cpp:165-190 | the first kept pair at or after a given pair in visiting order; no kept pair lies between, and none at all when absent |
| `DetectExoplanets.PlanetInDataPrecise` | include/exoplanetFinder/detect_exoplanets.cpp:159-193 | no planet exactly when there are fewer than 3 samples or no kept pair |
| `DetectExoplanets.PlanetInDataPreciseFirstPair` | include/exoplanetFinder/detect_exoplanets.cpp:186-188 | a detection is the candidate of the first kept pair in visiting order: date and flux of sample i, period date[j] - date[i] |
| `DetectExoplanets.FirstKeptUnique` | include/exoplanetFinder/detect_exoplanets.cpp:165-190 | a kept pair that no kept pair precedes is the one the search returns |
| `DetectExoplanets.FirstKeptFrom` | include/exoplanetFinder/detect_exoplanets.cpp:166-189 | the inner loop returns the first j whose pair with i is kept, or none |
| `DetectExoplanets.PlanetInDataPreciseLoop` | include/exoplanetFinder/detect_exoplanets.cpp:159-193 | the nested loops with an early return compute the first-kept-pair detection |
| `DetectExoplanets.FindPlanetsPrecise` | include/exoplanetFinder/detect_exoplanets.cpp:251-265 | stops on a length mismatch; otherwise at most one planet per bucket |
| `DetectExoplanets.FindPlanetsPrecisePerBucket` | include/exoplanetFinder/detect_exoplanets.cpp:259-265 | the planets are the precise detections in bucket order, one for each bucket that has one |
| `DetectExoplanets.FirstDetectionAgrees` | include/exoplanetFinder/detect_exoplanets.cpp:159-193 | the first detection of the struct generation's exhaustive search is the map generation's single detection, and both find nothing on the same buckets |
| `CsvParse.FirstComma` | include/exoSpotter/parseData.cpp:41 | the position of the first comma, none exactly when there is no comma |
| `CsvParse.SplitAtComma` | include/parseData.cpp:27-39 | without a comma, fatal; otherwise the token is the flux text, a comma and the date text, with no comma in the flux text |
| `CsvParse.ClassifyFiltered` | include/exoSpotter/parseData.cpp:26-46 | skipped exactly when some character is not a comma, a point or a digit; fatal exactly when all are allowed and there is no comma; otherwise split at the first comma |
| `CsvParse.ReadAll` | include/exoSpotter/parseData.cpp:23-53 | what is read is a valid light curve with at most one sample per token |
| `CsvParse.ReadAllSucceeds` | include/exoSpotter/parseData.cpp:23-53 | reading succeeds exactly when no token is fatal and every field text converts |
| `CsvParse.ReadOutFields` | include/exoSpotter/parseData.cpp:48-52 | a token with fields appends its converted flux and date as one sample |
| `CsvParse.ReadOutSkip` | include/exoSpotter/parseData.cpp:36-38 | a skipped token adds no sample |
| `CsvParse.ReadAllContents` | include/exoSpotter/parseData.cpp:23-53 | a successful read holds one sample per token with fields, in token order, converted from that token's two texts |
| `CsvParse.ReadData` | include/exoplanetFinder/parseData.cpp:13-60 | a successful read is a valid light curve with at most one sample per token |
| `CsvParse.ReadDataSucceeds` | include/exoplanetFinder/parseData.cpp:26-56 | readData succeeds exactly when every token is non-fatal and both of its texts convert |
| `CsvParse.ReadDataContents` | include/exoplanetFinder/parseData.cpp:43-55 | on success, one sample per token with fields, in token order, converted from the texts before and after its first comma |
| `CsvParse.FilterSkipsSignsAndLetters` | include/exoplanetFinder/parseData.cpp:29-41 | a token with a sign or a letter is skipped by the filtering readers |
| `CsvParse.HeaderReachesConversion` | include/parseData.cpp:27-36 | the reader without a filter hands the converter's header "flux,julian_date" to the float conversion |
| `CsvParse.HeaderSkipped` | include/exoSpotter/parseData.cpp:26-38 | the filtering readers skip that header |
| `CsvParse.SecondCommaExample` | include/exoSpotter/parseData.cpp:41-52 | later commas stay in the date text |
| `ConvertData.NormalizeData` | tools/fits_to_csv/convert_data.py:29-40 | ZeroDivisionError exactly when the list is empty or sums to 0; otherwise each output times the average is its input |
| `ConvertData.NormalizeDataLoop` | tools/fits_to_csv/convert_data.py:29-40 | the summing loop, the division and the comprehension compute that result |
| `ConvertData.NormalizedAverageIsOne` | tools/fits_to_csv/convert_data.py:29-40 | normalized fluxes average exactly 1 |
| `ConvertData.NormalizeIdempotent` | tools/fits_to_csv/convert_data.py:29-40 | normalizing normalized fluxes changes nothing |
| `ConvertData.RemoveNan` | tools/fits_to_csv/convert_data.py:43-52 | IndexError exactly when a numeric flux has no date at its index; otherwise equally long outputs holding no NaN |
| `ConvertData.RemoveNanKeeps` | tools/fits_to_csv/convert_data.py:47-50 | the kept samples are exactly those whose flux is a number, in order, each date still with its own flux |
| `ConvertData.Convert` | tools/fits_to_csv/convert_data.py:66-75 | IndexError when the columns differ in length; already normalized data always converts; the output columns are equally long |
| `ConvertData.ConvertNormalizes` | tools/fits_to_csv/convert_data.py:71-75 | converting data that is not yet normalized fails exactly when no flux is a number or the numbers sum to 0, and otherwise gives fluxes averaging 1 |

## Findings

| source | as written | input that shows it | evidently intended | confidence | as-written member | corrected member |
|---|---|---|---|---|---|---|
| include/exoSpotter/exoSpotter.cpp:222 | unqualified `abs` on a float difference; with libstdc++ only `int abs(int)` is visible, so the difference is truncated toward zero before the threshold test (the same at exoSpotter.cpp:192-201 and 258, detectExoplanets.cpp:113-193 and detect_exoplanets.cpp:108-186) | fluxes 0.9 then 0.5 with samePlanetSizeThreshold 0.01 share one bucket; gaps 10 and 10.9 with TTVRange 0.5 pass the even-gaps test; dates 0, 0.5 and target 0 move the closest-date scan past 0 | the real absolute difference, as `fabs` gives it elsewhere in the same file | not executed; depends on the standard library | `SizeBucketer.TruncatedFitExample` | `SizeBucketer.FirstFit` |

## Left out

- The unqualified `abs` calls are modelled as the floating-point overload,
  which MSVC and libc++ select. With libstdc++ only `int abs(int)` is in
  scope, so the size bucketing, the even-gaps test, the closest-date scans
  and the TTVRange tests compare truncated differences instead (whole flux
  units, whole days). That behaviour is not the model; it appears only in
  the "## Findings" examples. The `fabs` calls of the canonical precise
  matcher are not affected.

- I/O is not modelled: opening files, the `while (file)` loops, printing,
  `printVerbose`, `operator<<`, the Python prompts and the FITS reading.
  Whitespace splitting is not modelled either: the readers take a list of
  tokens.
- When `file >> line` fails at the end of the file, the readers process the
  previous token again. This is stream behaviour and is not modelled.
- `std::stof` is a parameter returning an optional real. A conversion error
  is a `Failure` instead of an uncaught exception.
- `exit(1)`, `exit(2)`, `invalid_argument`, `ZeroDivisionError` and
  `IndexError` end the run. They are `Failure` results with the exit code or
  the exception.
- Float rounding, infinities and NaN arithmetic are not modelled: every
  computation is exact real arithmetic. NaN appears only as a separate flux
  value in the converter.
- `findSemiMajAxis` is not modelled, because it needs a cube root.
  `findRadiusRatio` returns the radicand of its square root.
- `minimumConfidence` and `planetsInData` are declared in the canonical
  header but never defined or used, so they are not modelled.
- The test drivers (`test/`) are not part of this model.
- `Lightcurves.Lightcurve.Slice` requires in-range indices when begin <= end.
  The source reads out of range otherwise, which has no defined result.
- `Lightcurves.NewExoplanet` requires at least two datapoints. With fewer, the
  source divides by zero, and every caller passes three.
- `ExoSpotter.PlanetInDataPrecise` requires strictly increasing dates in its
  bucket. With a repeated or decreasing date, the period is 0 or negative.
  The source then divides by zero, and its extrapolation loop may never end.
- `ExoSpotter.FindPlanetsPrecise` requires raw dates that strictly increase,
  or that never go backwards while `maxTransitDurationDays` is not
  negative. A file read by `readData` ends in a repeated sample, and
  grouping merges equal dates, so the buckets still strictly increase
  (`Pipeline.BucketsInTimeOrder`). Decreasing raw dates, or repeated ones
  under a negative duration, are not covered: they can give a bucket with a
  repeated date, where the source divides by zero.
- `ExoSpotter.Match` states only the range of the match. Its meaning is
  `NearestDate.ClosestIndex`.
- `TransitGrouper.GroupedAreWindowPeaks` states that every grouped sample is
  the deepest sample of its own window. It does not state that every window
  contributes one.
- `ExoSpotter.FindPlanets`, `ExoplanetFinder.FindPlanets` and
  `DetectExoplanets.FindPlanetsPrecise` state only the count bound. Their
  per-bucket contents are stated by the `PerBucket` lemmas.
- The ghost outputs of the precise matchers (`pairs`, `bucketOf`,
  `perBucket`, `perPairs`) name each detection's origin and each bucket's
  own result. The source has no such outputs.
- The struct and map generations share the fast matcher, the filter and the
  stages: they store the same two sequences in a record or in a map. Each
  shared piece is modelled once.

=== FILE: bucketer.dfy ===
/**
 splitDatapoints: first-fit bucketing of the grouped transits by depth. Each
 sample joins the first bucket whose FIRST flux lies within
 samePlanetSizeThreshold of its own flux, or starts a new bucket.
 */
module SizeBucketer {
  import opened Common
  import opened Lightcurves

  /** Every bucket is a valid, non-empty lightcurve. */
  predicate WellFormed(buckets: seq<Lightcurve>)
  {
    forall b :: 0 <= b < |buckets| ==> buckets[b].Valid() && buckets[b].Size() > 0
  }

  /** The comparison against a bucket's first member. */
  predicate Fits(bucket: Lightcurve, f: real, threshold: real)
    requires bucket.Size() > 0
  {
    Abs(bucket.flux[0] - f) <= threshold
  }

  /** The comparison as written when abs resolves to int abs(int): the
      distance is cut to whole units before it meets the threshold. */
  predicate FitsAsWritten(bucket: Lightcurve, f: real, threshold: real)
    requires bucket.Size() > 0
  {
    IntAbs(bucket.flux[0] - f) as real <= threshold
  }

  /** The truncating comparison accepts every sample the real one does. */
  lemma FitsAsWrittenAdmitsMore(bucket: Lightcurve, f: real, threshold: real)
    requires bucket.Size() > 0
    ensures Fits(bucket, f, threshold) ==> FitsAsWritten(bucket, f, threshold)
  {
  }

  /** With threshold 0.01, flux 0.5 joins the bucket of flux 0.9 under the
      truncating comparison (whole part of 0.4 is 0), but not under the real
      one. */
  lemma TruncatedFitExample()
    ensures var bucket := Lightcurve([0.9], [1.0]);
            FitsAsWritten(bucket, 0.5, 0.01) && !Fits(bucket, 0.5, 0.01)
  {
    var bucket := Lightcurve([0.9], [1.0]);
    assert Trunc(0.9 - 0.5) == 0;
  }

  /** The inner loop: the first bucket from j on that f fits, or |buckets|. */
  function FirstFit(buckets: seq<Lightcurve>, f: real, threshold: real, j: nat): (r: nat)
    requires WellFormed(buckets) && j <= |buckets|
    ensures j <= r <= |buckets|
    ensures r < |buckets| ==> Fits(buckets[r], f, threshold)
    ensures forall b :: j <= b < r ==> !Fits(buckets[b], f, threshold)
    decreases |buckets| - j
  {
    if j == |buckets| then j
    else if Fits(buckets[j], f, threshold) then j
    else FirstFit(buckets, f, threshold, j + 1)
  }

  /** One outer iteration: append (f, d) to the first fitting bucket, or push
      a new one-sample bucket. */
  function Place(buckets: seq<Lightcurve>, f: real, d: real, threshold: real): (r: seq<Lightcurve>)
    requires WellFormed(buckets)
    ensures |r| == |buckets| + 1 <==> forall b :: 0 <= b < |buckets| ==> !Fits(buckets[b], f, threshold)
    ensures |r| == |buckets| + 1 ==> r == buckets + [Lightcurve([f], [d])]
    ensures |r| != |buckets| + 1 ==>
              exists j :: 0 <= j < |buckets| && Fits(buckets[j], f, threshold)
                && (forall b :: 0 <= b < j ==> !Fits(buckets[b], f, threshold))
                && r == buckets[j := buckets[j].AddPair(f, d)]
  {
    var j := FirstFit(buckets, f, threshold, 0);
    if j < |buckets| then buckets[j := buckets[j].AddPair(f, d)]
    else buckets + [Lightcurve([f], [d])]
  }

  /** Every later member lies within the threshold of its bucket's first
      flux (the first member need not, when the threshold is negative), and
      the first fluxes of two different buckets are more than the threshold
      apart. */
  predicate Coherent(buckets: seq<Lightcurve>, threshold: real)
    requires WellFormed(buckets)
  {
    && (forall b, k :: 0 <= b < |buckets| && 1 <= k < buckets[b].Size() ==>
          Abs(buckets[b].flux[k] - buckets[b].flux[0]) <= threshold)
    && (forall b1, b2 :: 0 <= b1 < b2 < |buckets| ==>
          Abs(buckets[b1].flux[0] - buckets[b2].flux[0]) > threshold)
  }

  /** The bucket a fitting sample joins stays within the threshold of its
      first flux. */
  lemma AppendedBucketCoherent(bucket: Lightcurve, f: real, d: real, threshold: real)
    requires bucket.Valid() && bucket.Size() > 0 && Fits(bucket, f, threshold)
    requires forall k :: 1 <= k < bucket.Size() ==> Abs(bucket.flux[k] - bucket.flux[0]) <= threshold
    ensures bucket.AddPair(f, d).flux[0] == bucket.flux[0]
    ensures forall k :: 1 <= k < bucket.AddPair(f, d).Size() ==>
              Abs(bucket.AddPair(f, d).flux[k] - bucket.AddPair(f, d).flux[0]) <= threshold
  {
    var nb := bucket.AddPair(f, d);
    assert nb.flux == bucket.flux + [f];
  }

  /** Replacing one bucket by a coherent one with the same first flux keeps
      the buckets coherent. */
  lemma UpdateKeepsCoherent(buckets: seq<Lightcurve>, j: nat, nb: Lightcurve, threshold: real)
    requires WellFormed(buckets) && Coherent(buckets, threshold) && j < |buckets|
    requires nb.Valid() && nb.Size() > 0 && nb.flux[0] == buckets[j].flux[0]
    requires forall k :: 1 <= k < nb.Size() ==> Abs(nb.flux[k] - nb.flux[0]) <= threshold
    ensures WellFormed(buckets[j := nb])
    ensures Coherent(buckets[j := nb], threshold)
  {
    var r := buckets[j := nb];
    forall b | 0 <= b < |r|
      ensures r[b].Valid() && r[b].Size() > 0 && r[b].flux[0] == buckets[b].flux[0]
      ensures forall k :: 1 <= k < r[b].Size() ==> Abs(r[b].flux[k] - r[b].flux[0]) <= threshold
    {
    }
  }

  /** Appending to the first fitting bucket keeps the buckets coherent. */
  lemma AppendKeepsCoherent(buckets: seq<Lightcurve>, f: real, d: real, threshold: real)
    requires WellFormed(buckets) && Coherent(buckets, threshold)
    requires FirstFit(buckets, f, threshold, 0) < |buckets|
    ensures WellFormed(Place(buckets, f, d, threshold))
    ensures Coherent(Place(buckets, f, d, threshold), threshold)
  {
    var j := FirstFit(buckets, f, threshold, 0);
    AppendedBucketCoherent(buckets[j], f, d, threshold);
    UpdateKeepsCoherent(buckets, j, buckets[j].AddPair(f, d), threshold);
  }

  /** Starting a new bucket keeps the buckets coherent: nothing fitted, so
      the new first flux is more than the threshold from every other. */
  lemma NewBucketKeepsCoherent(buckets: seq<Lightcurve>, f: real, d: real, threshold: real)
    requires WellFormed(buckets) && Coherent(buckets, threshold)
    requires FirstFit(buckets, f, threshold, 0) == |buckets|
    ensures WellFormed(Place(buckets, f, d, threshold))
    ensures Coherent(Place(buckets, f, d, threshold), threshold)
  {
    var r := Place(buckets, f, d, threshold);
    assert r == buckets + [Lightcurve([f], [d])];
    forall b | 0 <= b < |buckets|
      ensures Abs(r[b].flux[0] - r[|buckets|].flux[0]) > threshold
    {
      assert !Fits(buckets[b], f, threshold);
    }
  }

  /** Placing a sample keeps the buckets well formed and coherent, adds at
      most one bucket and leaves every bucket's first sample where it was. */
  lemma PlaceKeepsCoherent(buckets: seq<Lightcurve>, f: real, d: real, threshold: real)
    requires WellFormed(buckets) && Coherent(buckets, threshold)
    ensures WellFormed(Place(buckets, f, d, threshold))
    ensures Coherent(Place(buckets, f, d, threshold), threshold)
    ensures |buckets| <= |Place(buckets, f, d, threshold)| <= |buckets| + 1
    ensures forall b :: 0 <= b < |buckets| ==>
              Place(buckets, f, d, threshold)[b].flux[0] == buckets[b].flux[0]
  {
    if FirstFit(buckets, f, threshold, 0) < |buckets| {
      AppendKeepsCoherent(buckets, f, d, threshold);
    } else {
      NewBucketKeepsCoherent(buckets, f, d, threshold);
    }
  }

  /** The buckets after the first n samples. */
  function SplitScan(c: Lightcurve, threshold: real, n: nat): (r: seq<Lightcurve>)
    requires c.Valid() && n <= c.Size()
    ensures WellFormed(r) && Coherent(r, threshold)
    ensures |r| <= n
  {
    if n == 0 then []
    else
      var before := SplitScan(c, threshold, n - 1);
      PlaceKeepsCoherent(before, c.flux[n - 1], c.date[n - 1], threshold);
      Place(before, c.flux[n - 1], c.date[n - 1], threshold)
  }

  /** splitDatapoints. */
  function SplitDatapoints(c: Lightcurve, threshold: real): (r: seq<Lightcurve>)
    requires c.Valid()
    ensures WellFormed(r) && Coherent(r, threshold)
    ensures |r| <= c.Size()
  {
    SplitScan(c, threshold, c.Size())
  }

  /** The buckets partition the first n samples: bucket b holds the samples
      at positions idx[b], in input order; sample i is listed in bucket
      home[i], and every position listed in bucket b has home b (so each
      sample is in exactly one bucket); the buckets are in creation order,
      their first samples' positions increasing; and sample i did not fit
      any bucket before home[i]. */
  ghost predicate Partition(c: Lightcurve, threshold: real, n: nat, buckets: seq<Lightcurve>,
                            idx: seq<seq<nat>>, home: seq<nat>)
    requires c.Valid() && n <= c.Size() && WellFormed(buckets)
  {
    && |idx| == |buckets| && |home| == n
    && (forall b :: 0 <= b < |idx| ==> Increasing(idx[b], n) && buckets[b] == c.Pick(idx[b]))
    && (forall i :: 0 <= i < n ==> home[i] < |idx| && i in idx[home[i]])
    && (forall b, k :: 0 <= b < |idx| && 0 <= k < |idx[b]| ==> home[idx[b][k]] == b)
    && (forall b1, b2 :: 0 <= b1 < b2 < |idx| ==> idx[b1][0] < idx[b2][0])
    && (forall i, b :: 0 <= i < n && 0 <= b < home[i] ==> !Fits(buckets[b], c.flux[i], threshold))
  }

  /** Placing sample n keeps the buckets in creation order: an existing
      bucket keeps its first sample, and a new bucket starts at n, after
      every earlier position. */
  lemma PlaceHeads(n: nat, j: nat, idx: seq<seq<nat>>, idx': seq<seq<nat>>)
    requires j <= |idx|
    requires forall b :: 0 <= b < |idx| ==> |idx[b]| > 0
    requires forall b, k :: 0 <= b < |idx| && 0 <= k < |idx[b]| ==> idx[b][k] < n
    requires forall b1, b2 :: 0 <= b1 < b2 < |idx| ==> idx[b1][0] < idx[b2][0]
    requires if j < |idx| then idx' == idx[j := idx[j] + [n]] else idx' == idx + [[n]]
    ensures forall b :: 0 <= b < |idx'| ==> |idx'[b]| > 0
    ensures forall b1, b2 :: 0 <= b1 < b2 < |idx'| ==> idx'[b1][0] < idx'[b2][0]
  {
    forall b | 0 <= b < |idx|
      ensures |idx'[b]| > 0 && idx'[b][0] == idx[b][0]
    {
      if b == j {
        assert idx'[b] == idx[b] + [n];
      }
    }
  }

  /** Bucket j after placing sample n at it is the pick of idx[j] + [n];
      a new bucket is the pick of [n]. */
  lemma PlacePicks(c: Lightcurve, threshold: real, n: nat, before: seq<Lightcurve>,
                   idx: seq<seq<nat>>, idx': seq<seq<nat>>)
    requires c.Valid() && n < c.Size() && WellFormed(before)
    requires |idx| == |before|
    requires forall b :: 0 <= b < |idx| ==> Increasing(idx[b], n) && before[b] == c.Pick(idx[b])
    requires var j := FirstFit(before, c.flux[n], threshold, 0);
             if j < |before| then idx' == idx[j := idx[j] + [n]] else idx' == idx + [[n]]
    ensures |idx'| == |Place(before, c.flux[n], c.date[n], threshold)|
    ensures forall b :: 0 <= b < |idx'| ==>
              Increasing(idx'[b], n + 1) && Place(before, c.flux[n], c.date[n], threshold)[b] == c.Pick(idx'[b])
  {
    var after := Place(before, c.flux[n], c.date[n], threshold);
    var j := FirstFit(before, c.flux[n], threshold, 0);
    if j < |before| {
      PickSnoc(c, idx[j], n);
    } else {
      assert Lightcurve([c.flux[n]], [c.date[n]]) == c.Pick([n]);
    }
    forall b | 0 <= b < |idx'|
      ensures Increasing(idx'[b], n + 1) && after[b] == c.Pick(idx'[b])
    {
      if b == j {
        forall k | 0 <= k < |idx'[b]| - 1
          ensures idx'[b][k] < n
        {
          assert idx'[b][k] == idx[b][k];
        }
      } else {
        assert idx'[b] == idx[b] && after[b] == before[b];
      }
    }
  }

  /** Every sample up to n is listed in its home bucket, and every listed
      position has that bucket as its home, after placing sample n. */
  lemma PlaceHomes(n: nat, j: nat, idx: seq<seq<nat>>, home: seq<nat>, idx': seq<seq<nat>>, home': seq<nat>)
    requires j <= |idx| && |home| == n
    requires forall b, k :: 0 <= b < |idx| && 0 <= k < |idx[b]| ==> idx[b][k] < n
    requires forall i :: 0 <= i < n ==> home[i] < |idx| && i in idx[home[i]]
    requires forall b, k :: 0 <= b < |idx| && 0 <= k < |idx[b]| ==> home[idx[b][k]] == b
    requires if j < |idx| then idx' == idx[j := idx[j] + [n]] else idx' == idx + [[n]]
    requires home' == home + [j]
    ensures forall b, k :: 0 <= b < |idx'| && 0 <= k < |idx'[b]| ==> idx'[b][k] <= n
    ensures forall i :: 0 <= i < n + 1 ==> home'[i] < |idx'| && i in idx'[home'[i]]
    ensures forall b, k :: 0 <= b < |idx'| && 0 <= k < |idx'[b]| ==> home'[idx'[b][k]] == b
  {
    forall i | 0 <= i < n + 1
      ensures home'[i] < |idx'| && i in idx'[home'[i]]
    {
      if i < n {
        var b := home[i];
        assert i in idx[b];
        assert idx[b] <= idx'[b];
      } else {
        assert idx'[j][|idx'[j]| - 1] == n;
      }
    }
    forall b, k | 0 <= b < |idx'| && 0 <= k < |idx'[b]|
      ensures home'[idx'[b][k]] == b
    {
      if b < |idx| && k < |idx[b]| {
        assert idx'[b][k] == idx[b][k];
        assert idx[b][k] < n;
      } else {
        assert idx'[b][k] == n;
      }
    }
  }

  /** Placing sample n keeps the partition, with sample n in the bucket
      FirstFit chose. */
  lemma PlacePartition(c: Lightcurve, threshold: real, n: nat, before: seq<Lightcurve>,
                       idx: seq<seq<nat>>, home: seq<nat>)
    returns (idx': seq<seq<nat>>, home': seq<nat>)
    requires c.Valid() && n < c.Size()
    requires WellFormed(before) && Coherent(before, threshold)
    requires Partition(c, threshold, n, before, idx, home)
    ensures WellFormed(Place(before, c.flux[n], c.date[n], threshold))
    ensures Partition(c, threshold, n + 1, Place(before, c.flux[n], c.date[n], threshold), idx', home')
  {
    var after := Place(before, c.flux[n], c.date[n], threshold);
    var j := FirstFit(before, c.flux[n], threshold, 0);
    PlaceKeepsCoherent(before, c.flux[n], c.date[n], threshold);
    idx' := if j < |before| then idx[j := idx[j] + [n]] else idx + [[n]];
    home' := home + [j];
    PlacePicks(c, threshold, n, before, idx, idx');
    PlaceHomes(n, j, idx, home, idx', home');
    PlaceHeads(n, j, idx, idx');
    FirstFitKept(before, after, c.flux, threshold, home, home');
  }

  /** Placing sample n - 1 extends the partition of the scan to n samples. */
  lemma PlaceKeepsPartition(c: Lightcurve, threshold: real, n: nat, idx: seq<seq<nat>>, home: seq<nat>)
    returns (idx': seq<seq<nat>>, home': seq<nat>)
    requires c.Valid() && 0 < n <= c.Size()
    requires Partition(c, threshold, n - 1, SplitScan(c, threshold, n - 1), idx, home)
    ensures Partition(c, threshold, n, SplitScan(c, threshold, n), idx', home')
  {
    idx', home' := PlacePartition(c, threshold, n - 1, SplitScan(c, threshold, n - 1), idx, home);
  }

  /** The first-fit part of the partition survives placing one more sample:
      existing first fluxes do not change, and FirstFit skipped exactly the
      buckets the new sample did not fit. */
  lemma FirstFitKept(before: seq<Lightcurve>, after: seq<Lightcurve>, flux: seq<real>, threshold: real,
                     home: seq<nat>, home': seq<nat>)
    requires WellFormed(before) && WellFormed(after) && |before| <= |after|
    requires forall b :: 0 <= b < |before| ==> after[b].flux[0] == before[b].flux[0]
    requires |home| < |flux|
    requires forall i :: 0 <= i < |home| ==> home[i] < |before|
    requires forall i, b :: 0 <= i < |home| && 0 <= b < home[i] ==> !Fits(before[b], flux[i], threshold)
    requires home' == home + [FirstFit(before, flux[|home|], threshold, 0)]
    ensures forall i, b :: 0 <= i < |home'| && 0 <= b < home'[i] ==> !Fits(after[b], flux[i], threshold)
  {
    forall i, b | 0 <= i < |home'| && 0 <= b < home'[i]
      ensures !Fits(after[b], flux[i], threshold)
    {
      assert after[b].flux[0] == before[b].flux[0];
      if i < |home| {
        assert !Fits(before[b], flux[i], threshold);
      }
    }
  }

  /** Before any sample there are no buckets, and nothing to partition. */
  lemma PartitionStart(c: Lightcurve, threshold: real) returns (idx: seq<seq<nat>>, home: seq<nat>)
    requires c.Valid()
    ensures Partition(c, threshold, 0, SplitScan(c, threshold, 0), idx, home)
  {
    idx, home := [], [];
    assert SplitScan(c, threshold, 0) == [];
  }

  /** The loop invariant of splitDatapoints, established sample by sample. */
  lemma {:induction false} SplitScanPartition(c: Lightcurve, threshold: real, n: nat)
    returns (idx: seq<seq<nat>>, home: seq<nat>)
    requires c.Valid() && n <= c.Size()
    ensures Partition(c, threshold, n, SplitScan(c, threshold, n), idx, home)
  {
    if n == 0 {
      idx, home := PartitionStart(c, threshold);
    } else {
      var idx0, home0 := SplitScanPartition(c, threshold, n - 1);
      idx, home := PlaceKeepsPartition(c, threshold, n, idx0, home0);
    }
  }

  /**
   splitDatapoints partitions its input: every sample lands in exactly one
   bucket, buckets keep input order, and each sample went to the first bucket
   whose first flux it was within the threshold of.
   */
  lemma SplitIsFirstFitPartition(c: Lightcurve, threshold: real) returns (idx: seq<seq<nat>>, home: seq<nat>)
    requires c.Valid()
    ensures Partition(c, threshold, c.Size(), SplitDatapoints(c, threshold), idx, home)
  {
    idx, home := SplitScanPartition(c, threshold, c.Size());
  }

  /** In creation order the first bucket is the one sample 0 opened. */
  lemma PartitionOpensWithFirst(c: Lightcurve, threshold: real, n: nat, buckets: seq<Lightcurve>,
                                idx: seq<seq<nat>>, home: seq<nat>)
    requires c.Valid() && 0 < n <= c.Size() && WellFormed(buckets)
    requires Partition(c, threshold, n, buckets, idx, home)
    ensures |buckets| > 0 && idx[0][0] == 0 && buckets[0].flux[0] == c.flux[0]
  {
    var b := home[0];
    assert 0 in idx[b];
    var k :| 0 <= k < |idx[b]| && idx[b][k] == 0;
    assert forall k2 :: 0 < k2 < |idx[b]| ==> idx[b][0] < idx[b][k2];
    assert forall b2 :: 0 < b2 < |idx| ==> idx[0][0] < idx[b2][0];
    assert buckets[0] == c.Pick(idx[0]);
  }

  /** Creation order pins down which bucket comes first: with fluxes
      0, 0.8, 0.4 and threshold 0.5, the buckets [0.8, 0.4] then [0] hold the
      right samples and each fits its first flux, but they are not a
      partition, because the bucket of sample 0 was created first. */
  lemma CreationOrderExample(idx: seq<seq<nat>>, home: seq<nat>)
    ensures var c := Lightcurve([0.0, 0.8, 0.4], [0.0, 1.0, 2.0]);
            var swapped := [Lightcurve([0.8, 0.4], [1.0, 2.0]), Lightcurve([0.0], [0.0])];
            WellFormed(swapped) && !Partition(c, 0.5, 3, swapped, idx, home)
  {
    var c := Lightcurve([0.0, 0.8, 0.4], [0.0, 1.0, 2.0]);
    var swapped := [Lightcurve([0.8, 0.4], [1.0, 2.0]), Lightcurve([0.0], [0.0])];
    assert WellFormed(swapped);
    if Partition(c, 0.5, 3, swapped, idx, home) {
      PartitionOpensWithFirst(c, 0.5, 3, swapped, idx, home);
      assert false;
    }
  }

  /** Buckets taken from samples in time order are in time order. */
  lemma BucketsChronological(c: Lightcurve, threshold: real)
    requires c.Valid() && StrictlyIncreasing(c.date)
    ensures forall b :: 0 <= b < |SplitDatapoints(c, threshold)| ==>
              StrictlyIncreasing(SplitDatapoints(c, threshold)[b].date)
  {
    var idx, home := SplitIsFirstFitPartition(c, threshold);
    forall b | 0 <= b < |idx|
      ensures StrictlyIncreasing(SplitDatapoints(c, threshold)[b].date)
    {
      ProjectKeepsIncreasing(c.date, idx[b]);
    }
  }
}

=== FILE: common.dfy ===
/**
 Shared vocabulary for the model: optional values and results, the real-number
 helpers that stand in for the C++ <cmath> calls and casts, and index-based
 views of sequences used to state "order-preserving subsequence" properties.
 */
module Common {

  /** A value that may be absent (std::optional, or a "no planet" return). */
  datatype Option<+T> = None | Some(value: T)

  /** A computation that either yields a value or stops with an error
      (a thrown exception or a call to exit). */
  datatype Result<+T, +E> = Success(value: T) | Failure(error: E)

  /** abs / fabs on a real number. */
  function Abs(x: real): (r: real)
    ensures r >= 0.0
    ensures r == x || r == -x
  {
    if x < 0.0 then -x else x
  }

  /** abs on a floating-point difference when only int abs(int) is in scope:
      the difference is first converted to int, truncating toward zero, so
      the result is the whole part of the distance. */
  function IntAbs(x: real): (r: nat)
    ensures r as real <= Abs(x) < r as real + 1.0
  {
    var t := Trunc(x);
    if t < 0 then -t else t
  }

  /** Conversion of a floating-point value to int: truncation toward zero. */
  function Trunc(x: real): (r: int)
    ensures 0.0 <= x ==> 0 <= r && r as real <= x < r as real + 1.0
    ensures x < 0.0 ==> r <= 0 && r as real - 1.0 < x <= r as real
  {
    if x >= 0.0 then x.Floor else -((-x).Floor)
  }

  /** std::round: the nearest integer, halfway cases rounded away from zero. */
  function Round(x: real): (r: int)
    ensures 0.0 <= x ==> x - 0.5 < r as real <= x + 0.5
    ensures x < 0.0 ==> x - 0.5 <= r as real < x + 0.5
  {
    if x >= 0.0 then (x + 0.5).Floor else -((-x + 0.5).Floor)
  }

  /** Sum of a sequence, accumulated front to back as the source's loops do. */
  function Sum(s: seq<real>): real
  {
    if |s| == 0 then 0.0 else Sum(s[..|s| - 1]) + s[|s| - 1]
  }

  /** Dividing every element by c divides the sum by c. */
  lemma {:induction false} SumDivided(s: seq<real>, r: seq<real>, c: real)
    requires c != 0.0
    requires |r| == |s|
    requires forall i :: 0 <= i < |s| ==> r[i] == s[i] / c
    ensures Sum(r) == Sum(s) / c
  {
    if |s| > 0 {
      var n := |s| - 1;
      SumDivided(s[..n], r[..n], c);
      assert Sum(r) == Sum(s[..n]) / c + s[n] / c;
    }
  }

  /** Every later element is strictly larger (dates in time order). */
  predicate StrictlyIncreasing(s: seq<real>)
  {
    forall a, b :: 0 <= a < b < |s| ==> s[a] < s[b]
  }

  /** Taking increasing positions of an increasing sequence keeps it increasing. */
  lemma ProjectKeepsIncreasing(s: seq<real>, idx: seq<nat>)
    requires StrictlyIncreasing(s)
    requires Increasing(idx, |s|)
    ensures StrictlyIncreasing(Project(s, idx))
  {
  }

  /** No later element is smaller: dates in time order, repeats allowed. */
  predicate NonDecreasing(s: seq<real>)
  {
    forall a, b :: 0 <= a < b < |s| ==> s[a] <= s[b]
  }

  /** Taking increasing positions of a non-decreasing sequence keeps it
      non-decreasing. */
  lemma ProjectKeepsNonDecreasing(s: seq<real>, idx: seq<nat>)
    requires NonDecreasing(s)
    requires Increasing(idx, |s|)
    ensures NonDecreasing(Project(s, idx))
  {
  }

  /** idx lists positions of a sequence of length n, strictly increasing. */
  predicate Increasing(idx: seq<nat>, n: nat)
  {
    && (forall k :: 0 <= k < |idx| ==> idx[k] < n)
    && (forall k1, k2 :: 0 <= k1 < k2 < |idx| ==> idx[k1] < idx[k2])
  }

  /** Strictly increasing positions inside [0, n) are at most n many. */
  lemma {:induction false} IncreasingLength(idx: seq<nat>, n: nat)
    requires Increasing(idx, n)
    ensures |idx| <= n
  {
    if |idx| > 0 {
      var last := idx[|idx| - 1];
      IncreasingLength(idx[..|idx| - 1], last);
    }
  }

  /** The elements of s at the positions idx, in that order. */
  function Project<T>(s: seq<T>, idx: seq<nat>): (r: seq<T>)
    requires forall k :: 0 <= k < |idx| ==> idx[k] < |s|
    ensures |r| == |idx|
    ensures forall k :: 0 <= k < |idx| ==> r[k] == s[idx[k]]
  {
    seq(|idx|, k requires 0 <= k < |idx| => s[idx[k]])
  }

  /** The positions, in order, of the elements of s that satisfy keep. */
  function Where<T>(s: seq<T>, keep: T -> bool): (idx: seq<nat>)
    ensures Increasing(idx, |s|)
    ensures forall i :: 0 <= i < |s| ==> (i in idx <==> keep(s[i]))
  {
    if |s| == 0 then []
    else
      var init := Where(s[..|s| - 1], keep);
      if keep(s[|s| - 1]) then init + [|s| - 1] else init
  }

  /** The sequences of s joined end to end, in order. */
  function Flatten<T>(s: seq<seq<T>>): seq<T>
  {
    if |s| == 0 then [] else Flatten(s[..|s| - 1]) + s[|s| - 1]
  }

  /** The present values of a sequence of options, in order. */
  function Somes<T>(s: seq<Option<T>>): (r: seq<T>)
    ensures |r| <= |s|
  {
    if |s| == 0 then []
    else
      var init := Somes(s[..|s| - 1]);
      match s[|s| - 1]
      case Some(x) => init + [x]
      case None => init
  }

  /** Somes keeps exactly the present entries, in their original order. */
  lemma {:induction false} SomesInOrder<T>(s: seq<Option<T>>) returns (idx: seq<nat>)
    ensures Increasing(idx, |s|)
    ensures |idx| == |Somes(s)|
    ensures forall k :: 0 <= k < |idx| ==> s[idx[k]] == Some(Somes(s)[k])
    ensures forall i :: 0 <= i < |s| && s[i].Some? ==> i in idx
  {
    if |s| == 0 {
      idx := [];
    } else {
      var n := |s| - 1;
      var prefix := s[..n];
      var init := SomesInOrder(prefix);
      assert forall i :: 0 <= i < n ==> prefix[i] == s[i];
      if s[n].Some? {
        assert Somes(s) == Somes(prefix) + [s[n].value];
        idx := init + [n];
      } else {
        assert Somes(s) == Somes(prefix);
        idx := init;
      }
    }
  }
}

=== FILE: convert.dfy ===
/**
 The two list helpers of the FITS-to-CSV converter and the part of its main
 routine that uses them: drop the samples whose flux is NaN, then rescale
 the fluxes so that their average is 1. Python floats are exact reals here
 with NaN as a separate value; infinities and rounding are not modelled.
 */
module ConvertData {
  import opened Common

  /** A Python float: a number or NaN. */
  datatype PyFloat = Num(v: real) | NaN

  /** The exceptions the converter raises. */
  datatype PyError = ZeroDivisionError | IndexError

  /** The flux is a number (math.isnan is false). */
  predicate IsNum(f: PyFloat)
  {
    f.Num?
  }

  /** The average of the fluxes as normalize_data computes it: the running
      sum divided by the length. */
  function Average(fluxes: seq<real>): real
    requires |fluxes| > 0
  {
    Sum(fluxes) / (|fluxes| as real)
  }

  /**
   normalize_data: ZeroDivisionError for an empty list (the division by the
   length) or an average of 0; otherwise every flux divided by the average.
   */
  function NormalizeData(fluxes: seq<real>): (r: Result<seq<real>, PyError>)
    ensures r.Failure? <==> |fluxes| == 0 || Sum(fluxes) == 0.0
    ensures r.Failure? ==> r.error == ZeroDivisionError
    ensures r.Success? ==> |r.value| == |fluxes|
    ensures r.Success? ==> forall i :: 0 <= i < |fluxes| ==> r.value[i] * Average(fluxes) == fluxes[i]
  {
    if |fluxes| == 0 then Failure(ZeroDivisionError)
    else
      var average := Average(fluxes);
      if average == 0.0 then Failure(ZeroDivisionError)
      else Success(seq(|fluxes|, i requires 0 <= i < |fluxes| => fluxes[i] / average))
  }

  /** normalize_data as written: one loop for the sum, a division by the
      length, the zero test, then the list comprehension. */
  method NormalizeDataLoop(fluxes: seq<real>) returns (r: Result<seq<real>, PyError>)
    ensures r == NormalizeData(fluxes)
  {
    var average := 0.0;
    var i := 0;
    while i < |fluxes|
      invariant 0 <= i <= |fluxes|
      invariant average == Sum(fluxes[..i])
    {
      assert fluxes[..i + 1][..i] == fluxes[..i];
      average := average + fluxes[i];
      i := i + 1;
    }
    assert fluxes[..|fluxes|] == fluxes;
    if |fluxes| == 0 {
      return Failure(ZeroDivisionError);
    }
    average := average / (|fluxes| as real);
    if average == 0.0 {
      return Failure(ZeroDivisionError);
    }
    var out := [];
    var k := 0;
    while k < |fluxes|
      invariant 0 <= k <= |fluxes|
      invariant |out| == k
      invariant forall j :: 0 <= j < k ==> out[j] == fluxes[j] / average
    {
      out := out + [fluxes[k] / average];
      k := k + 1;
    }
    assert out == NormalizeData(fluxes).value;
    return Success(out);
  }

  /** Dividing a total by its own mean over n gives n back. */
  lemma TotalOverMean(total: real, n: real, average: real)
    requires n > 0.0 && average == total / n && average != 0.0
    ensures (total / average) / n == 1.0
  {
    assert total == average * n;
    assert total / average == n;
  }

  /** Normalized data follows the "1 = average flux" convention: its
      average is exactly 1. */
  lemma NormalizedAverageIsOne(fluxes: seq<real>)
    requires NormalizeData(fluxes).Success?
    ensures Average(NormalizeData(fluxes).value) == 1.0
  {
    var r := NormalizeData(fluxes).value;
    var average := Average(fluxes);
    assert forall i :: 0 <= i < |fluxes| ==> r[i] == fluxes[i] / average;
    SumDivided(fluxes, r, average);
    TotalOverMean(Sum(fluxes), |fluxes| as real, average);
  }

  /** Normalizing normalized data changes nothing. */
  lemma NormalizeIdempotent(fluxes: seq<real>)
    requires NormalizeData(fluxes).Success?
    ensures NormalizeData(NormalizeData(fluxes).value) == NormalizeData(fluxes)
  {
    var r := NormalizeData(fluxes).value;
    NormalizedAverageIsOne(fluxes);
    assert Sum(r) != 0.0;
    assert NormalizeData(r).value == r;
  }

  /**
   remove_nan: walk the fluxes in order and keep each (date, flux) whose flux
   is a number. A kept flux past the end of the dates raises IndexError;
   dropped samples never touch the dates.
   */
  function RemoveNan<D>(dates: seq<D>, fluxes: seq<PyFloat>): (r: Result<(seq<D>, seq<PyFloat>), PyError>)
    ensures r.Failure? <==> exists i :: |dates| <= i < |fluxes| && IsNum(fluxes[i])
    ensures r.Failure? ==> r.error == IndexError
    ensures r.Success? ==> |r.value.0| == |r.value.1| <= |fluxes|
    ensures r.Success? ==> forall k :: 0 <= k < |r.value.1| ==> IsNum(r.value.1[k])
  {
    if |fluxes| == 0 then Success(([], []))
    else
      var n := |fluxes| - 1;
      assert forall i :: 0 <= i < n ==> fluxes[..n][i] == fluxes[i];
      match RemoveNan(dates, fluxes[..n])
      case Failure(e) => Failure(e)
      case Success(kept) =>
        if !IsNum(fluxes[n]) then Success(kept)
        else if n < |dates| then Success((kept.0 + [dates[n]], kept.1 + [fluxes[n]]))
        else Failure(IndexError)
  }

  /**
   What remove_nan keeps: exactly the samples whose flux is a number, in
   their original order, each date still paired with its own flux; so the
   count is the number of fluxes that are not NaN.
   */
  lemma {:induction false} RemoveNanKeeps<D>(dates: seq<D>, fluxes: seq<PyFloat>)
    requires RemoveNan(dates, fluxes).Success?
    ensures forall k :: 0 <= k < |Where(fluxes, IsNum)| ==> Where(fluxes, IsNum)[k] < |dates|
    ensures RemoveNan(dates, fluxes).value.0 == Project(dates, Where(fluxes, IsNum))
    ensures RemoveNan(dates, fluxes).value.1 == Project(fluxes, Where(fluxes, IsNum))
  {
    if |fluxes| > 0 {
      var n := |fluxes| - 1;
      RemoveNanKeeps(dates, fluxes[..n]);
      var idx0 := Where(fluxes[..n], IsNum);
      var idx := Where(fluxes, IsNum);
      var kept := RemoveNan(dates, fluxes[..n]).value;
      forall k | 0 <= k < |idx0|
        ensures fluxes[idx0[k]] == fluxes[..n][idx0[k]]
      {
      }
      if IsNum(fluxes[n]) {
        assert idx == idx0 + [n];
        assert RemoveNan(dates, fluxes).value == (kept.0 + [dates[n]], kept.1 + [fluxes[n]]);
      } else {
        assert idx == idx0;
      }
    }
  }

  /** The length check in main guarantees remove_nan does not raise. */
  lemma RemoveNanEqualLengths<D>(dates: seq<D>, fluxes: seq<PyFloat>)
    requires |dates| == |fluxes|
    ensures RemoveNan(dates, fluxes).Success?
  {
  }

  /** The flux values of a NaN-free list. */
  function Values(fluxes: seq<PyFloat>): (r: seq<real>)
    requires forall k :: 0 <= k < |fluxes| ==> fluxes[k].Num?
    ensures |r| == |fluxes|
    ensures forall k :: 0 <= k < |fluxes| ==> fluxes[k] == Num(r[k])
  {
    seq(|fluxes|, k requires 0 <= k < |fluxes| => fluxes[k].v)
  }

  /**
   The data main writes: IndexError when the two columns differ in length,
   then remove_nan, then normalize_data unless the user said the data is
   already normalized.
   */
  function Convert<D>(dates: seq<D>, fluxes: seq<PyFloat>, normalized: bool): (r: Result<(seq<D>, seq<real>), PyError>)
    ensures r.Success? ==> |dates| == |fluxes| && |r.value.0| == |r.value.1|
    ensures |dates| != |fluxes| ==> r == Failure(IndexError)
    ensures |dates| == |fluxes| && normalized ==> r.Success?
  {
    if |dates| != |fluxes| then Failure(IndexError)
    else
      RemoveNanEqualLengths(dates, fluxes);
      var kept := RemoveNan(dates, fluxes).value;
      var values := Values(kept.1);
      if normalized then Success((kept.0, values))
      else
        match NormalizeData(values)
        case Failure(e) => Failure(e)
        case Success(scaled) => Success((kept.0, scaled))
  }

  /** Converting data that is not yet normalized fails exactly when no flux
      is a number or the numbers sum to 0, and otherwise yields fluxes of
      average 1. */
  lemma ConvertNormalizes<D>(dates: seq<D>, fluxes: seq<PyFloat>)
    requires |dates| == |fluxes|
    ensures Convert(dates, fluxes, false).Failure? <==>
              var values := Values(RemoveNan(dates, fluxes).value.1);
              |values| == 0 || Sum(values) == 0.0
    ensures Convert(dates, fluxes, false).Success? ==> Average(Convert(dates, fluxes, false).value.1) == 1.0
  {
    RemoveNanEqualLengths(dates, fluxes);
    var values := Values(RemoveNan(dates, fluxes).value.1);
    if NormalizeData(values).Success? {
      NormalizedAverageIsOne(values);
    }
  }
}

=== FILE: detect.dfy ===
/**
 The map-based generation (DetectExoplanets). Its filter, stages, planet
 record and fast matcher are the struct generation's, over a "flux"/"date"
 map instead of a record; its precise matcher stops at the first kept pair
 and reports at most one planet per bucket.
 */
module DetectExoplanets {
  import opened Common
  import opened Lightcurves
  import opened ExoplanetFinder

  /** The search of planetInDataPrecise from the pair (i, j) on, in visiting
      order: the first kept pair, if any. */
  function FirstKept(date: seq<real>, ttv: real, i: nat, j: nat): (r: Option<(nat, nat)>)
    requires i < j <= |date|
    ensures r.Some? ==> r.value.0 < r.value.1 < |date| && KeptStrictly(date, r.value.0, r.value.1, ttv)
    ensures r.Some? ==> !Before(r.value, (i, j))
    ensures r.Some? ==> forall i': nat, j': nat :: i' < j' < |date| && !Before((i', j'), (i, j)) && Before((i', j'), r.value) ==>
              !KeptStrictly(date, i', j', ttv)
    ensures r.None? ==> forall i': nat, j': nat :: i' < j' < |date| && !Before((i', j'), (i, j)) ==>
              !KeptStrictly(date, i', j', ttv)
    decreases |date| - i, |date| - j
  {
    if j < |date| then
      if KeptStrictly(date, i, j, ttv) then Some((i, j)) else FirstKept(date, ttv, i, j + 1)
    else if i + 2 < |date| then FirstKept(date, ttv, i + 1, i + 2)
    else None
  }

  /** planetInDataPrecise of this generation: the candidate of the first
      kept pair, or the default record. */
  function PlanetInDataPrecise(data: Lightcurve, ttv: real): (r: Planet)
    requires data.Valid()
    ensures !r.isPlanet <==>
              data.Size() < 3 || forall i, j :: 0 <= i < j < data.Size() ==> !KeptStrictly(data.date, i, j, ttv)
    ensures !r.isPlanet ==> r == NoPlanet
  {
    if data.Size() < 3 then NoPlanet
    else
      match FirstKept(data.date, ttv, 0, 1)
      case None => NoPlanet
      case Some(p) => CandidateOf(data, p.0, p.1)
  }

  /** A precise detection is the candidate of the kept pair (i, j) that no
      other kept pair precedes in visiting order: date and flux of sample i,
      period date[j] - date[i]. */
  lemma PlanetInDataPreciseFirstPair(data: Lightcurve, ttv: real) returns (i: nat, j: nat)
    requires data.Valid() && PlanetInDataPrecise(data, ttv).isPlanet
    ensures i < j < data.Size() && KeptStrictly(data.date, i, j, ttv)
    ensures forall i': nat, j': nat :: i' < j' < data.Size() && Before((i', j'), (i, j)) ==>
              !KeptStrictly(data.date, i', j', ttv)
    ensures PlanetInDataPrecise(data, ttv) == CandidateOf(data, i, j)
    ensures PlanetInDataPrecise(data, ttv).firstTransitDate == data.date[i]
    ensures PlanetInDataPrecise(data, ttv).period == data.date[j] - data.date[i]
  {
    var p := FirstKept(data.date, ttv, 0, 1).value;
    i, j := p.0, p.1;
  }

  /** Pairs are totally ordered by Before. */
  lemma BeforeTotal(p: (nat, nat), q: (nat, nat))
    requires !Before(p, q) && !Before(q, p)
    ensures p == q
  {
  }

  /** The kept pair that no kept pair precedes is the one FirstKept finds. */
  lemma FirstKeptUnique(date: seq<real>, ttv: real, i: nat, j: nat)
    requires i < j < |date| && KeptStrictly(date, i, j, ttv)
    requires forall i': nat, j': nat :: i' < j' < |date| && Before((i', j'), (i, j)) ==> !KeptStrictly(date, i', j', ttv)
    ensures FirstKept(date, ttv, 0, 1) == Some((i, j))
  {
    var r := FirstKept(date, ttv, 0, 1);
    assert !Before((i, j), (0, 1));
    var p := r.value;
    assert !Before(p, (i, j));
    assert !Before((i, j), p);
    BeforeTotal(p, (i, j));
  }

  /** The inner loop of planetInDataPrecise for the first index i: the
      first j > i whose pair is kept, if any. */
  method FirstKeptFrom(data: Lightcurve, ttv: real, i: nat) returns (hit: Option<nat>)
    requires data.Valid() && i < data.Size()
    ensures hit.Some? ==> i < hit.value < data.Size() && KeptStrictly(data.date, i, hit.value, ttv)
    ensures hit.Some? ==> forall j' :: i < j' < hit.value ==> !KeptStrictly(data.date, i, j', ttv)
    ensures hit.None? ==> forall j' :: i < j' < data.Size() ==> !KeptStrictly(data.date, i, j', ttv)
  {
    var j := i + 1;
    while j < data.Size()
      invariant i + 1 <= j <= data.Size()
      invariant forall j' :: i < j' < j ==> !KeptStrictly(data.date, i, j', ttv)
    {
      var period := data.date[j] - data.date[i];
      var nextExpectedTransit := data.date[j] + period;
      var closestIndex := NearestDate.FindClosestIndex(data.date, j, nextExpectedTransit);
      var closest := data.date[closestIndex];
      if Abs(nextExpectedTransit - closest) < ttv {
        return Some(j);
      }
      j := j + 1;
    }
    return None;
  }

  /** planetInDataPrecise as written: two nested loops, returning at the
      first pair whose projected transit has a date strictly within
      TTVRange. */
  method PlanetInDataPreciseLoop(data: Lightcurve, ttv: real) returns (r: Planet)
    requires data.Valid()
    ensures r == PlanetInDataPrecise(data, ttv)
  {
    var n := data.Size();
    if n < 3 {
      return NoPlanet;
    }
    var i := 0;
    while i < n
      invariant 0 <= i <= n
      invariant forall i': nat, j': nat :: i' < j' < n && i' < i ==> !KeptStrictly(data.date, i', j', ttv)
    {
      var hit := FirstKeptFrom(data, ttv, i);
      if hit.Some? {
        FirstKeptUnique(data.date, ttv, i, hit.value);
        return CandidateOf(data, i, hit.value);
      }
      i := i + 1;
    }
    return NoPlanet;
  }

  /** findPlanetsPrecise: the first-hit matcher over every bucket, keeping
      the records flagged as planets. */
  function FindPlanetsPrecise(fp: FindPlanet): (r: Result<seq<Planet>, Abort>)
    ensures r.Failure? <==> !fp.rawData.Valid()
    ensures r.Success? ==> |r.value| <= |fp.Buckets().value|
  {
    match fp.Buckets()
    case Failure(e) => Failure(e)
    case Success(buckets) =>
      Success(Somes(seq(|buckets|, b requires 0 <= b < |buckets| => IfPlanet(PlanetInDataPrecise(buckets[b], fp.ttvRange)))))
  }

  /** findPlanetsPrecise keeps, in bucket order, exactly the precise
      detections of the buckets that have one: at most one planet per
      bucket. */
  lemma FindPlanetsPrecisePerBucket(fp: FindPlanet) returns (idx: seq<nat>)
    requires fp.rawData.Valid()
    ensures Increasing(idx, |fp.Buckets().value|)
    ensures |idx| == |FindPlanetsPrecise(fp).value|
    ensures forall k :: 0 <= k < |idx| ==>
              FindPlanetsPrecise(fp).value[k] == PlanetInDataPrecise(fp.Buckets().value[idx[k]], fp.ttvRange)
    ensures forall b :: 0 <= b < |fp.Buckets().value| ==>
              (b in idx <==> PlanetInDataPrecise(fp.Buckets().value[b], fp.ttvRange).isPlanet)
  {
    var buckets := fp.Buckets().value;
    var found := seq(|buckets|, b requires 0 <= b < |buckets| => IfPlanet(PlanetInDataPrecise(buckets[b], fp.ttvRange)));
    idx := SomesInOrder(found);
    forall b | 0 <= b < |buckets| && b in idx
      ensures PlanetInDataPrecise(buckets[b], fp.ttvRange).isPlanet
    {
      var k :| 0 <= k < |idx| && idx[k] == b;
    }
  }

  /**
   The two precise matchers start alike: the first detection of the struct
   generation's exhaustive search (any results with its guarantees) is the
   map generation's single detection, since nothing precedes the first kept
   pair that could discard it.
   */
  lemma FirstDetectionAgrees(data: Lightcurve, ttv: real, detected: seq<Planet>, pairs: seq<(nat, nat)>)
    requires data.Valid() && data.Size() >= 3
    requires |pairs| == |detected|
    requires forall k :: 0 <= k < |pairs| ==> FromPair(data, ttv, pairs[k], detected[k])
    requires forall k1, k2 :: 0 <= k1 < k2 < |pairs| ==> Before(pairs[k1], pairs[k2])
    requires forall i, j :: 0 <= i < j < data.Size() && KeptStrictly(data.date, i, j, ttv) ==>
               Accounted(data, ttv, detected, pairs, i, j)
    ensures detected == [] <==> !PlanetInDataPrecise(data, ttv).isPlanet
    ensures detected != [] ==> detected[0] == PlanetInDataPrecise(data, ttv)
  {
    assert |detected| > 0 ==> FromPair(data, ttv, pairs[0], detected[0]);
    if PlanetInDataPrecise(data, ttv).isPlanet {
      var i, j := PlanetInDataPreciseFirstPair(data, ttv);
      assert Accounted(data, ttv, detected, pairs, i, j);
      var k :| 0 <= k < |pairs| && pairs[k] == (i, j);
      assert !Before(pairs[0], (i, j));
      assert k == 0;
    }
  }
}

=== FILE: exospotter.dfy ===
/**
 The period matchers of the canonical generation (FindPlanet): the fast
 triple scan, the exhaustive pair search with missed-transit counting and
 period deduplication, and the two findPlanets drivers.
 */
module ExoSpotter {
  import opened Common
  import opened Lightcurves
  import opened NearestDate
  import Pipeline

  /**
   The FindPlanet configuration. The header also declares a
   minimumConfidence, which the constructor never sets and no member reads,
   so it has no field here.
   */
  datatype FindPlanet = FindPlanet(
    rawData: Lightcurve,
    potentialPlanetThreshold: real,
    samePlanetSizeThreshold: real,
    maxTransitDurationDays: real,
    ttvRange: real,
    allowedMissedTransits: int)
  {
    predicate Valid()
    {
      rawData.Valid()
    }

    /** The buckets both findPlanets variants match periods in. */
    function Buckets(): (r: seq<Lightcurve>)
      requires Valid()
    {
      Pipeline.Buckets(rawData, potentialPlanetThreshold, maxTransitDurationDays, samePlanetSizeThreshold)
    }
  }

  // ---------------------------------------------------------------------
  // Fast matcher

  /** The two gaps of the triple starting at i differ by less than TTVRange. */
  predicate EvenGaps(date: seq<real>, i: nat, ttv: real)
    requires i + 2 < |date|
  {
    Abs((date[i + 2] - date[i + 1]) - (date[i + 1] - date[i])) < ttv
  }

  /** The even-gaps test as written when abs resolves to int abs(int). */
  predicate EvenGapsAsWritten(date: seq<real>, i: nat, ttv: real)
    requires i + 2 < |date|
  {
    IntAbs((date[i + 2] - date[i + 1]) - (date[i + 1] - date[i])) as real < ttv
  }

  /** Gaps of 10 and 10.9 days pass the truncating test with TTVRange 0.5,
      but not the real one. */
  lemma TruncatedEvenGapsExample()
    ensures EvenGapsAsWritten([0.0, 10.0, 20.9], 0, 0.5)
    ensures !EvenGaps([0.0, 10.0, 20.9], 0, 0.5)
  {
    assert Trunc((20.9 - 10.0) - (10.0 - 0.0)) == 0;
  }

  /** The scan of planetInData from position i: the first evenly spaced
      triple, if any. */
  function FirstEvenTriple(date: seq<real>, ttv: real, i: nat): (r: Option<nat>)
    ensures r.Some? ==> i <= r.value && r.value + 2 < |date| && EvenGaps(date, r.value, ttv)
    ensures r.Some? ==> forall m :: i <= m < r.value ==> !EvenGaps(date, m, ttv)
    ensures r.None? ==> forall m :: i <= m && m + 2 < |date| ==> !EvenGaps(date, m, ttv)
    decreases |date| - i
  {
    if i + 2 >= |date| then None
    else if EvenGaps(date, i, ttv) then Some(i)
    else FirstEvenTriple(date, ttv, i + 1)
  }

  /** planetInData: a detection from the first evenly spaced triple, with
      confidence 1, or none. */
  function PlanetInData(data: Lightcurve, ttv: real): (r: Option<Exoplanet>)
    requires data.Valid()
    ensures r.None? <==> data.Size() < 3 || forall m :: 0 <= m && m + 2 < data.Size() ==> !EvenGaps(data.date, m, ttv)
    ensures r.Some? ==> r.value.confidence == 1.0 && r.value.datapoints.Size() == 3
  {
    if data.Size() < 3 then None
    else
      match FirstEvenTriple(data.date, ttv, 0)
      case None => None
      case Some(i) => Some(NewExoplanet(data.Slice(i, i + 2), 1.0))
  }

  /**
   What a fast detection is: the three samples i, i + 1, i + 2 of the first
   evenly spaced triple, so its period is half the span of the triple.
   */
  lemma PlanetInDataFirstTriple(data: Lightcurve, ttv: real) returns (i: nat)
    requires data.Valid() && PlanetInData(data, ttv).Some?
    ensures i + 2 < data.Size() && EvenGaps(data.date, i, ttv)
    ensures forall m :: 0 <= m < i ==> !EvenGaps(data.date, m, ttv)
    ensures PlanetInData(data, ttv).value.datapoints == data.Slice(i, i + 2)
    ensures PlanetInData(data, ttv).value.averagePeriod * 2.0 == data.date[i + 2] - data.date[i]
  {
    i := FirstEvenTriple(data.date, ttv, 0).value;
  }

  /** Three evenly spaced dates are detected with their spacing as period. */
  lemma FastMatcherExample()
    ensures PlanetInData(Lightcurve([0.5, 0.5, 0.5], [0.0, 10.0, 20.0]), 0.01).Some?
    ensures PlanetInData(Lightcurve([0.5, 0.5, 0.5], [0.0, 10.0, 20.0]), 0.01).value.averagePeriod == 10.0
  {
    var data := Lightcurve([0.5, 0.5, 0.5], [0.0, 10.0, 20.0]);
    assert EvenGaps(data.date, 0, 0.01);
    var i := PlanetInDataFirstTriple(data, 0.01);
  }

  /** findPlanets: the fast matcher over every bucket, keeping the hits. */
  function FindPlanets(fp: FindPlanet): (r: seq<Exoplanet>)
    requires fp.Valid()
    ensures |r| <= |fp.Buckets()|
  {
    var buckets := fp.Buckets();
    Somes(seq(|buckets|, b requires 0 <= b < |buckets| => PlanetInData(buckets[b], fp.ttvRange)))
  }

  /** findPlanets reports at most one planet per bucket, in bucket order:
      exactly the fast detections of the buckets that have one. */
  lemma FindPlanetsPerBucket(fp: FindPlanet) returns (idx: seq<nat>)
    requires fp.Valid()
    ensures Increasing(idx, |fp.Buckets()|)
    ensures |idx| == |FindPlanets(fp)|
    ensures forall k :: 0 <= k < |idx| ==>
              PlanetInData(fp.Buckets()[idx[k]], fp.ttvRange) == Some(FindPlanets(fp)[k])
    ensures forall b :: 0 <= b < |fp.Buckets()| && PlanetInData(fp.Buckets()[b], fp.ttvRange).Some? ==> b in idx
  {
    var buckets := fp.Buckets();
    var found := seq(|buckets|, b requires 0 <= b < |buckets| => PlanetInData(buckets[b], fp.ttvRange));
    idx := SomesInOrder(found);
  }

  // ---------------------------------------------------------------------
  // Precise matcher

  /** The next transit the pair (i, j) predicts: one period after date[j]. */
  function Projection(date: seq<real>, i: nat, j: nat): real
    requires i < j < |date|
  {
    date[j] + (date[j] - date[i])
  }

  /** The position the scan from j settles on for that prediction. This is
      the closestIndex of the pair's first test; the extrapolation loop
      declares its own, so the candidate is built from this one. */
  function Match(date: seq<real>, i: nat, j: nat): (c: nat)
    requires i < j < |date|
    ensures j <= c < |date|
  {
    ClosestIndex(date, j, Projection(date, i, j))
  }

  /** The period of the pair's candidate: half the distance from date[i]
      to the matched date. */
  function PairPeriod(date: seq<real>, i: nat, j: nat): (r: real)
    requires StrictlyIncreasing(date) && i < j < |date|
    ensures r > 0.0
  {
    (date[Match(date, i, j)] - date[i]) / 2.0
  }

  /** The pair passes the first test: the sample found is at most TTVRange
      away from the prediction. */
  predicate Kept(date: seq<real>, i: nat, j: nat, ttv: real)
    requires i < j < |date|
  {
    Abs(date[Match(date, i, j)] - Projection(date, i, j)) <= ttv
  }

  /** The extrapolation step at projection next misses when the closest
      sample lies beyond the widening tolerance TTVRange * iter * 0.75. */
  predicate StepMisses(date: seq<real>, j: nat, next: real, iter: nat, ttv: real)
    requires j < |date|
  {
    Abs(date[ClosestIndex(date, j, next)] - next) > ttv * iter as real * 0.75
  }

  /** The misses the extrapolation loop counts from projection next and
      iteration iter on, while the following projection is before the last
      date. */
  function ExtraMisses(date: seq<real>, j: nat, period: real, next: real, iter: nat, ttv: real): (r: nat)
    requires j < |date| && period > 0.0
    ensures next + period >= date[|date| - 1] ==> r == 0
    ensures r > 0 ==> r as real < (date[|date| - 1] - next) / period
    decreases ((date[|date| - 1] - next) / period).Floor
  {
    var last := date[|date| - 1];
    if next + period < last then
      var next' := next + period;
      StepCloser(last, next, period);
      (if StepMisses(date, j, next', iter, ttv) then 1 else 0) + ExtraMisses(date, j, period, next', iter + 1, ttv)
    else 0
  }

  /** A product of two positive reals is positive. */
  lemma MulPositive(x: real, p: real)
    requires x > 0.0 && p > 0.0
    ensures x * p > 0.0
  {
  }

  /** One more period brings the projection one period closer to the last
      date, measured in periods; while the loop runs that is more than one. */
  lemma StepCloser(last: real, next: real, period: real)
    requires period > 0.0 && next + period < last
    ensures (last - (next + period)) / period == (last - next) / period - 1.0
    ensures (last - next) / period > 1.0
    ensures ((last - (next + period)) / period).Floor == ((last - next) / period).Floor - 1
  {
    var u := (last - next) / period;
    var v := (last - (next + period)) / period;
    var w := v - u + 1.0;
    assert u * period == last - next;
    assert v * period == last - (next + period);
    assert w * period == v * period - u * period + period;
    if w > 0.0 {
      MulPositive(w, period);
    } else if w < 0.0 {
      MulPositive(-w, period);
    }
  }

  /** The extrapolation loop of planetInDataPrecise. */
  method CountExtraMisses(date: seq<real>, j: nat, period: real, start: real, ttv: real) returns (missed: nat)
    requires j < |date| && period > 0.0
    ensures missed == ExtraMisses(date, j, period, start, 1, ttv)
  {
    missed := 0;
    var next := start;
    var iter: nat := 1;
    while next + period < date[|date| - 1]
      invariant missed + ExtraMisses(date, j, period, next, iter, ttv) == ExtraMisses(date, j, period, start, 1, ttv)
      decreases ((date[|date| - 1] - next) / period).Floor
    {
      StepCloser(date[|date| - 1], next, period);
      next := next + period;
      var closestIndex := FindClosestIndex(date, j, next);
      if Abs(date[closestIndex] - next) > ttv * iter as real * 0.75 {
        missed := missed + 1;
      }
      iter := iter + 1;
    }
  }

  /** expectedTransits: whole periods of the pair in the bucket's span. */
  function ExpectedTransits(date: seq<real>, i: nat, j: nat): (r: int)
    requires StrictlyIncreasing(date) && i < j < |date|
    ensures r >= 1
  {
    var period := date[j] - date[i];
    assert date[0] <= date[i] && date[j] <= date[|date| - 1];
    assert (date[|date| - 1] - date[0]) / period >= 1.0;
    Trunc((date[|date| - 1] - date[0]) / period)
  }

  /** missedTransits: the whole periods between the first raw date and
      date[i], plus the misses of the extrapolation. */
  function MissedTransits(date: seq<real>, rawFirst: real, i: nat, j: nat, ttv: real): int
    requires StrictlyIncreasing(date) && i < j < |date|
  {
    var period := date[j] - date[i];
    Trunc((date[i] - rawFirst) / period) + ExtraMisses(date, j, period, Projection(date, i, j), 1, ttv)
  }

  /** confidence = 1 - missed / expected, scaled back by expected. */
  lemma ConfidenceScaled(expected: int, missed: int)
    requires expected >= 1
    ensures (1.0 - missed as real / expected as real) * expected as real == (expected - missed) as real
  {
    var u := missed as real / expected as real;
    assert u * expected as real == missed as real;
  }

  /** The confidence of the pair (i, j): 1 - missed / expected, so that
      scaled back by the expected transits it is the ones not missed. */
  function Confidence(date: seq<real>, rawFirst: real, ttv: real, i: nat, j: nat): (r: real)
    requires StrictlyIncreasing(date) && i < j < |date|
    ensures r * ExpectedTransits(date, i, j) as real
              == (ExpectedTransits(date, i, j) - MissedTransits(date, rawFirst, i, j, ttv)) as real
  {
    var expected := ExpectedTransits(date, i, j);
    var missed := MissedTransits(date, rawFirst, i, j, ttv);
    ConfidenceScaled(expected, missed);
    1.0 - missed as real / expected as real
  }

  /**
   The candidate of the pair (i, j): the samples i, j and the match, with
   the pair's confidence. Its period is half the distance from date[i] to
   the matched date, and positive.
   */
  function CandidateAt(data: Lightcurve, rawFirst: real, ttv: real, i: nat, j: nat): (p: Exoplanet)
    requires data.Valid() && StrictlyIncreasing(data.date) && i < j < data.Size()
    ensures p.datapoints.date == [data.date[i], data.date[j], data.date[Match(data.date, i, j)]]
    ensures p.datapoints.flux == [data.flux[i], data.flux[j], data.flux[Match(data.date, i, j)]]
    ensures p.averagePeriod == PairPeriod(data.date, i, j)
    ensures p.confidence == Confidence(data.date, rawFirst, ttv, i, j)
  {
    var c := Match(data.date, i, j);
    var points := Lightcurve([data.flux[i], data.flux[j], data.flux[c]], [data.date[i], data.date[j], data.date[c]]);
    NewExoplanet(points, Confidence(data.date, rawFirst, ttv, i, j))
  }

  /** The acceptance gate: date[i] - date[0], measured in the candidate's
      period (an unrounded ratio), stays below allowedMissedTransits. The
      confidence plays no part. */
  predicate Gate(data: Lightcurve, i: nat, period: real, allowed: int)
    requires data.Valid() && i < data.Size() && period > 0.0
  {
    (data.date[i] - data.date[0]) / period < allowed as real
  }

  /** The pair (i, j) yields a candidate that passes the gate. */
  predicate Qualifies(data: Lightcurve, rawFirst: real, ttv: real, allowed: int, i: nat, j: nat)
    requires data.Valid() && StrictlyIncreasing(data.date) && i < j < data.Size()
  {
    Kept(data.date, i, j, ttv) && Gate(data, i, PairPeriod(data.date, i, j), allowed)
  }

  /**
   The duplicate test against one existing detection. The source binds
   greatest to its copy of the existing detection and smallest to the
   candidate, both as references; when the candidate's period is larger,
   "greatest = candidate" copies the candidate into that copy and
   "smallest = exoplanet" copies it back onto itself. So the smaller side is
   always the candidate, and the larger side is the candidate too when its
   period exceeds the existing one.
   */
  predicate Duplicate(candidate: Exoplanet, existing: Exoplanet, ttv: real)
    requires candidate.averagePeriod > 0.0
  {
    DuplicatePeriod(candidate.averagePeriod, existing.averagePeriod, ttv)
  }

  /** The duplicate test on the two periods alone. */
  predicate DuplicatePeriod(candidate: real, existing: real, ttv: real)
    requires candidate > 0.0
  {
    var greatest := if candidate > existing then candidate else existing;
    var smallest := candidate;
    Abs(greatest - smallest * Round(greatest / smallest) as real) < ttv
  }

  /** Because both sides become the candidate, a candidate with a longer
      period than an existing detection is a duplicate exactly when
      TTVRange is positive, whatever the two periods are. */
  lemma LongerPeriodIsDuplicate(candidate: Exoplanet, existing: Exoplanet, ttv: real)
    requires candidate.averagePeriod > 0.0
    requires candidate.averagePeriod > existing.averagePeriod
    ensures Duplicate(candidate, existing, ttv) <==> 0.0 < ttv
  {
    var p := candidate.averagePeriod;
    assert p / p == 1.0;
    assert Round(1.0) == 1;
  }

  /** A candidate whose period divides an existing detection's period a
      whole number of times is a duplicate when TTVRange is positive. */
  lemma HarmonicIsDuplicate(candidate: Exoplanet, existing: Exoplanet, ttv: real, m: nat)
    requires candidate.averagePeriod > 0.0 && m >= 1
    requires existing.averagePeriod == m as real * candidate.averagePeriod
    requires ttv > 0.0
    ensures Duplicate(candidate, existing, ttv)
  {
    var p := candidate.averagePeriod;
    if m == 1 {
      assert p / p == 1.0;
      assert Round(1.0) == 1;
    } else {
      assert existing.averagePeriod / p == m as real;
      assert Round(m as real) == m;
    }
  }

  /** With a positive TTVRange, detections that are pairwise not duplicates
      of their predecessors have non-increasing periods. */
  lemma PeriodsNonIncreasing(detected: seq<Exoplanet>, ttv: real)
    requires ttv > 0.0
    requires forall k :: 0 <= k < |detected| ==> detected[k].averagePeriod > 0.0
    requires forall k1, k2 :: 0 <= k1 < k2 < |detected| ==> !Duplicate(detected[k2], detected[k1], ttv)
    ensures forall k1, k2 :: 0 <= k1 < k2 < |detected| ==> detected[k2].averagePeriod <= detected[k1].averagePeriod
  {
    forall k1, k2 | 0 <= k1 < k2 < |detected|
      ensures detected[k2].averagePeriod <= detected[k1].averagePeriod
    {
      if detected[k2].averagePeriod > detected[k1].averagePeriod {
        LongerPeriodIsDuplicate(detected[k2], detected[k1], ttv);
      }
    }
  }

  /** The candidate of the pair (i, j), or none when it fails the first
      test: the body of the inner loop up to the gate. */
  method EvaluatePair(data: Lightcurve, rawFirst: real, ttv: real, i: nat, j: nat) returns (candidate: Option<Exoplanet>)
    requires data.Valid() && StrictlyIncreasing(data.date) && i < j < data.Size()
    ensures candidate.Some? <==> Kept(data.date, i, j, ttv)
    ensures candidate.Some? ==> candidate.value == CandidateAt(data, rawFirst, ttv, i, j)
  {
    var period := data.date[j] - data.date[i];
    var nextExpectedTransit := data.date[j] + period;
    var closestIndex := FindClosestIndex(data.date, j, nextExpectedTransit);
    assert closestIndex == Match(data.date, i, j);
    var closest := data.date[closestIndex];
    if Abs(closest - nextExpectedTransit) > ttv {
      return None;
    }
    var expectedTransits := ExpectedTransits(data.date, i, j);
    var missedTransits := CountMissedTransits(data.date, rawFirst, ttv, i, j);
    var points := Lightcurve(
      [data.flux[i], data.flux[j], data.flux[closestIndex]],
      [data.date[i], data.date[j], data.date[closestIndex]]);
    var confidence := 1.0 - missedTransits as real / expectedTransits as real;
    assert confidence == Confidence(data.date, rawFirst, ttv, i, j);
    candidate := Some(NewExoplanet(points, confidence));
  }

  /** missedTransits as the loop body computes it: the whole periods before
      date[i], then the extrapolation from the projection on. */
  method CountMissedTransits(date: seq<real>, rawFirst: real, ttv: real, i: nat, j: nat) returns (missed: int)
    requires StrictlyIncreasing(date) && i < j < |date|
    ensures missed == MissedTransits(date, rawFirst, i, j, ttv)
  {
    var period := date[j] - date[i];
    missed := Trunc((date[i] - rawFirst) / period);
    var extra := CountExtraMisses(date, j, period, date[j] + period, ttv);
    missed := missed + extra;
  }

  /** Some detection is a duplicate for the candidate: the scan over the
      detections so far, stopping at the first hit. */
  method AnyDuplicate(candidate: Exoplanet, detected: seq<Exoplanet>, ttv: real) returns (broken: bool)
    requires candidate.averagePeriod > 0.0
    ensures broken <==> exists k :: 0 <= k < |detected| && Duplicate(candidate, detected[k], ttv)
  {
    broken := false;
    var k := 0;
    while k < |detected|
      invariant 0 <= k <= |detected|
      invariant forall m :: 0 <= m < k ==> !Duplicate(candidate, detected[m], ttv)
    {
      if Duplicate(candidate, detected[k], ttv) {
        broken := true;
        return;
      }
      k := k + 1;
    }
  }

  /** Detection k came from the pair (i, j) and is that pair's candidate. */
  ghost predicate FromPair(data: Lightcurve, rawFirst: real, ttv: real, allowed: int,
                           pair: (nat, nat), detection: Exoplanet)
  {
    && data.Valid() && StrictlyIncreasing(data.date)
    && pair.0 < pair.1 < data.Size()
    && Qualifies(data, rawFirst, ttv, allowed, pair.0, pair.1)
    && detection == CandidateAt(data, rawFirst, ttv, pair.0, pair.1)
  }

  /** A qualifying pair (i, j) is accounted for: either a detection was made
      for i at some j' <= j, or the pair's candidate duplicates a detection
      made for an earlier i. */
  ghost predicate Covered(data: Lightcurve, rawFirst: real, ttv: real, detected: seq<Exoplanet>,
                          pairs: seq<(nat, nat)>, i: nat, j: nat)
    requires data.Valid() && StrictlyIncreasing(data.date) && i < j < data.Size()
    requires |pairs| == |detected|
  {
    || (exists k :: 0 <= k < |pairs| && pairs[k].0 == i && pairs[k].1 <= j)
    || (exists k :: 0 <= k < |pairs| && pairs[k].0 < i &&
          DuplicatePeriod(PairPeriod(data.date, i, j), detected[k].averagePeriod, ttv))
  }

  /** Adding a detection keeps every pair accounted for. */
  lemma CoveredExtends(data: Lightcurve, rawFirst: real, ttv: real, detected: seq<Exoplanet>,
                       pairs: seq<(nat, nat)>, d: Exoplanet, pair: (nat, nat), i: nat, j: nat)
    requires data.Valid() && StrictlyIncreasing(data.date) && i < j < data.Size()
    requires |pairs| == |detected|
    requires Covered(data, rawFirst, ttv, detected, pairs, i, j)
    ensures Covered(data, rawFirst, ttv, detected + [d], pairs + [pair], i, j)
  {
    var detected', pairs' := detected + [d], pairs + [pair];
    if k :| 0 <= k < |pairs| && pairs[k].0 == i && pairs[k].1 <= j {
      assert pairs'[k] == pairs[k];
    } else {
      var k :| 0 <= k < |pairs| && pairs[k].0 < i &&
               DuplicatePeriod(PairPeriod(data.date, i, j), detected[k].averagePeriod, ttv);
      assert pairs'[k] == pairs[k] && detected'[k] == detected[k];
    }
  }

  /** The invariant of the outer loop of planetInDataPrecise after the
      indices below i: what was detected, and that nothing was missed. */
  ghost predicate PreciseInvariant(data: Lightcurve, rawFirst: real, ttv: real, allowed: int,
                                   detected: seq<Exoplanet>, pairs: seq<(nat, nat)>, i: nat)
    requires data.Valid() && StrictlyIncreasing(data.date) && i <= data.Size()
  {
    && |pairs| == |detected|
    && (forall k :: 0 <= k < |pairs| ==>
          FromPair(data, rawFirst, ttv, allowed, pairs[k], detected[k]) && pairs[k].0 < i)
    && (forall k :: 0 <= k < |detected| ==> detected[k].averagePeriod > 0.0)
    && (forall k1, k2 :: 0 <= k1 < k2 < |pairs| ==> pairs[k1].0 < pairs[k2].0)
    && (forall k1, k2 :: 0 <= k1 < k2 < |detected| ==> !Duplicate(detected[k2], detected[k1], ttv))
    && (forall i', j :: 0 <= i' < i && i' < j < data.Size() && Qualifies(data, rawFirst, ttv, allowed, i', j) ==>
          Covered(data, rawFirst, ttv, detected, pairs, i', j))
  }

  /** The pairs (i, j') with j' < j that qualified all duplicate a
      detection made for an earlier i: the invariant of the inner loop. */
  ghost predicate EarlierDuplicates(data: Lightcurve, rawFirst: real, ttv: real, allowed: int,
                                    detected: seq<Exoplanet>, i: nat, j: nat)
    requires data.Valid() && StrictlyIncreasing(data.date) && i < j <= data.Size()
  {
    forall j' :: i < j' < j && Qualifies(data, rawFirst, ttv, allowed, i, j') ==>
      exists k :: 0 <= k < |detected| && DuplicatePeriod(PairPeriod(data.date, i, j'), detected[k].averagePeriod, ttv)
  }

  /** Moving past a pair that does not qualify, or whose candidate
      duplicates a detection, keeps the inner loop's invariant. */
  lemma RejectKeepsEarlier(data: Lightcurve, rawFirst: real, ttv: real, allowed: int,
                           detected: seq<Exoplanet>, i: nat, j: nat)
    requires data.Valid() && StrictlyIncreasing(data.date) && i < j < data.Size()
    requires EarlierDuplicates(data, rawFirst, ttv, allowed, detected, i, j)
    requires Qualifies(data, rawFirst, ttv, allowed, i, j) ==>
               exists k :: 0 <= k < |detected| && DuplicatePeriod(PairPeriod(data.date, i, j), detected[k].averagePeriod, ttv)
    ensures EarlierDuplicates(data, rawFirst, ttv, allowed, detected, i, j + 1)
  {
    forall j' | i < j' < j + 1 && Qualifies(data, rawFirst, ttv, allowed, i, j')
      ensures exists k :: 0 <= k < |detected| && DuplicatePeriod(PairPeriod(data.date, i, j'), detected[k].averagePeriod, ttv)
    {
      if j' < j {
        assert EarlierDuplicates(data, rawFirst, ttv, allowed, detected, i, j);
      }
    }
  }

  /** A qualifying pair whose candidate duplicates a detection made for an
      earlier i is accounted for. */
  lemma DuplicateIsCovered(data: Lightcurve, rawFirst: real, ttv: real, allowed: int,
                           detected: seq<Exoplanet>, pairs: seq<(nat, nat)>, i: nat, j: nat)
    requires data.Valid() && StrictlyIncreasing(data.date) && i < j < data.Size()
    requires PreciseInvariant(data, rawFirst, ttv, allowed, detected, pairs, i)
    requires EarlierDuplicates(data, rawFirst, ttv, allowed, detected, i, j + 1)
    requires Qualifies(data, rawFirst, ttv, allowed, i, j)
    ensures Covered(data, rawFirst, ttv, detected, pairs, i, j)
  {
    var k :| 0 <= k < |detected| && DuplicatePeriod(PairPeriod(data.date, i, j), detected[k].averagePeriod, ttv);
    assert pairs[k].0 < i;
  }

  /** Running out of j without accepting keeps the invariant, now up to
      i + 1. */
  lemma ExhaustedKeepsInvariant(data: Lightcurve, rawFirst: real, ttv: real, allowed: int,
                                detected: seq<Exoplanet>, pairs: seq<(nat, nat)>, i: nat)
    requires data.Valid() && StrictlyIncreasing(data.date) && i < data.Size()
    requires PreciseInvariant(data, rawFirst, ttv, allowed, detected, pairs, i)
    requires EarlierDuplicates(data, rawFirst, ttv, allowed, detected, i, data.Size())
    ensures PreciseInvariant(data, rawFirst, ttv, allowed, detected, pairs, i + 1)
  {
    forall i', j' | 0 <= i' < i + 1 && i' < j' < data.Size() && Qualifies(data, rawFirst, ttv, allowed, i', j')
      ensures Covered(data, rawFirst, ttv, detected, pairs, i', j')
    {
      if i' == i {
        DuplicateIsCovered(data, rawFirst, ttv, allowed, detected, pairs, i, j');
      }
    }
  }

  /** Accepting the candidate of (i, j) keeps every qualifying pair up to
      i accounted for. */
  lemma AcceptKeepsCoverage(data: Lightcurve, rawFirst: real, ttv: real, allowed: int,
                            detected: seq<Exoplanet>, pairs: seq<(nat, nat)>, i: nat, j: nat)
    requires data.Valid() && StrictlyIncreasing(data.date) && i < j < data.Size()
    requires PreciseInvariant(data, rawFirst, ttv, allowed, detected, pairs, i)
    requires EarlierDuplicates(data, rawFirst, ttv, allowed, detected, i, j)
    ensures forall i', j' :: 0 <= i' < i + 1 && i' < j' < data.Size() && Qualifies(data, rawFirst, ttv, allowed, i', j') ==>
              Covered(data, rawFirst, ttv, detected + [CandidateAt(data, rawFirst, ttv, i, j)], pairs + [(i, j)], i', j')
  {
    forall i', j' | 0 <= i' < i + 1 && i' < j' < data.Size() && Qualifies(data, rawFirst, ttv, allowed, i', j')
      ensures Covered(data, rawFirst, ttv, detected + [CandidateAt(data, rawFirst, ttv, i, j)], pairs + [(i, j)], i', j')
    {
      AcceptCovers(data, rawFirst, ttv, allowed, detected, pairs, i, j, i', j');
    }
  }

  /** AcceptKeepsCoverage for one qualifying pair (i', j'). */
  lemma AcceptCovers(data: Lightcurve, rawFirst: real, ttv: real, allowed: int,
                     detected: seq<Exoplanet>, pairs: seq<(nat, nat)>, i: nat, j: nat, i': nat, j': nat)
    requires data.Valid() && StrictlyIncreasing(data.date) && i < j < data.Size()
    requires PreciseInvariant(data, rawFirst, ttv, allowed, detected, pairs, i)
    requires EarlierDuplicates(data, rawFirst, ttv, allowed, detected, i, j)
    requires i' < i + 1 && i' < j' < data.Size() && Qualifies(data, rawFirst, ttv, allowed, i', j')
    ensures Covered(data, rawFirst, ttv, detected + [CandidateAt(data, rawFirst, ttv, i, j)], pairs + [(i, j)], i', j')
  {
    var c := CandidateAt(data, rawFirst, ttv, i, j);
    var pairs' := pairs + [(i, j)];
    if i' < i {
      assert Covered(data, rawFirst, ttv, detected, pairs, i', j');
      CoveredExtends(data, rawFirst, ttv, detected, pairs, c, (i, j), i', j');
    } else if j' < j {
      assert EarlierDuplicates(data, rawFirst, ttv, allowed, detected, i, j' + 1);
      DuplicateIsCovered(data, rawFirst, ttv, allowed, detected, pairs, i, j');
      CoveredExtends(data, rawFirst, ttv, detected, pairs, c, (i, j), i', j');
    } else {
      assert pairs'[|pairs|] == (i', j) && j <= j';
    }
  }

  /** Accepting the candidate of (i, j) records where it came from, in
      order of the first index. */
  lemma AcceptKeepsPairs(data: Lightcurve, rawFirst: real, ttv: real, allowed: int,
                         detected: seq<Exoplanet>, pairs: seq<(nat, nat)>, i: nat, j: nat)
    requires data.Valid() && StrictlyIncreasing(data.date) && i < j < data.Size()
    requires PreciseInvariant(data, rawFirst, ttv, allowed, detected, pairs, i)
    requires Qualifies(data, rawFirst, ttv, allowed, i, j)
    ensures forall k :: 0 <= k < |pairs| + 1 ==>
              && FromPair(data, rawFirst, ttv, allowed, (pairs + [(i, j)])[k], (detected + [CandidateAt(data, rawFirst, ttv, i, j)])[k])
              && (pairs + [(i, j)])[k].0 < i + 1
              && (detected + [CandidateAt(data, rawFirst, ttv, i, j)])[k].averagePeriod > 0.0
    ensures forall k1, k2 :: 0 <= k1 < k2 < |pairs| + 1 ==> (pairs + [(i, j)])[k1].0 < (pairs + [(i, j)])[k2].0
  {
    var c := CandidateAt(data, rawFirst, ttv, i, j);
    var detected', pairs' := detected + [c], pairs + [(i, j)];
    AcceptKeepsOrigins(data, rawFirst, ttv, allowed, detected, pairs, i, j);
    forall k1, k2 | 0 <= k1 < k2 < |pairs'|
      ensures pairs'[k1].0 < pairs'[k2].0
    {
      if k2 < |pairs| {
        assert pairs'[k2] == pairs[k2] && pairs'[k1] == pairs[k1];
      }
    }
  }
  /** Recording the candidate of a qualifying pair (i, j) keeps every
      detection's origin, first index below i + 1 and positive period. */
  lemma AcceptKeepsOrigins(data: Lightcurve, rawFirst: real, ttv: real, allowed: int,
                           detected: seq<Exoplanet>, pairs: seq<(nat, nat)>, i: nat, j: nat)
    requires data.Valid() && StrictlyIncreasing(data.date) && i < j < data.Size()
    requires |pairs| == |detected|
    requires forall k :: 0 <= k < |pairs| ==>
               FromPair(data, rawFirst, ttv, allowed, pairs[k], detected[k]) && pairs[k].0 < i
    requires forall k :: 0 <= k < |detected| ==> detected[k].averagePeriod > 0.0
    requires Qualifies(data, rawFirst, ttv, allowed, i, j)
    ensures forall k :: 0 <= k < |pairs| + 1 ==>
              && FromPair(data, rawFirst, ttv, allowed, (pairs + [(i, j)])[k], (detected + [CandidateAt(data, rawFirst, ttv, i, j)])[k])
              && (pairs + [(i, j)])[k].0 < i + 1
              && (detected + [CandidateAt(data, rawFirst, ttv, i, j)])[k].averagePeriod > 0.0
  {
    var c := CandidateAt(data, rawFirst, ttv, i, j);
    var detected', pairs' := detected + [c], pairs + [(i, j)];
    forall k | 0 <= k < |pairs'|
      ensures FromPair(data, rawFirst, ttv, allowed, pairs'[k], detected'[k]) && pairs'[k].0 < i + 1
      ensures detected'[k].averagePeriod > 0.0
    {
      if k < |pairs| {
        assert pairs'[k] == pairs[k] && detected'[k] == detected[k];
      }
    }
  }


  /** Accepting a candidate that duplicates no detection keeps the
      detections free of duplicates. */
  lemma AcceptKeepsDistinct(detected: seq<Exoplanet>, c: Exoplanet, ttv: real)
    requires forall k :: 0 <= k < |detected| ==> detected[k].averagePeriod > 0.0
    requires c.averagePeriod > 0.0
    requires forall k1, k2 :: 0 <= k1 < k2 < |detected| ==> !Duplicate(detected[k2], detected[k1], ttv)
    requires forall k :: 0 <= k < |detected| ==> !Duplicate(c, detected[k], ttv)
    ensures forall k1, k2 :: 0 <= k1 < k2 < |detected| + 1 ==> !Duplicate((detected + [c])[k2], (detected + [c])[k1], ttv)
  {
    var detected' := detected + [c];
    forall k1, k2 | 0 <= k1 < k2 < |detected'|
      ensures !Duplicate(detected'[k2], detected'[k1], ttv)
    {
      if k2 < |detected| {
        assert detected'[k2] == detected[k2] && detected'[k1] == detected[k1];
      }
    }
  }

  /** Accepting the candidate of (i, j) after the pairs (i, j') with j' < j
      were all duplicates keeps the invariant, now up to i + 1. */
  lemma AcceptKeepsInvariant(data: Lightcurve, rawFirst: real, ttv: real, allowed: int,
                             detected: seq<Exoplanet>, pairs: seq<(nat, nat)>, i: nat, j: nat)
    requires data.Valid() && StrictlyIncreasing(data.date) && i < j < data.Size()
    requires PreciseInvariant(data, rawFirst, ttv, allowed, detected, pairs, i)
    requires EarlierDuplicates(data, rawFirst, ttv, allowed, detected, i, j)
    requires Qualifies(data, rawFirst, ttv, allowed, i, j)
    requires forall k :: 0 <= k < |detected| ==> !DuplicatePeriod(PairPeriod(data.date, i, j), detected[k].averagePeriod, ttv)
    ensures PreciseInvariant(data, rawFirst, ttv, allowed,
              detected + [CandidateAt(data, rawFirst, ttv, i, j)], pairs + [(i, j)], i + 1)
  {
    AcceptKeepsCoverage(data, rawFirst, ttv, allowed, detected, pairs, i, j);
    AcceptKeepsPairs(data, rawFirst, ttv, allowed, detected, pairs, i, j);
    AcceptKeepsDistinct(detected, CandidateAt(data, rawFirst, ttv, i, j), ttv);
  }

  /** The inner loop of planetInDataPrecise for the first index i: try
      j = i + 1, i + 2, ... and stop at the first candidate accepted. */
  method SearchPairsFrom(data: Lightcurve, rawFirst: real, ttv: real, allowed: int,
                         detected: seq<Exoplanet>, ghost pairs: seq<(nat, nat)>, i: nat)
    returns (detected': seq<Exoplanet>, ghost pairs': seq<(nat, nat)>)
    requires data.Valid() && StrictlyIncreasing(data.date) && i < data.Size()
    requires PreciseInvariant(data, rawFirst, ttv, allowed, detected, pairs, i)
    ensures PreciseInvariant(data, rawFirst, ttv, allowed, detected', pairs', i + 1)
    ensures |detected| <= |detected'| <= |detected| + 1 && detected'[..|detected|] == detected
  {
    var n := data.Size();
    detected', pairs' := detected, pairs;
    var j := i + 1;
    while j < n
      invariant i + 1 <= j <= n
      invariant EarlierDuplicates(data, rawFirst, ttv, allowed, detected, i, j)
    {
      var candidate := EvaluatePair(data, rawFirst, ttv, i, j);
      if candidate.Some? {
        var c := candidate.value;
        assert c.averagePeriod == PairPeriod(data.date, i, j);
        if (data.date[i] - data.date[0]) / c.averagePeriod < allowed as real {
          var broken := AnyDuplicate(c, detected, ttv);
          if !broken {
            AcceptKeepsInvariant(data, rawFirst, ttv, allowed, detected, pairs, i, j);
            detected', pairs' := detected + [c], pairs + [(i, j)];
            return;
          }
          RejectKeepsEarlier(data, rawFirst, ttv, allowed, detected, i, j);
        } else {
          assert !Qualifies(data, rawFirst, ttv, allowed, i, j);
          RejectKeepsEarlier(data, rawFirst, ttv, allowed, detected, i, j);
        }
      } else {
        RejectKeepsEarlier(data, rawFirst, ttv, allowed, detected, i, j);
      }
      j := j + 1;
    }
    ExhaustedKeepsInvariant(data, rawFirst, ttv, allowed, detected, pairs, i);
  }

  /** The invariant after the last index is the contract of
      planetInDataPrecise; in particular nothing is detected exactly when no
      pair qualifies. */
  lemma PreciseConclusion(data: Lightcurve, rawFirst: real, ttv: real, allowed: int,
                          detected: seq<Exoplanet>, pairs: seq<(nat, nat)>)
    requires data.Valid() && StrictlyIncreasing(data.date)
    requires PreciseInvariant(data, rawFirst, ttv, allowed, detected, pairs, data.Size())
    ensures detected == [] <==>
              forall i, j :: 0 <= i < j < data.Size() ==> !Qualifies(data, rawFirst, ttv, allowed, i, j)
  {
    if detected != [] {
      assert FromPair(data, rawFirst, ttv, allowed, pairs[0], detected[0]);
      assert Qualifies(data, rawFirst, ttv, allowed, pairs[0].0, pairs[0].1);
    } else {
      forall i, j | 0 <= i < j < data.Size()
        ensures !Qualifies(data, rawFirst, ttv, allowed, i, j)
      {
        if Qualifies(data, rawFirst, ttv, allowed, i, j) {
          assert false;
        }
      }
    }
  }

  /** What planetInDataPrecise yields on a bucket in time order: detections
      that each come from a qualifying pair, with strictly increasing first
      indices and no duplicates among them; none on fewer than three
      samples; every qualifying pair covered; and nothing exactly when no
      pair qualifies. */
  ghost predicate PreciseResult(data: Lightcurve, rawFirst: real, ttv: real, allowed: int,
                                detected: seq<Exoplanet>, pairs: seq<(nat, nat)>)
  {
    && data.Valid() && StrictlyIncreasing(data.date)
    && |pairs| == |detected|
    && (forall k :: 0 <= k < |pairs| ==> FromPair(data, rawFirst, ttv, allowed, pairs[k], detected[k]))
    && (forall k1, k2 :: 0 <= k1 < k2 < |pairs| ==> pairs[k1].0 < pairs[k2].0)
    && (forall k1, k2 :: 0 <= k1 < k2 < |detected| ==> !Duplicate(detected[k2], detected[k1], ttv))
    && (data.Size() < 3 ==> detected == [])
    && (data.Size() >= 3 ==>
          forall i, j :: 0 <= i < j < data.Size() && Qualifies(data, rawFirst, ttv, allowed, i, j) ==>
            Covered(data, rawFirst, ttv, detected, pairs, i, j))
    && (data.Size() >= 3 ==>
          (detected == [] <==>
           forall i, j :: 0 <= i < j < data.Size() ==> !Qualifies(data, rawFirst, ttv, allowed, i, j)))
  }

  /**
   planetInDataPrecise. Every pair i < j of the bucket is tried in order;
   a pair whose candidate passes the first test and the gate, and is no
   duplicate of an earlier detection, is recorded, and the search moves on
   to the next i. The ghost pairs say which pair each detection came from.
   */
  method PlanetInDataPrecise(data: Lightcurve, rawFirst: real, ttv: real, allowed: int)
    returns (detected: seq<Exoplanet>, ghost pairs: seq<(nat, nat)>)
    requires data.Valid() && StrictlyIncreasing(data.date)
    ensures data.Size() < 3 ==> detected == []
    ensures |pairs| == |detected|
    ensures forall k :: 0 <= k < |pairs| ==> FromPair(data, rawFirst, ttv, allowed, pairs[k], detected[k])
    ensures forall k :: 0 <= k < |detected| ==> detected[k].averagePeriod > 0.0
    ensures forall k1, k2 :: 0 <= k1 < k2 < |pairs| ==> pairs[k1].0 < pairs[k2].0
    ensures forall k1, k2 :: 0 <= k1 < k2 < |detected| ==> !Duplicate(detected[k2], detected[k1], ttv)
    ensures data.Size() >= 3 ==>
              forall i, j :: 0 <= i < j < data.Size() && Qualifies(data, rawFirst, ttv, allowed, i, j) ==>
                Covered(data, rawFirst, ttv, detected, pairs, i, j)
    ensures data.Size() >= 3 ==>
              (detected == [] <==>
               forall i, j :: 0 <= i < j < data.Size() ==> !Qualifies(data, rawFirst, ttv, allowed, i, j))
    ensures PreciseResult(data, rawFirst, ttv, allowed, detected, pairs)
  {
    detected, pairs := [], [];
    if data.Size() < 3 {
      return;
    }
    var n := data.Size();
    var i := 0;
    while i < n
      invariant 0 <= i <= n
      invariant PreciseInvariant(data, rawFirst, ttv, allowed, detected, pairs, i)
    {
      detected, pairs := SearchPairsFrom(data, rawFirst, ttv, allowed, detected, pairs, i);
      i := i + 1;
    }
    PreciseConclusion(data, rawFirst, ttv, allowed, detected, pairs);
  }

  /**
   findPlanetsPrecise: the precise matcher over every bucket, the
   detections concatenated in bucket order. The ghost perBucket and
   perPairs are each bucket's own result, which the planets concatenate;
   bucketOf and pairs say which bucket and which pair of it each planet
   came from. A recording read from a file ends in a repeated sample, so
   its dates need only never go backwards when the transit duration is not
   negative.
   */
  method FindPlanetsPrecise(fp: FindPlanet)
    returns (planets: seq<Exoplanet>, ghost bucketOf: seq<nat>, ghost pairs: seq<(nat, nat)>,
             ghost perBucket: seq<seq<Exoplanet>>, ghost perPairs: seq<seq<(nat, nat)>>)
    requires fp.Valid() && Pipeline.InTimeOrder(fp.rawData, fp.maxTransitDurationDays)
    ensures |bucketOf| == |planets| && |pairs| == |planets|
    ensures forall k :: 0 <= k < |planets| ==> bucketOf[k] < |fp.Buckets()|
    ensures forall k1, k2 :: 0 <= k1 < k2 < |planets| ==> bucketOf[k1] <= bucketOf[k2]
    ensures forall k :: 0 <= k < |planets| ==>
              FromPair(fp.Buckets()[bucketOf[k]], Pipeline.RawFirst(fp.rawData), fp.ttvRange,
                       fp.allowedMissedTransits, pairs[k], planets[k])
    ensures forall k :: 0 <= k < |planets| ==> planets[k].averagePeriod > 0.0
    ensures forall k1, k2 :: 0 <= k1 < k2 < |planets| && bucketOf[k1] == bucketOf[k2] ==>
              !Duplicate(planets[k2], planets[k1], fp.ttvRange)
    ensures |perBucket| == |fp.Buckets()| && |perPairs| == |fp.Buckets()|
    ensures planets == Flatten(perBucket)
    ensures forall b :: 0 <= b < |fp.Buckets()| ==>
              PreciseResult(fp.Buckets()[b], Pipeline.RawFirst(fp.rawData), fp.ttvRange,
                            fp.allowedMissedTransits, perBucket[b], perPairs[b])
  {
    var buckets := fp.Buckets();
    Pipeline.BucketsInTimeOrder(fp.rawData, fp.potentialPlanetThreshold, fp.maxTransitDurationDays,
                                fp.samePlanetSizeThreshold);
    var rawFirst := Pipeline.RawFirst(fp.rawData);
    planets, bucketOf, pairs := [], [], [];
    perBucket, perPairs := [], [];
    var b := 0;
    while b < |buckets|
      invariant 0 <= b <= |buckets|
      invariant Collected(buckets, rawFirst, fp.ttvRange, fp.allowedMissedTransits,
                          planets, bucketOf, pairs, perBucket, perPairs, b)
    {
      planets, bucketOf, pairs, perBucket, perPairs :=
        CollectBucket(buckets, rawFirst, fp.ttvRange, fp.allowedMissedTransits,
                      planets, bucketOf, pairs, perBucket, perPairs, b);
      b := b + 1;
    }
    AllPreciseEach(buckets, rawFirst, fp.ttvRange, fp.allowedMissedTransits, perBucket, perPairs);
  }

  /** The bookkeeping of findPlanetsPrecise after the buckets below b: the
      planets so far, which bucket and pair each came from, and each
      bucket's own result, which the planets concatenate. */
  ghost predicate Collected(buckets: seq<Lightcurve>, rawFirst: real, ttv: real, allowed: int,
                            planets: seq<Exoplanet>, bucketOf: seq<nat>, pairs: seq<(nat, nat)>,
                            perBucket: seq<seq<Exoplanet>>, perPairs: seq<seq<(nat, nat)>>, b: nat)
  {
    && b <= |buckets|
    && |bucketOf| == |planets| && |pairs| == |planets|
    && (forall k :: 0 <= k < |planets| ==> bucketOf[k] < b)
    && (forall k1, k2 :: 0 <= k1 < k2 < |planets| ==> bucketOf[k1] <= bucketOf[k2])
    && (forall k :: 0 <= k < |planets| ==>
          FromPair(buckets[bucketOf[k]], rawFirst, ttv, allowed, pairs[k], planets[k]))
    && (forall k :: 0 <= k < |planets| ==> planets[k].averagePeriod > 0.0)
    && (forall k1, k2 :: 0 <= k1 < k2 < |planets| && bucketOf[k1] == bucketOf[k2] ==>
          !Duplicate(planets[k2], planets[k1], ttv))
    && |perBucket| == b && |perPairs| == b
    && planets == Flatten(perBucket)
    && AllPrecise(buckets, rawFirst, ttv, allowed, perBucket, perPairs)
  }

  /** One iteration of findPlanetsPrecise: run the precise matcher on bucket
      b and append its detections. */
  method CollectBucket(buckets: seq<Lightcurve>, rawFirst: real, ttv: real, allowed: int,
                       planets: seq<Exoplanet>, ghost bucketOf: seq<nat>, ghost pairs: seq<(nat, nat)>,
                       ghost perBucket: seq<seq<Exoplanet>>, ghost perPairs: seq<seq<(nat, nat)>>, b: nat)
    returns (planets': seq<Exoplanet>, ghost bucketOf': seq<nat>, ghost pairs': seq<(nat, nat)>,
             ghost perBucket': seq<seq<Exoplanet>>, ghost perPairs': seq<seq<(nat, nat)>>)
    requires b < |buckets| && buckets[b].Valid() && StrictlyIncreasing(buckets[b].date)
    requires Collected(buckets, rawFirst, ttv, allowed, planets, bucketOf, pairs, perBucket, perPairs, b)
    ensures Collected(buckets, rawFirst, ttv, allowed, planets', bucketOf', pairs', perBucket', perPairs', b + 1)
    ensures |planets| <= |planets'| && planets'[..|planets|] == planets
  {
    var found;
    ghost var foundPairs;
    found, foundPairs := PlanetInDataPrecise(buckets[b], rawFirst, ttv, allowed);
    planets', bucketOf', pairs' := AppendBucket(planets, bucketOf, pairs, found, foundPairs, b, buckets,
                                                rawFirst, ttv, allowed);
    perBucket', perPairs' := AppendResult(perBucket, perPairs, found, foundPairs, b, buckets,
                                          rawFirst, ttv, allowed);
  }

  /** Every bucket's part, in order, is a result of the precise matcher on
      that bucket. */
  ghost predicate AllPrecise(buckets: seq<Lightcurve>, rawFirst: real, ttv: real, allowed: int,
                             perBucket: seq<seq<Exoplanet>>, perPairs: seq<seq<(nat, nat)>>)
    decreases |perBucket|
  {
    && |perPairs| == |perBucket| <= |buckets|
    && (|perBucket| == 0 ||
        (var n := |perBucket| - 1;
         && AllPrecise(buckets, rawFirst, ttv, allowed, perBucket[..n], perPairs[..n])
         && PreciseResult(buckets[n], rawFirst, ttv, allowed, perBucket[n], perPairs[n])))
  }

  /** AllPrecise gives each bucket's part. */
  lemma {:induction false} AllPreciseAt(buckets: seq<Lightcurve>, rawFirst: real, ttv: real, allowed: int,
                                        perBucket: seq<seq<Exoplanet>>, perPairs: seq<seq<(nat, nat)>>, b: nat)
    requires b < |perBucket|
    requires AllPrecise(buckets, rawFirst, ttv, allowed, perBucket, perPairs)
    ensures b < |buckets| && b < |perPairs|
    ensures PreciseResult(buckets[b], rawFirst, ttv, allowed, perBucket[b], perPairs[b])
  {
    var n := |perBucket| - 1;
    if b < n {
      AllPreciseAt(buckets, rawFirst, ttv, allowed, perBucket[..n], perPairs[..n], b);
      assert perBucket[..n][b] == perBucket[b] && perPairs[..n][b] == perPairs[b];
    }
  }

  /** Recording bucket b's own result keeps the per-bucket bookkeeping of
      findPlanetsPrecise. */
  lemma AppendResult(perBucket: seq<seq<Exoplanet>>, perPairs: seq<seq<(nat, nat)>>,
                     found: seq<Exoplanet>, foundPairs: seq<(nat, nat)>, b: nat,
                     buckets: seq<Lightcurve>, rawFirst: real, ttv: real, allowed: int)
    returns (perBucket': seq<seq<Exoplanet>>, perPairs': seq<seq<(nat, nat)>>)
    requires b < |buckets| && |perBucket| == b && |perPairs| == b
    requires AllPrecise(buckets, rawFirst, ttv, allowed, perBucket, perPairs)
    requires PreciseResult(buckets[b], rawFirst, ttv, allowed, found, foundPairs)
    ensures perBucket' == perBucket + [found] && perPairs' == perPairs + [foundPairs]
    ensures Flatten(perBucket') == Flatten(perBucket) + found
    ensures |perBucket'| == b + 1 && |perPairs'| == b + 1
    ensures AllPrecise(buckets, rawFirst, ttv, allowed, perBucket', perPairs')
  {
    perBucket', perPairs' := perBucket + [found], perPairs + [foundPairs];
    assert perBucket'[..b] == perBucket && perPairs'[..b] == perPairs;
  }

  /** AllPrecise gives every bucket's part. */
  lemma AllPreciseEach(buckets: seq<Lightcurve>, rawFirst: real, ttv: real, allowed: int,
                       perBucket: seq<seq<Exoplanet>>, perPairs: seq<seq<(nat, nat)>>)
    requires |perPairs| == |perBucket| <= |buckets|
    requires AllPrecise(buckets, rawFirst, ttv, allowed, perBucket, perPairs)
    ensures forall b :: 0 <= b < |perBucket| ==>
              PreciseResult(buckets[b], rawFirst, ttv, allowed, perBucket[b], perPairs[b])
  {
    forall b | 0 <= b < |perBucket|
      ensures PreciseResult(buckets[b], rawFirst, ttv, allowed, perBucket[b], perPairs[b])
    {
      AllPreciseAt(buckets, rawFirst, ttv, allowed, perBucket, perPairs, b);
    }
  }

  /** Appending the detections of bucket b keeps the bookkeeping of
      findPlanetsPrecise. */
  method AppendBucket(planets: seq<Exoplanet>, ghost bucketOf: seq<nat>, ghost pairs: seq<(nat, nat)>,
                      found: seq<Exoplanet>, ghost foundPairs: seq<(nat, nat)>, b: nat,
                      buckets: seq<Lightcurve>, rawFirst: real, ttv: real, allowed: int)
    returns (planets': seq<Exoplanet>, ghost bucketOf': seq<nat>, ghost pairs': seq<(nat, nat)>)
    requires b < |buckets|
    requires |bucketOf| == |planets| && |pairs| == |planets| && |foundPairs| == |found|
    requires forall k :: 0 <= k < |planets| ==> bucketOf[k] < b
    requires forall k1, k2 :: 0 <= k1 < k2 < |planets| ==> bucketOf[k1] <= bucketOf[k2]
    requires forall k :: 0 <= k < |planets| ==>
               FromPair(buckets[bucketOf[k]], rawFirst, ttv, allowed, pairs[k], planets[k])
    requires forall k :: 0 <= k < |planets| ==> planets[k].averagePeriod > 0.0
    requires forall k1, k2 :: 0 <= k1 < k2 < |planets| && bucketOf[k1] == bucketOf[k2] ==>
               !Duplicate(planets[k2], planets[k1], ttv)
    requires forall k :: 0 <= k < |found| ==> FromPair(buckets[b], rawFirst, ttv, allowed, foundPairs[k], found[k])
    requires forall k :: 0 <= k < |found| ==> found[k].averagePeriod > 0.0
    requires forall k1, k2 :: 0 <= k1 < k2 < |found| ==> !Duplicate(found[k2], found[k1], ttv)
    ensures planets' == planets + found
    ensures |bucketOf'| == |planets'| && |pairs'| == |planets'|
    ensures forall k :: 0 <= k < |planets'| ==> bucketOf'[k] < b + 1
    ensures forall k1, k2 :: 0 <= k1 < k2 < |planets'| ==> bucketOf'[k1] <= bucketOf'[k2]
    ensures forall k :: 0 <= k < |planets'| ==>
              FromPair(buckets[bucketOf'[k]], rawFirst, ttv, allowed, pairs'[k], planets'[k])
    ensures forall k :: 0 <= k < |planets'| ==> planets'[k].averagePeriod > 0.0
    ensures forall k1, k2 :: 0 <= k1 < k2 < |planets'| && bucketOf'[k1] == bucketOf'[k2] ==>
              !Duplicate(planets'[k2], planets'[k1], ttv)
  {
    planets' := planets + found;
    bucketOf' := bucketOf + seq(|found|, _ => b);
    pairs' := pairs + foundPairs;
    ConcatOrigins(planets, bucketOf, pairs, found, foundPairs, b, buckets, rawFirst, ttv, allowed);
    ConcatDistinct(planets, bucketOf, found, b, ttv);
  }

  /** Where the planets of the concatenation came from. */
  lemma ConcatOrigins(planets: seq<Exoplanet>, bucketOf: seq<nat>, pairs: seq<(nat, nat)>,
                      found: seq<Exoplanet>, foundPairs: seq<(nat, nat)>, b: nat,
                      buckets: seq<Lightcurve>, rawFirst: real, ttv: real, allowed: int)
    requires b < |buckets|
    requires |bucketOf| == |planets| && |pairs| == |planets| && |foundPairs| == |found|
    requires forall k :: 0 <= k < |planets| ==> bucketOf[k] < b
    requires forall k1, k2 :: 0 <= k1 < k2 < |planets| ==> bucketOf[k1] <= bucketOf[k2]
    requires forall k :: 0 <= k < |planets| ==>
               FromPair(buckets[bucketOf[k]], rawFirst, ttv, allowed, pairs[k], planets[k])
    requires forall k :: 0 <= k < |planets| ==> planets[k].averagePeriod > 0.0
    requires forall k :: 0 <= k < |found| ==> FromPair(buckets[b], rawFirst, ttv, allowed, foundPairs[k], found[k])
    requires forall k :: 0 <= k < |found| ==> found[k].averagePeriod > 0.0
    ensures var planets', bucketOf', pairs' := planets + found, bucketOf + seq(|found|, _ => b), pairs + foundPairs;
            && (forall k :: 0 <= k < |planets'| ==> bucketOf'[k] < b + 1 && planets'[k].averagePeriod > 0.0)
            && (forall k1, k2 :: 0 <= k1 < k2 < |planets'| ==> bucketOf'[k1] <= bucketOf'[k2])
            && (forall k :: 0 <= k < |planets'| ==>
                  FromPair(buckets[bucketOf'[k]], rawFirst, ttv, allowed, pairs'[k], planets'[k]))
  {
    var planets', bucketOf', pairs' := planets + found, bucketOf + seq(|found|, _ => b), pairs + foundPairs;
    var n := |planets|;
    forall k | 0 <= k < |planets'|
      ensures bucketOf'[k] < b + 1 && planets'[k].averagePeriod > 0.0
      ensures FromPair(buckets[bucketOf'[k]], rawFirst, ttv, allowed, pairs'[k], planets'[k])
    {
      if k < n {
        assert bucketOf'[k] == bucketOf[k] && pairs'[k] == pairs[k] && planets'[k] == planets[k];
      } else {
        assert bucketOf'[k] == b && pairs'[k] == foundPairs[k - n] && planets'[k] == found[k - n];
      }
    }
    forall k1, k2 | 0 <= k1 < k2 < |planets'|
      ensures bucketOf'[k1] <= bucketOf'[k2]
    {
      if k2 < n {
        assert bucketOf'[k1] == bucketOf[k1] && bucketOf'[k2] == bucketOf[k2];
      } else if k1 < n {
        assert bucketOf'[k1] == bucketOf[k1];
      }
    }
  }

  /** Within one bucket the concatenation holds no duplicates. */
  lemma ConcatDistinct(planets: seq<Exoplanet>, bucketOf: seq<nat>, found: seq<Exoplanet>, b: nat, ttv: real)
    requires |bucketOf| == |planets|
    requires forall k :: 0 <= k < |planets| ==> bucketOf[k] < b
    requires forall k :: 0 <= k < |planets| ==> planets[k].averagePeriod > 0.0
    requires forall k :: 0 <= k < |found| ==> found[k].averagePeriod > 0.0
    requires forall k1, k2 :: 0 <= k1 < k2 < |planets| && bucketOf[k1] == bucketOf[k2] ==>
               !Duplicate(planets[k2], planets[k1], ttv)
    requires forall k1, k2 :: 0 <= k1 < k2 < |found| ==> !Duplicate(found[k2], found[k1], ttv)
    ensures var planets', bucketOf' := planets + found, bucketOf + seq(|found|, _ => b);
            forall k1, k2 :: 0 <= k1 < k2 < |planets'| && bucketOf'[k1] == bucketOf'[k2] ==>
              !Duplicate(planets'[k2], planets'[k1], ttv)
  {
    var planets', bucketOf' := planets + found, bucketOf + seq(|found|, _ => b);
    var n := |planets|;
    forall k1, k2 | 0 <= k1 < k2 < |planets'| && bucketOf'[k1] == bucketOf'[k2]
      ensures !Duplicate(planets'[k2], planets'[k1], ttv)
    {
      if k2 < n {
        assert planets'[k2] == planets[k2] && planets'[k1] == planets[k1];
        assert bucketOf'[k2] == bucketOf[k2] && bucketOf'[k1] == bucketOf[k1];
      } else {
        assert bucketOf'[k2] == b;
        assert k1 >= n;
        assert planets'[k2] == found[k2 - n] && planets'[k1] == found[k1 - n];
      }
    }
  }

  // ---------------------------------------------------------------------
  // Properties of the candidates

  /** Counting from a first raw date no later than date[i], a candidate's
      confidence is at most 1. */
  lemma ConfidenceAtMostOne(data: Lightcurve, rawFirst: real, ttv: real, i: nat, j: nat)
    requires data.Valid() && StrictlyIncreasing(data.date) && i < j < data.Size()
    requires rawFirst <= data.date[i]
    ensures CandidateAt(data, rawFirst, ttv, i, j).confidence <= 1.0
  {
    var e := ExpectedTransits(data.date, i, j);
    var m := MissedTransits(data.date, rawFirst, i, j, ttv);
    var period := data.date[j] - data.date[i];
    assert (data.date[i] - rawFirst) / period >= 0.0;
    assert m >= 0;
    var conf := CandidateAt(data, rawFirst, ttv, i, j).confidence;
    if conf > 1.0 {
      MulPositive(conf - 1.0, e as real);
    }
  }

  /** The confidence is not clamped to [0, 1]: a raw recording that starts
      long before the bucket drives it far below 0, and the candidate still
      passes the first test. */
  lemma ConfidenceNotClamped()
    ensures var data := Lightcurve([0.5, 0.5, 0.5], [100.0, 101.0, 102.0]);
            Kept(data.date, 0, 1, 0.1) && CandidateAt(data, 0.0, 0.1, 0, 1).confidence == -49.0
  {
    var data := Lightcurve([0.5, 0.5, 0.5], [100.0, 101.0, 102.0]);
    assert ClosestIndex(data.date, 2, 102.0) == 2;
    assert Match(data.date, 0, 1) == 2;
    assert ExpectedTransits(data.date, 0, 1) == 2;
    assert ExtraMisses(data.date, 1, 1.0, 102.0, 1, 0.1) == 0;
    assert MissedTransits(data.date, 0.0, 0, 1, 0.1) == 100;
  }

  /** Five evenly spaced transits ten days apart. */
  function EvenTransits(): (r: Lightcurve)
    ensures r.Valid() && StrictlyIncreasing(r.date) && r.Size() == 5
  {
    Lightcurve([0.5, 0.5, 0.5, 0.5, 0.5], [0.0, 10.0, 20.0, 30.0, 40.0])
  }

  /** Extrapolating the pair (0, 1) hits the transit at 30, so nothing is
      missed. */
  lemma EvenTransitsNoMiss()
    ensures ExtraMisses(EvenTransits().date, 1, 10.0, 20.0, 1, 0.1) == 0
  {
    var date := EvenTransits().date;
    assert ClosestIndex(date, 3, 30.0) == 3;
    assert ClosestIndex(date, 2, 30.0) == 3;
    assert ClosestIndex(date, 1, 30.0) == 3;
    assert ExtraMisses(date, 1, 10.0, 30.0, 2, 0.1) == 0;
  }

  /** On the evenly spaced transits, each pair (i, i + 1) finds the next
      transit, so its period is 10. */
  lemma EvenTransitsPeriods()
    ensures Match(EvenTransits().date, 0, 1) == 2 && PairPeriod(EvenTransits().date, 0, 1) == 10.0
    ensures Match(EvenTransits().date, 1, 2) == 3 && PairPeriod(EvenTransits().date, 1, 2) == 10.0
    ensures Match(EvenTransits().date, 2, 3) == 4 && PairPeriod(EvenTransits().date, 2, 3) == 10.0
  {
    var date := EvenTransits().date;
    assert ClosestIndex(date, 2, 20.0) == 2;
    assert ClosestIndex(date, 1, 20.0) == 2;
    assert ClosestIndex(date, 3, 30.0) == 3;
    assert ClosestIndex(date, 2, 30.0) == 3;
    assert ClosestIndex(date, 4, 40.0) == 4;
    assert ClosestIndex(date, 3, 40.0) == 4;
  }

  /** On five evenly spaced transits the pair (0, 1) qualifies, with
      period 10. */
  lemma PreciseFirstPairExample()
    ensures Qualifies(EvenTransits(), 0.0, 0.1, 2, 0, 1)
    ensures CandidateAt(EvenTransits(), 0.0, 0.1, 0, 1).averagePeriod == 10.0
  {
    EvenTransitsPeriods();
  }

  /** Its confidence is 1: no transit missed. */
  lemma PreciseFirstPairConfidence()
    ensures CandidateAt(EvenTransits(), 0.0, 0.1, 0, 1).confidence == 1.0
  {
    var date := EvenTransits().date;
    EvenTransitsNoMiss();
    assert ExpectedTransits(date, 0, 1) == 4;
    assert MissedTransits(date, 0.0, 0, 1, 0.1) == 0;
  }

  /** The pair (1, 2) yields the same period 10 again and is discarded as a
      duplicate of the first detection. */
  lemma PreciseRepeatExample()
    ensures Duplicate(CandidateAt(EvenTransits(), 0.0, 0.1, 1, 2), CandidateAt(EvenTransits(), 0.0, 0.1, 0, 1), 0.1)
  {
    EvenTransitsPeriods();
    var first := CandidateAt(EvenTransits(), 0.0, 0.1, 0, 1);
    var second := CandidateAt(EvenTransits(), 0.0, 0.1, 1, 2);
    HarmonicIsDuplicate(second, first, 0.1, 1);
  }

  /** The pair (2, 3) finds its projection but starts two whole periods
      after the first date, which the gate of two allowed missed transits
      rejects. */
  lemma PreciseGateExample()
    ensures Kept(EvenTransits().date, 2, 3, 0.1)
    ensures !Qualifies(EvenTransits(), 0.0, 0.1, 2, 2, 3)
  {
    EvenTransitsPeriods();
  }
}

=== FILE: filter.dfy ===
/**
 The first pipeline stage: keep the samples whose flux is at or below the
 candidate threshold, in their original order and with their dates.
 */
module CandidateFilter {
  import opened Common
  import opened Lightcurves

  /** The selection test of findPlanetCandidates. */
  function AtOrBelow(threshold: real): real -> bool
  {
    f => f <= threshold
  }

  /** The reference selection: the samples at exactly the positions whose
      flux passes the threshold (Where states what those positions are). */
  function Candidates(raw: Lightcurve, threshold: real): (r: Lightcurve)
    requires raw.Valid()
    ensures r.Valid()
  {
    raw.Pick(Where(raw.flux, AtOrBelow(threshold)))
  }

  /** What Candidates keeps, stated without Where: an order-preserving
      subsequence of (flux, date) pairs that contains every sample at or below
      the threshold and no other. */
  lemma CandidatesSelect(raw: Lightcurve, threshold: real) returns (idx: seq<nat>)
    requires raw.Valid()
    ensures Increasing(idx, raw.Size())
    ensures Candidates(raw, threshold) == raw.Pick(idx)
    ensures forall i :: 0 <= i < raw.Size() ==> (i in idx <==> raw.flux[i] <= threshold)
    ensures forall k :: 0 <= k < |idx| ==> Candidates(raw, threshold).flux[k] <= threshold
    ensures Candidates(raw, threshold).Size() <= raw.Size()
  {
    idx := Where(raw.flux, AtOrBelow(threshold));
    assert forall i :: 0 <= i < raw.Size() ==> AtOrBelow(threshold)(raw.flux[i]) == (raw.flux[i] <= threshold);
    assert forall k :: 0 <= k < |idx| ==> idx[k] in idx;
    IncreasingLength(idx, raw.Size());
  }

  /**
   findPlanetCandidates of the canonical generation. Its length guard compares
   rawData.size() with itself and can never fire; the Lightcurve invariant
   already guarantees equal lengths.
   */
  method FindPlanetCandidates(raw: Lightcurve, threshold: real) returns (r: Lightcurve)
    requires raw.Valid()
    ensures r == Candidates(raw, threshold)
  {
    r := Empty();
    ghost var keep := AtOrBelow(threshold);
    var i := 0;
    while i < raw.Size()
      invariant 0 <= i <= raw.Size()
      invariant r == raw.Pick(Where(raw.flux[..i], keep))
    {
      ghost var before := Where(raw.flux[..i], keep);
      assert raw.flux[..i + 1][..i] == raw.flux[..i];
      if raw.flux[i] <= threshold {
        PickSnoc(raw, before, i);
        r := r.AddPair(raw.flux[i], raw.date[i]);
      }
      i := i + 1;
    }
    assert raw.flux[..i] == raw.flux;
  }
}

=== FILE: finder.dfy ===
/**
 The struct-based generation (ExoplanetFinder): a plain flux/date record
 with no length invariant, a planet record with an isPlanet flag, a fast
 matcher reporting the first transit's date and flux, and an exhaustive
 pair search that keeps every detection passing a signed period test. The
 filter, grouping and bucketing stages are the shared ones; the length
 check that the canonical generation lost is live here.
 */
module ExoplanetFinder {
  import opened Common
  import opened Lightcurves
  import opened NearestDate
  import CandidateFilter
  import TransitGrouper
  import SizeBucketer
  import Pipeline
  import ExoSpotter

  /** The planet record. The no-argument constructor leaves isPlanet false
      and every number 0; the three-argument one sets isPlanet. */
  datatype Planet = Planet(isPlanet: bool, firstTransitDate: real, flux: real, period: real)

  /** "No planet identified". */
  const NoPlanet: Planet := Planet(false, 0.0, 0.0, 0.0)

  /** A found planet. */
  function Found(firstTransitDate: real, flux: real, period: real): Planet
  {
    Planet(true, firstTransitDate, flux, period)
  }

  /** The program stops, printing a message, with this exit code. */
  datatype Abort = Exit(code: int)

  /** The exit code of a flux/date length mismatch. */
  const MismatchExit: int := 2

  /**
   findPlanetCandidates: stop the program when the two sequences differ in
   length, otherwise select exactly as the canonical filter does (an
   order-preserving selection of the samples at or below the threshold, see
   CandidateFilter.CandidatesSelect).
   */
  function FindPlanetCandidates(raw: Lightcurve, threshold: real): (r: Result<Lightcurve, Abort>)
    ensures r.Failure? <==> |raw.flux| != |raw.date|
    ensures r.Failure? ==> r.error == Exit(MismatchExit)
    ensures r.Success? ==> raw.Valid() && r.value == CandidateFilter.Candidates(raw, threshold)
  {
    if |raw.flux| != |raw.date| then Failure(Exit(MismatchExit))
    else Success(CandidateFilter.Candidates(raw, threshold))
  }

  /** The FindPlanet configuration of the struct and map generations. */
  datatype FindPlanet = FindPlanet(
    rawData: Lightcurve,
    potentialPlanetThreshold: real,
    samePlanetSizeThreshold: real,
    maxTransitDurationDays: real,
    ttvRange: real)
  {
    /** findPlanetCandidates, groupDatapoints and splitDatapoints: the
        shared stages, unless the length check stops the program. */
    function Buckets(): (r: Result<seq<Lightcurve>, Abort>)
      ensures r.Failure? <==> !rawData.Valid()
      ensures r.Success? ==> rawData.Valid() && SizeBucketer.WellFormed(r.value)
      ensures r.Success? ==> r.value == Pipeline.Buckets(rawData, potentialPlanetThreshold,
                                                         maxTransitDurationDays, samePlanetSizeThreshold)
    {
      match FindPlanetCandidates(rawData, potentialPlanetThreshold)
      case Failure(e) => Failure(e)
      case Success(candidates) =>
        var grouped := TransitGrouper.GroupDatapoints(candidates, maxTransitDurationDays);
        Success(SizeBucketer.SplitDatapoints(grouped, samePlanetSizeThreshold))
    }
  }

  // ---------------------------------------------------------------------
  // Fast matcher

  /** planetInData: the first evenly spaced triple (the same test as the
      canonical generation) reported by its first date and flux and its mean
      gap; otherwise the default record. */
  function PlanetInData(data: Lightcurve, ttv: real): (r: Planet)
    requires data.Valid()
    ensures !r.isPlanet <==>
              data.Size() < 3 || forall m :: 0 <= m && m + 2 < data.Size() ==> !ExoSpotter.EvenGaps(data.date, m, ttv)
    ensures !r.isPlanet ==> r == NoPlanet
  {
    if data.Size() < 3 then NoPlanet
    else
      match ExoSpotter.FirstEvenTriple(data.date, ttv, 0)
      case None => NoPlanet
      case Some(i) =>
        var transitTime1 := data.date[i + 1] - data.date[i];
        var transitTime2 := data.date[i + 2] - data.date[i + 1];
        Found(data.date[i], data.flux[i], (transitTime1 + transitTime2) / 2.0)
  }

  /** A fast detection is the triple starting at the first evenly spaced
      position i: its date and flux are sample i's, its period half the
      span of the triple. */
  lemma PlanetInDataFirstTriple(data: Lightcurve, ttv: real) returns (i: nat)
    requires data.Valid() && PlanetInData(data, ttv).isPlanet
    ensures i + 2 < data.Size() && ExoSpotter.EvenGaps(data.date, i, ttv)
    ensures forall m :: 0 <= m < i ==> !ExoSpotter.EvenGaps(data.date, m, ttv)
    ensures PlanetInData(data, ttv).firstTransitDate == data.date[i]
    ensures PlanetInData(data, ttv).flux == data.flux[i]
    ensures PlanetInData(data, ttv).period * 2.0 == data.date[i + 2] - data.date[i]
  {
    i := ExoSpotter.FirstEvenTriple(data.date, ttv, 0).value;
  }

  /** The struct and canonical fast matchers find a planet on the same
      buckets, with the same period, first date and first flux. */
  lemma FastMatchersAgree(data: Lightcurve, ttv: real)
    requires data.Valid()
    ensures PlanetInData(data, ttv).isPlanet <==> ExoSpotter.PlanetInData(data, ttv).Some?
    ensures PlanetInData(data, ttv).isPlanet ==>
              var p := ExoSpotter.PlanetInData(data, ttv).value;
              && PlanetInData(data, ttv).period == p.averagePeriod
              && PlanetInData(data, ttv).firstTransitDate == p.datapoints.date[0]
              && PlanetInData(data, ttv).flux == p.datapoints.flux[0]
  {
    if PlanetInData(data, ttv).isPlanet {
      var i := PlanetInDataFirstTriple(data, ttv);
      var j := ExoSpotter.PlanetInDataFirstTriple(data, ttv);
      assert i == j;
    }
  }

  /** The record kept by findPlanets, if it is a planet. */
  function IfPlanet(p: Planet): Option<Planet>
  {
    if p.isPlanet then Some(p) else None
  }

  /** findPlanets: the fast matcher over every bucket, keeping the records
      flagged as planets. */
  function FindPlanets(fp: FindPlanet): (r: Result<seq<Planet>, Abort>)
    ensures r.Failure? <==> !fp.rawData.Valid()
    ensures r.Success? ==> |r.value| <= |fp.Buckets().value|
  {
    match fp.Buckets()
    case Failure(e) => Failure(e)
    case Success(buckets) =>
      Success(Somes(seq(|buckets|, b requires 0 <= b < |buckets| => IfPlanet(PlanetInData(buckets[b], fp.ttvRange)))))
  }

  /** findPlanets keeps, in bucket order, exactly the fast detections of the
      buckets that have one: at most one planet per bucket, all flagged. */
  lemma FindPlanetsPerBucket(fp: FindPlanet) returns (idx: seq<nat>)
    requires fp.rawData.Valid()
    ensures Increasing(idx, |fp.Buckets().value|)
    ensures |idx| == |FindPlanets(fp).value|
    ensures forall k :: 0 <= k < |idx| ==>
              FindPlanets(fp).value[k] == PlanetInData(fp.Buckets().value[idx[k]], fp.ttvRange)
    ensures forall k :: 0 <= k < |idx| ==> FindPlanets(fp).value[k].isPlanet
    ensures forall b :: 0 <= b < |fp.Buckets().value| ==>
              (b in idx <==> PlanetInData(fp.Buckets().value[b], fp.ttvRange).isPlanet)
  {
    var buckets := fp.Buckets().value;
    var found := seq(|buckets|, b requires 0 <= b < |buckets| => IfPlanet(PlanetInData(buckets[b], fp.ttvRange)));
    idx := SomesInOrder(found);
    forall b | 0 <= b < |buckets| && b in idx
      ensures PlanetInData(buckets[b], fp.ttvRange).isPlanet
    {
      var k :| 0 <= k < |idx| && idx[k] == b;
    }
  }

  // ---------------------------------------------------------------------
  // Precise matcher

  /** The first test of this generation: the date the scan from j settles
      on lies strictly within TTVRange of the predicted transit. */
  predicate KeptStrictly(date: seq<real>, i: nat, j: nat, ttv: real)
    requires i < j < |date|
  {
    Abs(ExoSpotter.Projection(date, i, j) - date[ExoSpotter.Match(date, i, j)]) < ttv
  }

  /** The candidate of the pair (i, j): sample i's date and flux, and the
      gap to sample j as period. */
  function CandidateOf(data: Lightcurve, i: nat, j: nat): Planet
    requires data.Valid() && i < j < data.Size()
  {
    Found(data.date[i], data.flux[i], data.date[j] - data.date[i])
  }

  /** The duplicate test against one existing detection: a signed
      difference, so any existing period that is not at least 2 TTVRange
      above the candidate's discards it. */
  predicate Clashes(existing: Planet, candidate: Planet, ttv: real)
  {
    existing.period - candidate.period < ttv * 2.0
  }

  /** Lexicographic order of index pairs: the order the two loops visit
      them in. */
  predicate Before(p: (nat, nat), q: (nat, nat))
  {
    p.0 < q.0 || (p.0 == q.0 && p.1 < q.1)
  }

  /** Detection d is the candidate of the kept pair. */
  ghost predicate FromPair(data: Lightcurve, ttv: real, pair: (nat, nat), d: Planet)
  {
    && data.Valid() && pair.0 < pair.1 < data.Size()
    && KeptStrictly(data.date, pair.0, pair.1, ttv)
    && d == CandidateOf(data, pair.0, pair.1)
  }

  /** A kept pair is accounted for: it was detected, or an earlier
      detection discarded its candidate. */
  ghost predicate Accounted(data: Lightcurve, ttv: real, detected: seq<Planet>, pairs: seq<(nat, nat)>,
                            i: nat, j: nat)
    requires data.Valid() && i < j < data.Size() && |pairs| == |detected|
  {
    || (exists k :: 0 <= k < |pairs| && pairs[k] == (i, j))
    || (exists k :: 0 <= k < |pairs| && Before(pairs[k], (i, j)) &&
          Clashes(detected[k], CandidateOf(data, i, j), ttv))
  }

  /** The state of the search once every pair before (i, j) was tried. */
  ghost predicate SearchInvariant(data: Lightcurve, ttv: real, detected: seq<Planet>, pairs: seq<(nat, nat)>,
                                  i: nat, j: nat)
    requires data.Valid()
  {
    && |pairs| == |detected|
    && (forall k :: 0 <= k < |pairs| ==> FromPair(data, ttv, pairs[k], detected[k]) && Before(pairs[k], (i, j)))
    && (forall k1, k2 :: 0 <= k1 < k2 < |pairs| ==> Before(pairs[k1], pairs[k2]))
    && (forall k1, k2 :: 0 <= k1 < k2 < |detected| ==> !Clashes(detected[k1], detected[k2], ttv))
    && (forall i': nat, j': nat :: i' < j' < data.Size() && Before((i', j'), (i, j)) && KeptStrictly(data.date, i', j', ttv) ==>
          Accounted(data, ttv, detected, pairs, i', j'))
  }

  /** Some detection so far discards the candidate: the scan over the
      detections, stopping at the first hit. */
  method AnyClash(candidate: Planet, detected: seq<Planet>, ttv: real) returns (broken: bool)
    ensures broken <==> exists k :: 0 <= k < |detected| && Clashes(detected[k], candidate, ttv)
  {
    broken := false;
    var k := 0;
    while k < |detected|
      invariant 0 <= k <= |detected|
      invariant forall m :: 0 <= m < k ==> !Clashes(detected[m], candidate, ttv)
    {
      if detected[k].period - candidate.period < ttv * 2.0 {
        broken := true;
        return;
      }
      k := k + 1;
    }
  }

  /** Passing over (i, j), because it is not kept or an earlier detection
      discards it, keeps the invariant. */
  lemma RejectKeepsInvariant(data: Lightcurve, ttv: real, detected: seq<Planet>, pairs: seq<(nat, nat)>,
                             i: nat, j: nat)
    requires data.Valid() && i < j < data.Size()
    requires SearchInvariant(data, ttv, detected, pairs, i, j)
    requires KeptStrictly(data.date, i, j, ttv) ==>
               exists k :: 0 <= k < |detected| && Clashes(detected[k], CandidateOf(data, i, j), ttv)
    ensures SearchInvariant(data, ttv, detected, pairs, i, j + 1)
  {
    if KeptStrictly(data.date, i, j, ttv) {
      var k :| 0 <= k < |detected| && Clashes(detected[k], CandidateOf(data, i, j), ttv);
      assert Before(pairs[k], (i, j));
      assert Accounted(data, ttv, detected, pairs, i, j);
    }
  }

  /** Adding a detection keeps every pair accounted for. */
  lemma AccountedExtends(data: Lightcurve, ttv: real, detected: seq<Planet>, pairs: seq<(nat, nat)>,
                         d: Planet, pair: (nat, nat), i: nat, j: nat)
    requires data.Valid() && i < j < data.Size() && |pairs| == |detected|
    requires Accounted(data, ttv, detected, pairs, i, j)
    ensures Accounted(data, ttv, detected + [d], pairs + [pair], i, j)
  {
    var detected', pairs' := detected + [d], pairs + [pair];
    if k :| 0 <= k < |pairs| && pairs[k] == (i, j) {
      assert pairs'[k] == pairs[k];
    } else {
      var k :| 0 <= k < |pairs| && Before(pairs[k], (i, j)) && Clashes(detected[k], CandidateOf(data, i, j), ttv);
      assert pairs'[k] == pairs[k] && detected'[k] == detected[k];
    }
  }

  /** Recording the candidate of (i, j) keeps every earlier pair accounted
      for and accounts for (i, j) itself. */
  lemma AcceptKeepsAccounted(data: Lightcurve, ttv: real, detected: seq<Planet>, pairs: seq<(nat, nat)>,
                             i: nat, j: nat)
    requires data.Valid() && i < j < data.Size()
    requires SearchInvariant(data, ttv, detected, pairs, i, j)
    ensures forall i': nat, j': nat :: i' < j' < data.Size() && Before((i', j'), (i, j + 1)) && KeptStrictly(data.date, i', j', ttv) ==>
              Accounted(data, ttv, detected + [CandidateOf(data, i, j)], pairs + [(i, j)], i', j')
  {
    var c := CandidateOf(data, i, j);
    var pairs' := pairs + [(i, j)];
    forall i': nat, j': nat | i' < j' < data.Size() && Before((i', j'), (i, j + 1)) && KeptStrictly(data.date, i', j', ttv)
      ensures Accounted(data, ttv, detected + [c], pairs', i', j')
    {
      if (i', j') == (i, j) {
        assert pairs'[|pairs|] == (i, j);
      } else {
        AccountedExtends(data, ttv, detected, pairs, c, (i, j), i', j');
      }
    }
  }

  /** Recording the candidate of (i, j) keeps the detections in visiting
      order, each from its kept pair. */
  lemma AcceptKeepsPairs(data: Lightcurve, ttv: real, detected: seq<Planet>, pairs: seq<(nat, nat)>,
                         i: nat, j: nat)
    requires data.Valid() && i < j < data.Size()
    requires SearchInvariant(data, ttv, detected, pairs, i, j)
    requires KeptStrictly(data.date, i, j, ttv)
    ensures forall k :: 0 <= k < |pairs| + 1 ==>
              && FromPair(data, ttv, (pairs + [(i, j)])[k], (detected + [CandidateOf(data, i, j)])[k])
              && Before((pairs + [(i, j)])[k], (i, j + 1))
    ensures forall k1, k2 :: 0 <= k1 < k2 < |pairs| + 1 ==> Before((pairs + [(i, j)])[k1], (pairs + [(i, j)])[k2])
  {
    var detected', pairs' := detected + [CandidateOf(data, i, j)], pairs + [(i, j)];
    forall k | 0 <= k < |pairs'|
      ensures FromPair(data, ttv, pairs'[k], detected'[k]) && Before(pairs'[k], (i, j + 1))
    {
      if k < |pairs| {
        assert pairs'[k] == pairs[k] && detected'[k] == detected[k];
      }
    }
    forall k1, k2 | 0 <= k1 < k2 < |pairs'|
      ensures Before(pairs'[k1], pairs'[k2])
    {
      if k2 < |pairs| {
        assert pairs'[k1] == pairs[k1] && pairs'[k2] == pairs[k2];
      } else {
        assert pairs'[k1] == pairs[k1];
      }
    }
  }

  /** Recording a candidate that no detection discards keeps the
      detections free of clashes. */
  lemma AcceptKeepsDistinct(detected: seq<Planet>, c: Planet, ttv: real)
    requires forall k1, k2 :: 0 <= k1 < k2 < |detected| ==> !Clashes(detected[k1], detected[k2], ttv)
    requires forall k :: 0 <= k < |detected| ==> !Clashes(detected[k], c, ttv)
    ensures forall k1, k2 :: 0 <= k1 < k2 < |detected| + 1 ==> !Clashes((detected + [c])[k1], (detected + [c])[k2], ttv)
  {
    var detected' := detected + [c];
    forall k1, k2 | 0 <= k1 < k2 < |detected'|
      ensures !Clashes(detected'[k1], detected'[k2], ttv)
    {
      if k2 < |detected| {
        assert detected'[k1] == detected[k1] && detected'[k2] == detected[k2];
      } else {
        assert detected'[k1] == detected[k1];
      }
    }
  }

  /** Recording the kept, undiscarded candidate of (i, j) keeps the
      invariant. */
  lemma AcceptKeepsInvariant(data: Lightcurve, ttv: real, detected: seq<Planet>, pairs: seq<(nat, nat)>,
                             i: nat, j: nat)
    requires data.Valid() && i < j < data.Size()
    requires SearchInvariant(data, ttv, detected, pairs, i, j)
    requires KeptStrictly(data.date, i, j, ttv)
    requires forall k :: 0 <= k < |detected| ==> !Clashes(detected[k], CandidateOf(data, i, j), ttv)
    ensures SearchInvariant(data, ttv, detected + [CandidateOf(data, i, j)], pairs + [(i, j)], i, j + 1)
  {
    AcceptKeepsAccounted(data, ttv, detected, pairs, i, j);
    AcceptKeepsPairs(data, ttv, detected, pairs, i, j);
    AcceptKeepsDistinct(detected, CandidateOf(data, i, j), ttv);
  }

  /** One pass of the inner loop body: scan for the date closest to the
      predicted transit, test it, and record the candidate unless an earlier
      detection discards it. */
  method ConsiderPair(data: Lightcurve, ttv: real, detected: seq<Planet>, ghost pairs: seq<(nat, nat)>,
                      i: nat, j: nat)
    returns (detected': seq<Planet>, ghost pairs': seq<(nat, nat)>)
    requires data.Valid() && i < j < data.Size()
    requires SearchInvariant(data, ttv, detected, pairs, i, j)
    ensures SearchInvariant(data, ttv, detected', pairs', i, j + 1)
    ensures detected' == detected || detected' == detected + [CandidateOf(data, i, j)]
    ensures |detected'| == |detected| + 1 <==>
              KeptStrictly(data.date, i, j, ttv) &&
              forall k :: 0 <= k < |detected| ==> !Clashes(detected[k], CandidateOf(data, i, j), ttv)
  {
    var period := data.date[j] - data.date[i];
    var nextExpectedTransit := data.date[j] + period;
    var closestIndex := FindClosestIndex(data.date, j, nextExpectedTransit);
    var closest := data.date[closestIndex];
    detected', pairs' := detected, pairs;
    if Abs(nextExpectedTransit - closest) < ttv {
      var candidate := Found(data.date[i], data.flux[i], period);
      var broken := AnyClash(candidate, detected, ttv);
      if !broken {
        AcceptKeepsInvariant(data, ttv, detected, pairs, i, j);
        detected', pairs' := detected + [candidate], pairs + [(i, j)];
        return;
      }
    }
    RejectKeepsInvariant(data, ttv, detected, pairs, i, j);
  }

  /** After the last j for i, the next pair to try is (i + 1, i + 2): no
      pair lies between. */
  lemma NextStartKeepsInvariant(data: Lightcurve, ttv: real, detected: seq<Planet>, pairs: seq<(nat, nat)>, i: nat)
    requires data.Valid() && i < data.Size()
    requires SearchInvariant(data, ttv, detected, pairs, i, data.Size())
    ensures SearchInvariant(data, ttv, detected, pairs, i + 1, i + 2)
  {
    forall i': nat, j': nat | i' < j' < data.Size() && Before((i', j'), (i + 1, i + 2)) && KeptStrictly(data.date, i', j', ttv)
      ensures Accounted(data, ttv, detected, pairs, i', j')
    {
      assert Before((i', j'), (i, data.Size()));
    }
  }

  /** With every pair tried, every kept pair is accounted for, and nothing
      is detected exactly when no pair is kept. */
  lemma SearchConclusion(data: Lightcurve, ttv: real, detected: seq<Planet>, pairs: seq<(nat, nat)>)
    requires data.Valid()
    requires SearchInvariant(data, ttv, detected, pairs, data.Size(), data.Size() + 1)
    ensures forall i, j :: 0 <= i < j < data.Size() && KeptStrictly(data.date, i, j, ttv) ==>
              Accounted(data, ttv, detected, pairs, i, j)
    ensures detected == [] <==> forall i, j :: 0 <= i < j < data.Size() ==> !KeptStrictly(data.date, i, j, ttv)
  {
    var n := data.Size();
    forall i, j | 0 <= i < j < n && KeptStrictly(data.date, i, j, ttv)
      ensures Accounted(data, ttv, detected, pairs, i, j)
    {
      assert Before((i, j), (n, n + 1));
    }
    if detected != [] {
      assert FromPair(data, ttv, pairs[0], detected[0]);
    } else {
      forall i, j | 0 <= i < j < data.Size()
        ensures !KeptStrictly(data.date, i, j, ttv)
      {
        assert Before((i, j), (data.Size(), data.Size() + 1));
      }
    }
  }

  /** What planetInDataPrecise of this generation yields on a bucket:
      detections that each come from a kept pair, in visiting order, each
      period at least 2 TTVRange below every earlier one; none on fewer than
      three samples; every kept pair accounted for; and nothing exactly when
      no pair is kept. */
  ghost predicate SearchResult(data: Lightcurve, ttv: real, detected: seq<Planet>, pairs: seq<(nat, nat)>)
  {
    && data.Valid()
    && |pairs| == |detected|
    && (forall k :: 0 <= k < |pairs| ==> FromPair(data, ttv, pairs[k], detected[k]))
    && (forall k1, k2 :: 0 <= k1 < k2 < |pairs| ==> Before(pairs[k1], pairs[k2]))
    && (forall k1, k2 :: 0 <= k1 < k2 < |detected| ==> detected[k1].period - detected[k2].period >= ttv * 2.0)
    && (data.Size() < 3 ==> detected == [])
    && (data.Size() >= 3 ==>
          forall i, j :: 0 <= i < j < data.Size() && KeptStrictly(data.date, i, j, ttv) ==>
            Accounted(data, ttv, detected, pairs, i, j))
    && (data.Size() >= 3 ==>
          (detected == [] <==> forall i, j :: 0 <= i < j < data.Size() ==> !KeptStrictly(data.date, i, j, ttv)))
  }

  /**
   planetInDataPrecise of this generation. Every pair i < j is tried in
   visiting order, with no early exit; the candidate of a kept pair is
   recorded unless an earlier detection's period is less than 2 TTVRange
   above its own. The ghost pairs say which pair each detection came from.
   */
  method PlanetInDataPrecise(data: Lightcurve, ttv: real)
    returns (detected: seq<Planet>, ghost pairs: seq<(nat, nat)>)
    requires data.Valid()
    ensures data.Size() < 3 ==> detected == []
    ensures |pairs| == |detected|
    ensures forall k :: 0 <= k < |pairs| ==> FromPair(data, ttv, pairs[k], detected[k])
    ensures forall k1, k2 :: 0 <= k1 < k2 < |pairs| ==> Before(pairs[k1], pairs[k2])
    ensures forall k1, k2 :: 0 <= k1 < k2 < |detected| ==> detected[k1].period - detected[k2].period >= ttv * 2.0
    ensures data.Size() >= 3 ==>
              forall i, j :: 0 <= i < j < data.Size() && KeptStrictly(data.date, i, j, ttv) ==>
                Accounted(data, ttv, detected, pairs, i, j)
    ensures data.Size() >= 3 ==>
              (detected == [] <==> forall i, j :: 0 <= i < j < data.Size() ==> !KeptStrictly(data.date, i, j, ttv))
    ensures SearchResult(data, ttv, detected, pairs)
  {
    detected, pairs := [], [];
    if data.Size() < 3 {
      return;
    }
    var n := data.Size();
    var i := 0;
    while i < n
      invariant 0 <= i <= n
      invariant SearchInvariant(data, ttv, detected, pairs, i, i + 1)
    {
      detected, pairs := SearchFrom(data, ttv, detected, pairs, i);
      i := i + 1;
    }
    SearchConclusion(data, ttv, detected, pairs);
  }

  /** The inner loop for the first index i: every j > i in turn. */
  method SearchFrom(data: Lightcurve, ttv: real, detected: seq<Planet>, ghost pairs: seq<(nat, nat)>, i: nat)
    returns (detected': seq<Planet>, ghost pairs': seq<(nat, nat)>)
    requires data.Valid() && i < data.Size()
    requires SearchInvariant(data, ttv, detected, pairs, i, i + 1)
    ensures SearchInvariant(data, ttv, detected', pairs', i + 1, i + 2)
    ensures |detected| <= |detected'| && detected'[..|detected|] == detected
  {
    detected', pairs' := detected, pairs;
    var j := i + 1;
    while j < data.Size()
      invariant i + 1 <= j <= data.Size()
      invariant SearchInvariant(data, ttv, detected', pairs', i, j)
      invariant |detected| <= |detected'| && detected'[..|detected|] == detected
    {
      detected', pairs' := ConsiderPair(data, ttv, detected', pairs', i, j);
      j := j + 1;
    }
    NextStartKeepsInvariant(data, ttv, detected', pairs', i);
  }

  /**
   On a bucket in time order a later j only lengthens the period, so a
   second detection for the same i always fails the signed test: the
   detections come from distinct first indices, with strictly shrinking
   periods.
   */
  lemma OneDetectionPerStart(data: Lightcurve, ttv: real, detected: seq<Planet>, pairs: seq<(nat, nat)>)
    requires data.Valid() && StrictlyIncreasing(data.date)
    requires |pairs| == |detected|
    requires forall k :: 0 <= k < |pairs| ==> FromPair(data, ttv, pairs[k], detected[k])
    requires forall k1, k2 :: 0 <= k1 < k2 < |pairs| ==> Before(pairs[k1], pairs[k2])
    requires forall k1, k2 :: 0 <= k1 < k2 < |detected| ==> detected[k1].period - detected[k2].period >= ttv * 2.0
    ensures forall k1, k2 :: 0 <= k1 < k2 < |pairs| ==> pairs[k1].0 < pairs[k2].0
    ensures forall k1, k2 :: 0 <= k1 < k2 < |detected| ==> detected[k2].period < detected[k1].period
  {
    if |pairs| > 0 {
      // A kept pair exists, so TTVRange is positive.
      assert FromPair(data, ttv, pairs[0], detected[0]);
      assert ttv > 0.0;
    }
    forall k1, k2 | 0 <= k1 < k2 < |pairs|
      ensures pairs[k1].0 < pairs[k2].0
    {
      assert FromPair(data, ttv, pairs[k1], detected[k1]) && FromPair(data, ttv, pairs[k2], detected[k2]);
    }
  }

  /** findPlanetsPrecise: the precise matcher over every bucket, all
      detections concatenated in bucket order. The ghost perBucket and
      perPairs are each bucket's own result, which the planets concatenate;
      bucketOf and pairs say which bucket and which pair each planet came
      from. */
  method FindPlanetsPrecise(fp: FindPlanet)
    returns (r: Result<seq<Planet>, Abort>, ghost bucketOf: seq<nat>, ghost pairs: seq<(nat, nat)>,
             ghost perBucket: seq<seq<Planet>>, ghost perPairs: seq<seq<(nat, nat)>>)
    ensures r.Failure? <==> !fp.rawData.Valid()
    ensures r.Failure? ==> r.error == Exit(MismatchExit)
    ensures r.Success? ==> |bucketOf| == |r.value| && |pairs| == |r.value|
    ensures r.Success? ==> forall k :: 0 <= k < |r.value| ==> bucketOf[k] < |fp.Buckets().value|
    ensures r.Success? ==> forall k1, k2 :: 0 <= k1 < k2 < |r.value| ==> bucketOf[k1] <= bucketOf[k2]
    ensures r.Success? ==> forall k :: 0 <= k < |r.value| ==>
              FromPair(fp.Buckets().value[bucketOf[k]], fp.ttvRange, pairs[k], r.value[k])
    ensures r.Success? ==> forall k1, k2 :: 0 <= k1 < k2 < |r.value| && bucketOf[k1] == bucketOf[k2] ==>
              r.value[k1].period - r.value[k2].period >= fp.ttvRange * 2.0
    ensures r.Success? ==> |perBucket| == |fp.Buckets().value| && |perPairs| == |fp.Buckets().value|
    ensures r.Success? ==> r.value == Flatten(perBucket)
    ensures r.Success? ==> forall b :: 0 <= b < |fp.Buckets().value| ==>
              SearchResult(fp.Buckets().value[b], fp.ttvRange, perBucket[b], perPairs[b])
  {
    bucketOf, pairs, perBucket, perPairs := [], [], [], [];
    var split := fp.Buckets();
    if split.Failure? {
      return Failure(split.error), bucketOf, pairs, perBucket, perPairs;
    }
    var buckets := split.value;
    var planets := [];
    var b := 0;
    while b < |buckets|
      invariant 0 <= b <= |buckets|
      invariant Collected(buckets, fp.ttvRange, planets, bucketOf, pairs, perBucket, perPairs, b)
    {
      planets, bucketOf, pairs, perBucket, perPairs :=
        CollectBucket(buckets, fp.ttvRange, planets, bucketOf, pairs, perBucket, perPairs, b);
      b := b + 1;
    }
    AllSearchedEach(buckets, fp.ttvRange, perBucket, perPairs);
    r := Success(planets);
  }

  /** The bookkeeping of findPlanetsPrecise after the buckets below b: the
      planets so far, which bucket and pair each came from, and each
      bucket's own result, which the planets concatenate. */
  ghost predicate Collected(buckets: seq<Lightcurve>, ttv: real,
                            planets: seq<Planet>, bucketOf: seq<nat>, pairs: seq<(nat, nat)>,
                            perBucket: seq<seq<Planet>>, perPairs: seq<seq<(nat, nat)>>, b: nat)
  {
    && b <= |buckets|
    && |bucketOf| == |planets| && |pairs| == |planets|
    && (forall k :: 0 <= k < |planets| ==> bucketOf[k] < b)
    && (forall k1, k2 :: 0 <= k1 < k2 < |planets| ==> bucketOf[k1] <= bucketOf[k2])
    && (forall k :: 0 <= k < |planets| ==> FromPair(buckets[bucketOf[k]], ttv, pairs[k], planets[k]))
    && (forall k1, k2 :: 0 <= k1 < k2 < |planets| && bucketOf[k1] == bucketOf[k2] ==>
          planets[k1].period - planets[k2].period >= ttv * 2.0)
    && |perBucket| == b && |perPairs| == b
    && planets == Flatten(perBucket)
    && AllSearched(buckets, ttv, perBucket, perPairs)
  }

  /** One iteration of findPlanetsPrecise: run the precise matcher on bucket
      b and append its detections. */
  method CollectBucket(buckets: seq<Lightcurve>, ttv: real,
                       planets: seq<Planet>, ghost bucketOf: seq<nat>, ghost pairs: seq<(nat, nat)>,
                       ghost perBucket: seq<seq<Planet>>, ghost perPairs: seq<seq<(nat, nat)>>, b: nat)
    returns (planets': seq<Planet>, ghost bucketOf': seq<nat>, ghost pairs': seq<(nat, nat)>,
             ghost perBucket': seq<seq<Planet>>, ghost perPairs': seq<seq<(nat, nat)>>)
    requires b < |buckets| && buckets[b].Valid()
    requires Collected(buckets, ttv, planets, bucketOf, pairs, perBucket, perPairs, b)
    ensures Collected(buckets, ttv, planets', bucketOf', pairs', perBucket', perPairs', b + 1)
    ensures |planets| <= |planets'| && planets'[..|planets|] == planets
  {
    var found;
    ghost var foundPairs;
    found, foundPairs := PlanetInDataPrecise(buckets[b], ttv);
    ConcatOrigins(planets, bucketOf, pairs, found, foundPairs, b, buckets, ttv);
    ConcatSeparated(planets, bucketOf, found, b, ttv);
    perBucket', perPairs' := AppendSearched(perBucket, perPairs, found, foundPairs, b, buckets, ttv);
    planets', bucketOf', pairs' := planets + found, bucketOf + seq(|found|, _ => b), pairs + foundPairs;
  }

  /** Every bucket's part, in order, is a result of the precise matcher on
      that bucket. */
  ghost predicate AllSearched(buckets: seq<Lightcurve>, ttv: real,
                              perBucket: seq<seq<Planet>>, perPairs: seq<seq<(nat, nat)>>)
    decreases |perBucket|
  {
    && |perPairs| == |perBucket| <= |buckets|
    && (|perBucket| == 0 ||
        (var n := |perBucket| - 1;
         && AllSearched(buckets, ttv, perBucket[..n], perPairs[..n])
         && SearchResult(buckets[n], ttv, perBucket[n], perPairs[n])))
  }

  /** AllSearched gives each bucket's part. */
  lemma {:induction false} AllSearchedAt(buckets: seq<Lightcurve>, ttv: real,
                                         perBucket: seq<seq<Planet>>, perPairs: seq<seq<(nat, nat)>>, b: nat)
    requires b < |perBucket|
    requires AllSearched(buckets, ttv, perBucket, perPairs)
    ensures b < |buckets| && b < |perPairs|
    ensures SearchResult(buckets[b], ttv, perBucket[b], perPairs[b])
  {
    var n := |perBucket| - 1;
    if b < n {
      AllSearchedAt(buckets, ttv, perBucket[..n], perPairs[..n], b);
      assert perBucket[..n][b] == perBucket[b] && perPairs[..n][b] == perPairs[b];
    }
  }

  /** AllSearched gives every bucket's part. */
  lemma AllSearchedEach(buckets: seq<Lightcurve>, ttv: real,
                        perBucket: seq<seq<Planet>>, perPairs: seq<seq<(nat, nat)>>)
    requires |perPairs| == |perBucket| <= |buckets|
    requires AllSearched(buckets, ttv, perBucket, perPairs)
    ensures forall b :: 0 <= b < |perBucket| ==> SearchResult(buckets[b], ttv, perBucket[b], perPairs[b])
  {
    forall b | 0 <= b < |perBucket|
      ensures SearchResult(buckets[b], ttv, perBucket[b], perPairs[b])
    {
      AllSearchedAt(buckets, ttv, perBucket, perPairs, b);
    }
  }

  /** Recording bucket b's own result keeps the per-bucket bookkeeping of
      findPlanetsPrecise. */
  lemma AppendSearched(perBucket: seq<seq<Planet>>, perPairs: seq<seq<(nat, nat)>>,
                       found: seq<Planet>, foundPairs: seq<(nat, nat)>, b: nat,
                       buckets: seq<Lightcurve>, ttv: real)
    returns (perBucket': seq<seq<Planet>>, perPairs': seq<seq<(nat, nat)>>)
    requires b < |buckets| && |perBucket| == b && |perPairs| == b
    requires AllSearched(buckets, ttv, perBucket, perPairs)
    requires SearchResult(buckets[b], ttv, found, foundPairs)
    ensures perBucket' == perBucket + [found] && perPairs' == perPairs + [foundPairs]
    ensures Flatten(perBucket') == Flatten(perBucket) + found
    ensures |perBucket'| == b + 1 && |perPairs'| == b + 1
    ensures AllSearched(buckets, ttv, perBucket', perPairs')
  {
    perBucket', perPairs' := perBucket + [found], perPairs + [foundPairs];
    assert perBucket'[..b] == perBucket && perPairs'[..b] == perPairs;
  }

  /** Where the planets of the concatenation came from. */
  lemma ConcatOrigins(planets: seq<Planet>, bucketOf: seq<nat>, pairs: seq<(nat, nat)>,
                      found: seq<Planet>, foundPairs: seq<(nat, nat)>, b: nat, buckets: seq<Lightcurve>, ttv: real)
    requires b < |buckets|
    requires |bucketOf| == |planets| && |pairs| == |planets| && |foundPairs| == |found|
    requires forall k :: 0 <= k < |planets| ==> bucketOf[k] < b
    requires forall k1, k2 :: 0 <= k1 < k2 < |planets| ==> bucketOf[k1] <= bucketOf[k2]
    requires forall k :: 0 <= k < |planets| ==> FromPair(buckets[bucketOf[k]], ttv, pairs[k], planets[k])
    requires forall k :: 0 <= k < |found| ==> FromPair(buckets[b], ttv, foundPairs[k], found[k])
    ensures var planets', bucketOf', pairs' := planets + found, bucketOf + seq(|found|, _ => b), pairs + foundPairs;
            && (forall k :: 0 <= k < |planets'| ==> bucketOf'[k] < b + 1)
            && (forall k1, k2 :: 0 <= k1 < k2 < |planets'| ==> bucketOf'[k1] <= bucketOf'[k2])
            && (forall k :: 0 <= k < |planets'| ==> FromPair(buckets[bucketOf'[k]], ttv, pairs'[k], planets'[k]))
  {
    var planets', bucketOf', pairs' := planets + found, bucketOf + seq(|found|, _ => b), pairs + foundPairs;
    var n := |planets|;
    forall k | 0 <= k < |planets'|
      ensures bucketOf'[k] < b + 1
      ensures FromPair(buckets[bucketOf'[k]], ttv, pairs'[k], planets'[k])
    {
      if k < n {
        assert bucketOf'[k] == bucketOf[k] && pairs'[k] == pairs[k] && planets'[k] == planets[k];
      } else {
        assert bucketOf'[k] == b && pairs'[k] == foundPairs[k - n] && planets'[k] == found[k - n];
      }
    }
    forall k1, k2 | 0 <= k1 < k2 < |planets'|
      ensures bucketOf'[k1] <= bucketOf'[k2]
    {
      if k2 < n {
        assert bucketOf'[k1] == bucketOf[k1] && bucketOf'[k2] == bucketOf[k2];
      } else if k1 < n {
        assert bucketOf'[k1] == bucketOf[k1];
      }
    }
  }

  /** Within one bucket the concatenation keeps detections 2 TTVRange
      apart. */
  lemma ConcatSeparated(planets: seq<Planet>, bucketOf: seq<nat>, found: seq<Planet>, b: nat, ttv: real)
    requires |bucketOf| == |planets|
    requires forall k :: 0 <= k < |planets| ==> bucketOf[k] < b
    requires forall k1, k2 :: 0 <= k1 < k2 < |planets| && bucketOf[k1] == bucketOf[k2] ==>
               planets[k1].period - planets[k2].period >= ttv * 2.0
    requires forall k1, k2 :: 0 <= k1 < k2 < |found| ==> found[k1].period - found[k2].period >= ttv * 2.0
    ensures var planets', bucketOf' := planets + found, bucketOf + seq(|found|, _ => b);
            forall k1, k2 :: 0 <= k1 < k2 < |planets'| && bucketOf'[k1] == bucketOf'[k2] ==>
              planets'[k1].period - planets'[k2].period >= ttv * 2.0
  {
    var planets', bucketOf' := planets + found, bucketOf + seq(|found|, _ => b);
    var n := |planets|;
    forall k1, k2 | 0 <= k1 < k2 < |planets'| && bucketOf'[k1] == bucketOf'[k2]
      ensures planets'[k1].period - planets'[k2].period >= ttv * 2.0
    {
      if k2 < n {
        assert planets'[k2] == planets[k2] && planets'[k1] == planets[k1];
        assert bucketOf'[k2] == bucketOf[k2] && bucketOf'[k1] == bucketOf[k1];
      } else {
        assert bucketOf'[k2] == b;
        assert k1 >= n;
        assert planets'[k2] == found[k2 - n] && planets'[k1] == found[k1 - n];
      }
    }
  }
}

=== FILE: grouper.dfy ===
/**
 groupDatapoints: a single pass that collapses the candidate samples of one
 transit into its deepest sample. A new transit window opens when a date lies
 more than maxTransitDurationDays after the date that started the current
 window (0 before any window has started). The running peak starts at the
 sentinel pair (flux 2, date 0), and a peak equal to that pair is never
 emitted.
 */
module TransitGrouper {
  import opened Common
  import opened Lightcurves

  const SentinelFlux: real := 2.0
  const SentinelDate: real := 0.0

  /** The loop state: running peak, the date that started the current window,
      and the samples emitted so far. */
  datatype Grouper = Grouper(peakFlux: real, peakDate: real, startDate: real, grouped: Lightcurve)

  const Initial: Grouper := Grouper(SentinelFlux, SentinelDate, 0.0, Empty())

  /** The "are these the default values" test, an exact comparison. */
  predicate AtSentinel(g: Grouper)
  {
    g.peakFlux == SentinelFlux && g.peakDate == SentinelDate
  }

  /** Emit the running peak unless it equals the sentinel pair. */
  function Flush(g: Grouper): Lightcurve
  {
    if AtSentinel(g) then g.grouped else g.grouped.AddPair(g.peakFlux, g.peakDate)
  }

  /** One loop iteration, on the sample (f, d). */
  function Step(g: Grouper, f: real, d: real, maxDuration: real): (r: Grouper)
    ensures r.peakFlux <= f
    ensures r.startDate == g.startDate || r.startDate == d
    ensures g.grouped.flux <= r.grouped.flux && g.grouped.date <= r.grouped.date
    ensures |r.grouped.flux| <= |g.grouped.flux| + 1 && |r.grouped.date| <= |g.grouped.date| + 1
    ensures r.grouped != g.grouped ==>
              d - g.startDate > maxDuration && r.grouped == g.grouped.AddPair(g.peakFlux, g.peakDate)
    ensures d - g.startDate <= maxDuration ==> r.peakFlux <= g.peakFlux
  {
    var g1 := if d - g.startDate > maxDuration then Grouper(f, d, d, Flush(g)) else g;
    if f < g1.peakFlux then g1.(peakFlux := f, peakDate := d) else g1
  }

  /** The state after the first n samples. */
  function Scan(c: Lightcurve, maxDuration: real, n: nat): (g: Grouper)
    requires c.Valid() && n <= c.Size()
    ensures g.grouped.Valid()
  {
    if n == 0 then Initial
    else Step(Scan(c, maxDuration, n - 1), c.flux[n - 1], c.date[n - 1], maxDuration)
  }

  /** groupDatapoints: run the loop over all samples and flush the last peak. */
  function GroupDatapoints(c: Lightcurve, maxDuration: real): (r: Lightcurve)
    requires c.Valid()
    ensures r.Valid()
  {
    Flush(Scan(c, maxDuration, c.Size()))
  }

  /** Sample i opens a new transit window. */
  ghost predicate Opens(c: Lightcurve, maxDuration: real, i: nat)
    requires c.Valid() && i < c.Size()
  {
    c.date[i] - Scan(c, maxDuration, i).startDate > maxDuration
  }

  /** No window opens strictly between a and b. */
  ghost predicate Quiet(c: Lightcurve, maxDuration: real, a: nat, b: nat)
    requires c.Valid() && b <= c.Size()
  {
    forall m :: a < m < b ==> !Opens(c, maxDuration, m)
  }

  /** [a, b) is one transit window: it starts at the beginning of the data
      or where a window opens, ends at the end of the data or where the next
      window opens, and no window opens inside it. */
  ghost predicate IsWindow(c: Lightcurve, maxDuration: real, a: nat, b: nat)
    requires c.Valid()
  {
    && a < b <= c.Size()
    && (a == 0 || Opens(c, maxDuration, a))
    && (b == c.Size() || Opens(c, maxDuration, b))
    && Quiet(c, maxDuration, a, b)
  }

  /** p is the earliest sample of minimum flux among positions [a, b). */
  ghost predicate EarliestMin(c: Lightcurve, p: nat, a: nat, b: nat)
    requires c.Valid() && b <= c.Size()
  {
    && a <= p < b
    && (forall m :: a <= m < b ==> c.flux[p] <= c.flux[m])
    && (forall m :: a <= m < p ==> c.flux[p] < c.flux[m])
  }

  /** Sample i holds exactly the sentinel pair. */
  ghost predicate SentinelSample(c: Lightcurve, i: nat)
    requires c.Valid() && i < c.Size()
  {
    c.flux[i] == SentinelFlux && c.date[i] == SentinelDate
  }

  /** The emitted positions idx, each with its window [lo[k], hi[k]) ending
      no later than bound: windows in order and disjoint, each emitted sample
      the earliest deepest one of its window, never the sentinel pair. */
  ghost predicate Emitted(c: Lightcurve, maxDuration: real, idx: seq<nat>, lo: seq<nat>, hi: seq<nat>, bound: nat)
    requires c.Valid() && bound <= c.Size()
  {
    && |lo| == |idx| && |hi| == |idx|
    && Increasing(idx, c.Size())
    && (forall k :: 0 <= k < |idx| ==>
          && lo[k] <= idx[k] < hi[k] <= bound
          && IsWindow(c, maxDuration, lo[k], hi[k])
          && EarliestMin(c, idx[k], lo[k], hi[k])
          && !SentinelSample(c, idx[k]))
    && (forall k1, k2 :: 0 <= k1 < k2 < |idx| ==> hi[k1] <= lo[k2])
  }

  /** The state of the running peak: p == -1 while it is still the initial
      sentinel, otherwise p is the earliest deepest sample of the current
      window [s, n), which started at s (or is the stretch before any window
      started, when started is false). */
  ghost predicate Pending(c: Lightcurve, maxDuration: real, n: nat, p: int, s: nat, started: bool)
    requires c.Valid() && n <= c.Size()
  {
    var g := Scan(c, maxDuration, n);
    && s <= n && p >= -1
    && (started ==> s < n && Opens(c, maxDuration, s) && g.startDate == c.date[s] && p >= 0)
    && (!started ==> s == 0 && g.startDate == 0.0 && forall m :: 0 <= m < n ==> !Opens(c, maxDuration, m))
    && Quiet(c, maxDuration, s, n)
    && (p == -1 ==> AtSentinel(g) && forall m :: 0 <= m < n ==> c.flux[m] >= SentinelFlux)
    && (p >= 0 ==> EarliestMin(c, p, s, n) && g.peakFlux == c.flux[p] && g.peakDate == c.date[p])
  }

  /** Flushing a pending peak extends the emitted list by the window [s, n). */
  lemma FlushPending(c: Lightcurve, maxDuration: real, n: nat, idx: seq<nat>, lo: seq<nat>, hi: seq<nat>,
                     p: int, s: nat, started: bool)
    returns (idx': seq<nat>, lo': seq<nat>, hi': seq<nat>)
    requires c.Valid() && 0 < n <= c.Size()
    requires Pending(c, maxDuration, n, p, s, started)
    requires Emitted(c, maxDuration, idx, lo, hi, s)
    requires Scan(c, maxDuration, n).grouped == c.Pick(idx)
    requires n == c.Size() || Opens(c, maxDuration, n)
    ensures Emitted(c, maxDuration, idx', lo', hi', n)
    ensures Flush(Scan(c, maxDuration, n)) == c.Pick(idx')
  {
    var g := Scan(c, maxDuration, n);
    if AtSentinel(g) {
      idx', lo', hi' := idx, lo, hi;
    } else {
      assert p >= 0;
      PickSnoc(c, idx, p);
      idx', lo', hi' := idx + [p], lo + [s], hi + [n];
      assert IsWindow(c, maxDuration, s, n);
      assert !SentinelSample(c, p);
      EmittedSnoc(c, maxDuration, idx, lo, hi, s, p, n);
    }
  }

  /** Emitting the peak p of the window [s, n) after the windows ending by s
      keeps the emitted list in order. */
  lemma EmittedSnoc(c: Lightcurve, maxDuration: real, idx: seq<nat>, lo: seq<nat>, hi: seq<nat>,
                    s: nat, p: nat, n: nat)
    requires c.Valid() && n <= c.Size() && s <= p < n
    requires Emitted(c, maxDuration, idx, lo, hi, s)
    requires IsWindow(c, maxDuration, s, n) && EarliestMin(c, p, s, n) && !SentinelSample(c, p)
    ensures Emitted(c, maxDuration, idx + [p], lo + [s], hi + [n], n)
  {
    forall k | 0 <= k < |idx|
      ensures idx[k] < p
    {
      assert idx[k] < hi[k] <= s <= p;
    }
  }

  /** A sample that opens a window flushes the pending peak and becomes the
      peak of the new window [i, i + 1). */
  lemma OpeningStep(c: Lightcurve, maxDuration: real, i: nat, idx0: seq<nat>, lo0: seq<nat>, hi0: seq<nat>,
                    p0: int, s0: nat, started0: bool)
    returns (idx: seq<nat>, lo: seq<nat>, hi: seq<nat>)
    requires c.Valid() && i < c.Size()
    requires Pending(c, maxDuration, i, p0, s0, started0)
    requires Emitted(c, maxDuration, idx0, lo0, hi0, s0)
    requires Scan(c, maxDuration, i).grouped == c.Pick(idx0)
    requires Opens(c, maxDuration, i)
    ensures Pending(c, maxDuration, i + 1, i, i, true)
    ensures Emitted(c, maxDuration, idx, lo, hi, i)
    ensures Scan(c, maxDuration, i + 1).grouped == c.Pick(idx)
  {
    var g := Scan(c, maxDuration, i);
    assert Scan(c, maxDuration, i + 1) == Step(g, c.flux[i], c.date[i], maxDuration);
    if i == 0 {
      idx, lo, hi := idx0, lo0, hi0;
      assert g == Initial;
    } else {
      idx, lo, hi := FlushPending(c, maxDuration, i, idx0, lo0, hi0, p0, s0, started0);
    }
    assert EarliestMin(c, i, i, i + 1);
  }

  /** A sample that does not open a window only updates the running peak. */
  lemma QuietStep(c: Lightcurve, maxDuration: real, i: nat, p0: int, s: nat, started: bool)
    returns (p: int)
    requires c.Valid() && i < c.Size()
    requires Pending(c, maxDuration, i, p0, s, started)
    requires !Opens(c, maxDuration, i)
    ensures Pending(c, maxDuration, i + 1, p, s, started)
    ensures Scan(c, maxDuration, i + 1).grouped == Scan(c, maxDuration, i).grouped
  {
    var g := Scan(c, maxDuration, i);
    assert Scan(c, maxDuration, i + 1) == Step(g, c.flux[i], c.date[i], maxDuration);
    var n := i + 1;
    assert Quiet(c, maxDuration, s, n);
    if c.flux[i] < g.peakFlux {
      p := i;
      forall m | s <= m < i
        ensures c.flux[i] < c.flux[m]
      {
        if p0 >= 0 {
          assert c.flux[p0] <= c.flux[m];
        } else {
          assert c.flux[m] >= SentinelFlux;
        }
      }
      assert EarliestMin(c, p, s, n);
    } else {
      p := p0;
      if p0 >= 0 {
        assert c.flux[p0] <= c.flux[i];
        assert EarliestMin(c, p, s, n);
      }
    }
  }

  /** The loop invariant of groupDatapoints, established sample by sample. */
  lemma {:induction false} ScanInvariant(c: Lightcurve, maxDuration: real, n: nat)
    returns (idx: seq<nat>, lo: seq<nat>, hi: seq<nat>, p: int, s: nat, started: bool)
    requires c.Valid() && n <= c.Size()
    ensures Pending(c, maxDuration, n, p, s, started)
    ensures Emitted(c, maxDuration, idx, lo, hi, s)
    ensures Scan(c, maxDuration, n).grouped == c.Pick(idx)
  {
    if n == 0 {
      idx, lo, hi, p, s, started := [], [], [], -1, 0, false;
      return;
    }
    var i := n - 1;
    var idx0, lo0, hi0, p0, s0, started0 := ScanInvariant(c, maxDuration, i);
    if Opens(c, maxDuration, i) {
      idx, lo, hi := OpeningStep(c, maxDuration, i, idx0, lo0, hi0, p0, s0, started0);
      p, s, started := i, i, true;
    } else {
      p := QuietStep(c, maxDuration, i, p0, s0, started0);
      idx, lo, hi, s, started := idx0, lo0, hi0, s0, started0;
    }
  }

  /**
   What groupDatapoints emits: genuine input samples at strictly increasing
   positions (so never more than its input), never the sentinel pair, at
   most one per transit window, each the earliest deepest sample of its
   window.
   */
  lemma GroupedAreWindowPeaks(c: Lightcurve, maxDuration: real)
    returns (idx: seq<nat>, lo: seq<nat>, hi: seq<nat>)
    requires c.Valid()
    ensures Emitted(c, maxDuration, idx, lo, hi, c.Size())
    ensures GroupDatapoints(c, maxDuration) == c.Pick(idx)
    ensures GroupDatapoints(c, maxDuration).Size() <= c.Size()
  {
    var idx0, lo0, hi0, p, s, started := ScanInvariant(c, maxDuration, c.Size());
    if c.Size() == 0 {
      idx, lo, hi := idx0, lo0, hi0;
      assert Scan(c, maxDuration, 0) == Initial;
    } else {
      idx, lo, hi := FlushPending(c, maxDuration, c.Size(), idx0, lo0, hi0, p, s, started);
    }
    IncreasingLength(idx, c.Size());
  }

  /**
   The state a scan over dates that never go backwards keeps, for a
   non-negative duration, where last is the latest date seen: the emitted
   dates strictly increase and precede the current window's start, the
   running peak lies inside the current window, and once anything was
   emitted the window's start is a date already seen, no later than the
   peak.
   */
  ghost predicate OrderedState(g: Grouper, maxDuration: real, last: real)
  {
    && StrictlyIncreasing(g.grouped.date)
    && (forall k :: 0 <= k < |g.grouped.date| ==> g.grouped.date[k] < g.startDate)
    && g.peakDate <= g.startDate + maxDuration
    && (|g.grouped.date| > 0 ==> g.startDate <= last && g.startDate <= g.peakDate)
  }

  /** Emitting the running peak keeps the emitted dates strictly increasing. */
  lemma FlushOrdered(g: Grouper, maxDuration: real, last: real)
    requires OrderedState(g, maxDuration, last)
    ensures StrictlyIncreasing(Flush(g).date)
  {
  }

  /** Every date Flush emits precedes a date past the window's start plus
      the duration. */
  lemma FlushBefore(g: Grouper, maxDuration: real, last: real, d: real)
    requires maxDuration >= 0.0 && d - g.startDate > maxDuration
    requires OrderedState(g, maxDuration, last)
    ensures forall k :: 0 <= k < |Flush(g).date| ==> Flush(g).date[k] < d
  {
    if !AtSentinel(g) {
      var flushed := Flush(g);
      var n := |g.grouped.date|;
      assert flushed.date == g.grouped.date + [g.peakDate];
      forall k | 0 <= k < |flushed.date|
        ensures flushed.date[k] < d
      {
        if k < n {
          assert flushed.date[k] == g.grouped.date[k];
        }
      }
    }
  }

  /** Opening a window at d keeps the ordered state. */
  lemma OpenOrdered(g: Grouper, f: real, d: real, maxDuration: real, last: real)
    requires maxDuration >= 0.0 && d - g.startDate > maxDuration
    requires OrderedState(g, maxDuration, last)
    ensures OrderedState(Grouper(f, d, d, Flush(g)), maxDuration, d)
  {
    FlushOrdered(g, maxDuration, last);
    FlushBefore(g, maxDuration, last, d);
  }

  /** Moving the peak to a date d inside the current window, no earlier
      than its start, keeps the ordered state. */
  lemma PeakOrdered(g: Grouper, f: real, d: real, maxDuration: real)
    requires OrderedState(g, maxDuration, d)
    requires d <= g.startDate + maxDuration && g.startDate <= d
    ensures OrderedState(g.(peakFlux := f, peakDate := d), maxDuration, d)
  {
  }

  /** One step on a sample no earlier than the last keeps the ordered state:
      a window opens only past its start plus the duration, which lies past
      every date emitted or pending. */
  lemma StepOrdered(g: Grouper, f: real, d: real, maxDuration: real, last: real)
    requires maxDuration >= 0.0 && last <= d
    requires OrderedState(g, maxDuration, last)
    ensures OrderedState(Step(g, f, d, maxDuration), maxDuration, d)
  {
    var g1 := if d - g.startDate > maxDuration then Grouper(f, d, d, Flush(g)) else g;
    if d - g.startDate > maxDuration {
      OpenOrdered(g, f, d, maxDuration, last);
    } else {
      assert OrderedState(g1, maxDuration, d);
    }
    if f < g1.peakFlux {
      if |g1.grouped.date| > 0 {
        assert g1.startDate <= d;
        PeakOrdered(g1, f, d, maxDuration);
      } else {
        assert OrderedState(g1.(peakFlux := f, peakDate := d), maxDuration, d);
      }
    }
  }

  /** The ordered state holds after every non-empty prefix. */
  lemma {:induction false} ScanOrdered(c: Lightcurve, maxDuration: real, n: nat)
    requires c.Valid() && 0 < n <= c.Size()
    requires NonDecreasing(c.date) && maxDuration >= 0.0
    ensures OrderedState(Scan(c, maxDuration, n), maxDuration, c.date[n - 1])
  {
    if n == 1 {
      assert Scan(c, maxDuration, 0) == Initial;
      StepOrdered(Initial, c.flux[0], c.date[0], maxDuration, c.date[0]);
    } else {
      ScanOrdered(c, maxDuration, n - 1);
      StepOrdered(Scan(c, maxDuration, n - 1), c.flux[n - 1], c.date[n - 1], maxDuration, c.date[n - 2]);
    }
  }

  /**
   With a non-negative duration, samples with equal dates always share a
   window, so dates that never go backwards come out strictly increasing.
   */
  lemma GroupedChronological(c: Lightcurve, maxDuration: real)
    requires c.Valid() && NonDecreasing(c.date) && maxDuration >= 0.0
    ensures StrictlyIncreasing(GroupDatapoints(c, maxDuration).date)
  {
    if c.Size() == 0 {
      assert Scan(c, maxDuration, 0) == Initial;
    } else {
      ScanOrdered(c, maxDuration, c.Size());
      FlushOrdered(Scan(c, maxDuration, c.Size()), maxDuration, c.date[c.Size() - 1]);
    }
  }
}

=== FILE: lightcurve.dfy ===
/**
 The canonical data model: a Lightcurve is two parallel sequences, flux and
 date, whose lengths agree; an Exoplanet is the record a period matcher
 builds from the samples that support one detection.
 */
module Lightcurves {
  import opened Common

  /** The only error a Lightcurve operation raises (std::invalid_argument). */
  datatype LightcurveError = DimensionMismatch

  datatype Lightcurve = Lightcurve(flux: seq<real>, date: seq<real>)
  {
    /** The class invariant kept at every construction and mutation. */
    predicate Valid()
    {
      |flux| == |date|
    }

    /** Number of samples (the length of the flux vector). */
    function Size(): nat
    {
      |flux|
    }

    /** addPair(float, float): append one sample at the end. */
    function AddPair(f: real, d: real): (r: Lightcurve)
      ensures Valid() ==> r.Valid()
      ensures |r.flux| == |flux| + 1 && |r.date| == |date| + 1
      ensures r.flux[..|flux|] == flux && r.date[..|date|] == date
      ensures r.flux[|flux|] == f && r.date[|date|] == d
    {
      Lightcurve(flux + [f], date + [d])
    }

    /** addPair(vector, vector): append many samples, or throw when the two
        vectors differ in length (nothing is appended then). */
    function AddPairs(fs: seq<real>, ds: seq<real>): (r: Result<Lightcurve, LightcurveError>)
      ensures r.Failure? <==> |fs| != |ds|
      ensures r.Success? && Valid() ==> r.value.Valid()
      ensures r.Success? ==> |r.value.flux| == |flux| + |fs| && |r.value.date| == |date| + |ds|
      ensures r.Success? ==> r.value.flux[..|flux|] == flux && r.value.flux[|flux|..] == fs
      ensures r.Success? ==> r.value.date[..|date|] == date && r.value.date[|date|..] == ds
    {
      if |fs| != |ds| then Failure(DimensionMismatch)
      else Success(Lightcurve(flux + fs, date + ds))
    }

    /** slice(begin, end): a copy of the samples begin..end inclusive, empty
        when begin > end. The C++ iterators must stay inside the vectors. */
    function Slice(b: int, e: int): (r: Lightcurve)
      requires Valid()
      requires b <= e ==> 0 <= b && e < Size()
      ensures r.Valid()
      ensures b > e ==> r.Size() == 0
      ensures b <= e ==> r.Size() == e - b + 1
      ensures b <= e ==> forall k :: 0 <= k < r.Size() ==>
                r.flux[k] == flux[b + k] && r.date[k] == date[b + k]
    {
      if b > e then Empty() else Lightcurve(flux[b..e + 1], date[b..e + 1])
    }

    /** The samples at positions idx, in that order. */
    function Pick(idx: seq<nat>): (r: Lightcurve)
      requires Valid()
      requires forall k :: 0 <= k < |idx| ==> idx[k] < |flux|
      ensures r.Valid() && r.Size() == |idx|
    {
      Lightcurve(Project(flux, idx), Project(date, idx))
    }
  }

  /** The default constructor: no samples. */
  function Empty(): (r: Lightcurve)
    ensures r.Valid() && r.Size() == 0
  {
    Lightcurve([], [])
  }

  /** Lightcurve(flux, date): throws when the two vectors differ in length. */
  function Make(flux: seq<real>, date: seq<real>): (r: Result<Lightcurve, LightcurveError>)
    ensures r.Failure? <==> |flux| != |date|
    ensures r.Success? ==> r.value.Valid() && r.value.Size() == |flux|
  {
    if |flux| != |date| then Failure(DimensionMismatch) else Success(Lightcurve(flux, date))
  }

  /** The accessors flux() and date() hand out copies, so taking a lightcurve
      apart and constructing it again gives back the same lightcurve. */
  lemma MakeFromAccessors(c: Lightcurve)
    requires c.Valid()
    ensures Make(c.flux, c.date) == Success(c)
  {
  }

  /** Slicing the whole range copies the lightcurve; an empty one slices to
      itself because slice(0, -1) takes the begin > end branch. */
  lemma SliceWhole(c: Lightcurve)
    requires c.Valid()
    ensures c.Slice(0, c.Size() - 1) == c
  {
    if c.Size() > 0 {
      assert c.flux[0..c.Size()] == c.flux;
      assert c.date[0..c.Size()] == c.date;
    }
  }

  /** Appending one sample to a pick is picking one more position. */
  lemma PickSnoc(c: Lightcurve, idx: seq<nat>, i: nat)
    requires c.Valid() && i < c.Size()
    requires forall k :: 0 <= k < |idx| ==> idx[k] < c.Size()
    ensures c.Pick(idx).AddPair(c.flux[i], c.date[i]) == c.Pick(idx + [i])
  {
    var l := c.Pick(idx).AddPair(c.flux[i], c.date[i]);
    var r := c.Pick(idx + [i]);
    assert l.flux == r.flux;
    assert l.date == r.date;
  }

  /** Picking in a prefix is picking in the whole lightcurve. */
  lemma PickPrefix(c: Lightcurve, n: nat, idx: seq<nat>)
    requires c.Valid() && n <= c.Size()
    requires forall k :: 0 <= k < |idx| ==> idx[k] < n
    ensures Lightcurve(c.flux[..n], c.date[..n]).Pick(idx) == c.Pick(idx)
  {
  }

  /**
   The detection record of the canonical generation. Its constructor derives
   the two averages from the supporting samples.
   */
  datatype Exoplanet = Exoplanet(
    averageFlux: real,
    averagePeriod: real,
    confidence: real,
    datapoints: Lightcurve)

  /** Sum of the gaps between consecutive dates, accumulated as in the
      constructor's loop. */
  function GapSum(date: seq<real>): real
  {
    if |date| <= 1 then 0.0
    else GapSum(date[..|date| - 1]) + (date[|date| - 1] - date[|date| - 2])
  }

  /** The gaps telescope to the distance between the last and first date. */
  lemma {:induction false} GapSumTelescopes(date: seq<real>)
    requires |date| >= 1
    ensures GapSum(date) == date[|date| - 1] - date[0]
  {
    if |date| > 1 {
      var init := date[..|date| - 1];
      GapSumTelescopes(init);
      assert init[0] == date[0] && init[|init| - 1] == date[|date| - 2];
    }
  }

  /**
   Exoplanet(planetDatapoints, confidence). The source divides the flux sum by
   the size and the gap sum by size - 1, so at least two samples are needed
   for both divisions to be defined.
   */
  function NewExoplanet(points: Lightcurve, confidence: real): (p: Exoplanet)
    requires points.Valid() && points.Size() >= 2
    ensures p.datapoints == points && p.confidence == confidence
    ensures p.averageFlux * points.Size() as real == Sum(points.flux)
    ensures p.averagePeriod * (points.Size() - 1) as real
              == points.date[points.Size() - 1] - points.date[0]
  {
    GapSumTelescopes(points.date);
    Exoplanet(
      Sum(points.flux) / points.Size() as real,
      GapSum(points.date) / (points.Size() - 1) as real,
      confidence,
      points)
  }

  /** The result of findRadiusRatio: the value whose square root is the
      ratio, or the -1 sentinel for "not computable". sqrt itself is not
      modelled. */
  datatype RadiusRatio = NotComputable | SqrtOf(radicand: real)

  /** findRadiusRatio: the sentinel exactly when the average flux is not
      positive; otherwise sqrt(1 - averageFlux), whose radicand is below 1. */
  function FindRadiusRatio(p: Exoplanet): (r: RadiusRatio)
    ensures r.NotComputable? <==> p.averageFlux <= 0.0
    ensures r.SqrtOf? ==> r.radicand == 1.0 - p.averageFlux && r.radicand < 1.0
  {
    if p.averageFlux > 0.0 then SqrtOf(1.0 - p.averageFlux) else NotComputable
  }
}

=== FILE: nearest.dfy ===
/**
 findClosestIndex: starting at a given position, walk forward through the
 dates while the distance to a target date does not grow, and stop at the
 first position after which it would grow.
 */
module NearestDate {
  import opened Common

  /** Distance of date number m from the target. */
  function Dist(date: seq<real>, m: nat, target: real): real
    requires m < |date|
  {
    Abs(date[m] - target)
  }

  /** The distance as written when abs resolves to int abs(int). */
  function DistAsWritten(date: seq<real>, m: nat, target: real): (r: nat)
    requires m < |date|
    ensures r as real <= Dist(date, m, target) < r as real + 1.0
  {
    IntAbs(date[m] - target)
  }

  /**
   The position the scan stops at: distances never grow from start up to k,
   and the next one (if any) is strictly larger. Ties move on to the later
   position.
   */
  function ClosestIndex(date: seq<real>, start: nat, target: real): (k: nat)
    requires start < |date|
    ensures start <= k < |date|
    ensures forall m :: start <= m < k ==> Dist(date, m + 1, target) <= Dist(date, m, target)
    ensures k + 1 < |date| ==> Dist(date, k + 1, target) > Dist(date, k, target)
    decreases |date| - start
  {
    if start + 1 < |date| && Dist(date, start + 1, target) <= Dist(date, start, target)
    then ClosestIndex(date, start + 1, target)
    else start
  }

  /** The two properties above pin the stopping position down: any position
      with both is the one ClosestIndex returns. */
  lemma {:induction false} ClosestIndexUnique(date: seq<real>, start: nat, target: real, k: nat)
    requires start <= k < |date|
    requires forall m :: start <= m < k ==> Dist(date, m + 1, target) <= Dist(date, m, target)
    requires k + 1 < |date| ==> Dist(date, k + 1, target) > Dist(date, k, target)
    ensures ClosestIndex(date, start, target) == k
    decreases k - start
  {
    if start < k {
      ClosestIndexUnique(date, start + 1, target, k);
    }
  }

  /** The returned date is at least as close as every date scanned before it. */
  lemma {:induction false} ClosestAmongScanned(date: seq<real>, start: nat, target: real)
    requires start < |date|
    ensures forall m :: start <= m <= ClosestIndex(date, start, target) ==>
              Dist(date, ClosestIndex(date, start, target), target) <= Dist(date, m, target)
    decreases |date| - start
  {
    var k := ClosestIndex(date, start, target);
    if k > start {
      ClosestAmongScanned(date, start + 1, target);
    }
  }

  /**
   With dates in time order the first local minimum of the distance is the
   nearest date of the whole remaining range, which is why the scan may stop
   early.
   */
  lemma ClosestIsNearest(date: seq<real>, start: nat, target: real)
    requires start < |date|
    requires StrictlyIncreasing(date)
    ensures forall m :: start <= m < |date| ==>
              Dist(date, ClosestIndex(date, start, target), target) <= Dist(date, m, target)
  {
    var k := ClosestIndex(date, start, target);
    ClosestAmongScanned(date, start, target);
    if k + 1 < |date| {
      // The next date is farther, so the target lies below it, and every
      // later date is farther still.
      assert target < date[k + 1];
      forall m | k + 1 < m < |date|
        ensures Dist(date, k, target) <= Dist(date, m, target)
      {
        assert date[k + 1] < date[m];
      }
    }
  }

  /** findClosestIndex as written: a loop with an early break. */
  method FindClosestIndex(date: seq<real>, start: nat, target: real) returns (closest: nat)
    requires start < |date|
    ensures closest == ClosestIndex(date, start, target)
  {
    closest := start;
    var lastDiff := Abs(date[closest] - target);
    var i := start;
    while i < |date|
      invariant start <= closest < |date| && start <= i <= |date|
      invariant (i == start && closest == start) || i == closest + 1
      invariant lastDiff == Dist(date, closest, target)
      invariant forall m :: start <= m < closest ==> Dist(date, m + 1, target) <= Dist(date, m, target)
    {
      if Abs(date[i] - target) > lastDiff {
        ClosestIndexUnique(date, start, target, closest);
        return;
      }
      lastDiff := Abs(date[i] - target);
      closest := i;
      i := i + 1;
    }
    ClosestIndexUnique(date, start, target, closest);
  }

  /** Dates 0 and 0.5 with target 0: the truncating distances tie at 0, so the
      scan as written moves on to position 1, while the real distances grow
      and the scan stops at position 0. */
  lemma TruncatedClosestExample()
    ensures DistAsWritten([0.0, 0.5], 1, 0.0) <= DistAsWritten([0.0, 0.5], 0, 0.0)
    ensures ClosestIndex([0.0, 0.5], 0, 0.0) == 0
  {
    assert Trunc(0.5 - 0.0) == 0;
  }
}

=== FILE: parse.dfy ===
/**
 readData: the per-token logic of the three CSV readers. Each
 whitespace-separated token is classified; the canonical and struct readers
 first skip any token holding a character other than a comma, a point or a
 decimal digit, while the oldest reader has no such filter. A surviving token
 without a comma stops the program with exit code 1; otherwise the text before
 the first comma becomes a flux and the text after it a date, both through
 std::stof, which is a parameter here.
 */
module CsvParse {
  import opened Common
  import opened Lightcurves

  /** The characters the filtering readers let through (isdigit in the
      default C locale is '0'..'9'). */
  predicate AllowedChar(c: char)
  {
    c == ',' || c == '.' || '0' <= c <= '9'
  }

  /** What one loop iteration does with a token. */
  datatype Token = Skip | Fatal | Fields(fluxText: string, dateText: string)

  /** line.find(','): the position of the first comma, if any. */
  function FirstComma(line: string): (r: Option<nat>)
    ensures r.None? <==> ',' !in line
    ensures r.Some? ==> r.value < |line| && line[r.value] == ',' && ',' !in line[..r.value]
  {
    if |line| == 0 then None
    else if line[0] == ',' then Some(0)
    else
      match FirstComma(line[1..])
      case None => None
      case Some(k) =>
        assert line[..k + 1] == [line[0]] + line[1..][..k];
        Some(k + 1)
  }

  /** The classifier of the reader without a character filter: fatal
      without a comma, otherwise split at the first comma, later commas
      staying in the date text. */
  function SplitAtComma(line: string): (t: Token)
    ensures !t.Skip?
    ensures t.Fatal? <==> ',' !in line
    ensures t.Fields? ==> line == t.fluxText + [','] + t.dateText && ',' !in t.fluxText
  {
    match FirstComma(line)
    case None => Fatal
    case Some(k) =>
      assert line == line[..k] + [','] + line[k + 1..];
      Fields(line[..k], line[k + 1..])
  }

  /** Every character of the token passes the filter. */
  predicate AllAllowed(line: string)
  {
    forall i :: 0 <= i < |line| ==> AllowedChar(line[i])
  }

  /** The classifier of the two filtering readers: skip a token with any
      other character, then as above. */
  function ClassifyFiltered(line: string): (t: Token)
    ensures t.Skip? <==> exists i :: 0 <= i < |line| && !AllowedChar(line[i])
    ensures t.Fatal? <==> AllAllowed(line) && ',' !in line
    ensures t.Fields? ==> AllAllowed(line) && line == t.fluxText + [','] + t.dateText && ',' !in t.fluxText
  {
    if !AllAllowed(line) then Skip else SplitAtComma(line)
  }

  /** The classifier of the given reader. */
  function Classify(line: string, filtered: bool): Token
  {
    if filtered then ClassifyFiltered(line) else SplitAtComma(line)
  }

  /** Why reading stops: an exit code, or std::stof rejecting a text
      (an uncaught exception). */
  datatype ReadFailure = Exit(code: int) | ConversionError(text: string)

  /** The exit code of a token without a separator. */
  const NoSeparatorExit: int := 1

  /** One loop iteration on the samples read so far: skip, stop, or append
      the converted flux and date together. */
  function ReadToken(c: Lightcurve, t: Token, stof: string -> Option<real>): (r: Result<Lightcurve, ReadFailure>)
  {
    match t
    case Skip => Success(c)
    case Fatal => Failure(Exit(NoSeparatorExit))
    case Fields(fluxText, dateText) =>
      match stof(fluxText)
      case None => Failure(ConversionError(fluxText))
      case Some(f) =>
        match stof(dateText)
        case None => Failure(ConversionError(dateText))
        case Some(d) => Success(c.AddPair(f, d))
  }

  /** The reading loop over the classified tokens in order, stopping at
      the first failure. Flux and date grow in lockstep, so the result is a
      valid Lightcurve with at most one sample per token. */
  function ReadAll(tokens: seq<Token>, stof: string -> Option<real>): (r: Result<Lightcurve, ReadFailure>)
    ensures r.Success? ==> r.value.Valid() && r.value.Size() <= |tokens|
  {
    if |tokens| == 0 then Success(Empty())
    else
      match ReadAll(tokens[..|tokens| - 1], stof)
      case Failure(e) => Failure(e)
      case Success(c) => ReadToken(c, tokens[|tokens| - 1], stof)
  }

  /** The file's tokens, classified by the given reader. */
  function Tokens(lines: seq<string>, filtered: bool): (r: seq<Token>)
    ensures |r| == |lines|
    ensures forall k :: 0 <= k < |lines| ==> r[k] == Classify(lines[k], filtered)
  {
    seq(|lines|, k requires 0 <= k < |lines| => Classify(lines[k], filtered))
  }

  /** readData on the file's tokens, with the given reader's classifier. */
  function ReadData(lines: seq<string>, filtered: bool, stof: string -> Option<real>): (r: Result<Lightcurve, ReadFailure>)
    ensures r.Success? ==> r.value.Valid() && r.value.Size() <= |lines|
  {
    ReadAll(Tokens(lines, filtered), stof)
  }

  /** A token the loop gets past: not fatal, and convertible if it carries
      fields. */
  predicate Accepted(t: Token, stof: string -> Option<real>)
  {
    !t.Fatal? && (t.Fields? ==> stof(t.fluxText).Some? && stof(t.dateText).Some?)
  }

  /** Reading succeeds exactly when every token is accepted. */
  lemma {:induction false} ReadAllSucceeds(tokens: seq<Token>, stof: string -> Option<real>)
    ensures ReadAll(tokens, stof).Success? <==> forall k :: 0 <= k < |tokens| ==> Accepted(tokens[k], stof)
  {
    if |tokens| > 0 {
      var n := |tokens| - 1;
      ReadAllSucceeds(tokens[..n], stof);
      assert forall k :: 0 <= k < n ==> tokens[..n][k] == tokens[k];
    }
  }

  /** The token carries a flux and a date. */
  predicate IsFields(t: Token)
  {
    t.Fields?
  }

  /** c holds one sample per listed token, in order, converted from that
      token's flux and date texts. */
  predicate ReadOut(tokens: seq<Token>, idx: seq<nat>, c: Lightcurve, stof: string -> Option<real>)
  {
    && c.Valid() && c.Size() == |idx|
    && forall k :: 0 <= k < |idx| ==>
         && idx[k] < |tokens| && tokens[idx[k]].Fields?
         && stof(tokens[idx[k]].fluxText) == Some(c.flux[k])
         && stof(tokens[idx[k]].dateText) == Some(c.date[k])
  }

  /** A converted token with fields adds its sample at the end. */
  lemma ReadOutFields(tokens: seq<Token>, idx0: seq<nat>, c0: Lightcurve, stof: string -> Option<real>)
    requires |tokens| > 0 && ReadOut(tokens[..|tokens| - 1], idx0, c0, stof)
    requires tokens[|tokens| - 1].Fields?
    requires stof(tokens[|tokens| - 1].fluxText).Some? && stof(tokens[|tokens| - 1].dateText).Some?
    ensures ReadOut(tokens, idx0 + [|tokens| - 1],
                    c0.AddPair(stof(tokens[|tokens| - 1].fluxText).value, stof(tokens[|tokens| - 1].dateText).value), stof)
  {
    var n := |tokens| - 1;
    assert forall k :: 0 <= k < |idx0| ==> tokens[idx0[k]] == tokens[..n][idx0[k]];
  }

  /** A skipped token adds nothing. */
  lemma ReadOutSkip(tokens: seq<Token>, idx0: seq<nat>, c0: Lightcurve, stof: string -> Option<real>)
    requires |tokens| > 0 && ReadOut(tokens[..|tokens| - 1], idx0, c0, stof)
    ensures ReadOut(tokens, idx0, c0, stof)
  {
    var n := |tokens| - 1;
    assert forall k :: 0 <= k < |idx0| ==> tokens[idx0[k]] == tokens[..n][idx0[k]];
  }

  /**
   What a successful read holds: one sample per token with fields, in token
   order, whose flux and date are the conversions of the token's two texts.
   */
  lemma {:induction false} ReadAllContents(tokens: seq<Token>, stof: string -> Option<real>)
    requires ReadAll(tokens, stof).Success?
    ensures ReadOut(tokens, Where(tokens, IsFields), ReadAll(tokens, stof).value, stof)
  {
    if |tokens| == 0 {
      return;
    }
    var n := |tokens| - 1;
    var prefix := tokens[..n];
    ReadAllContents(prefix, stof);
    var idx0 := Where(prefix, IsFields);
    var c0 := ReadAll(prefix, stof).value;
    var t := tokens[n];
    assert ReadAll(tokens, stof) == ReadToken(c0, t, stof);
    if t.Fields? {
      assert Where(tokens, IsFields) == idx0 + [n];
      ReadOutFields(tokens, idx0, c0, stof);
    } else {
      assert Where(tokens, IsFields) == idx0;
      ReadOutSkip(tokens, idx0, c0, stof);
    }
  }

  /**
   readData succeeds exactly when every token classifies as something other
   than fatal and both its texts convert.
   */
  lemma ReadDataSucceeds(lines: seq<string>, filtered: bool, stof: string -> Option<real>)
    ensures ReadData(lines, filtered, stof).Success? <==>
              forall k :: 0 <= k < |lines| ==> Accepted(Classify(lines[k], filtered), stof)
  {
    ReadAllSucceeds(Tokens(lines, filtered), stof);
  }

  /**
   readData, stated token by token: on success it holds one sample per
   token with fields, in token order, converted from the text before and
   after that token's first comma.
   */
  lemma ReadDataContents(lines: seq<string>, filtered: bool, stof: string -> Option<real>) returns (idx: seq<nat>)
    ensures Increasing(idx, |lines|)
    ensures forall i :: 0 <= i < |lines| ==> (i in idx <==> Classify(lines[i], filtered).Fields?)
    ensures ReadData(lines, filtered, stof).Success? ==>
              var c := ReadData(lines, filtered, stof).value;
              && c.Size() == |idx|
              && forall k :: 0 <= k < |idx| ==>
                   && Classify(lines[idx[k]], filtered).Fields?
                   && stof(Classify(lines[idx[k]], filtered).fluxText) == Some(c.flux[k])
                   && stof(Classify(lines[idx[k]], filtered).dateText) == Some(c.date[k])
  {
    var tokens := Tokens(lines, filtered);
    idx := Where(tokens, IsFields);
    if ReadAll(tokens, stof).Success? {
      ReadAllContents(tokens, stof);
      var c := ReadAll(tokens, stof).value;
      forall k | 0 <= k < |idx|
        ensures Classify(lines[idx[k]], filtered) == tokens[idx[k]]
      {
      }
    }
  }

  /** The filter drops signed and exponent notation and any header with
      letters: such a token is skipped before the comma test. */
  lemma FilterSkipsSignsAndLetters(line: string, i: nat)
    requires i < |line| && (line[i] == '-' || line[i] == '+' || 'a' <= line[i] <= 'z' || 'A' <= line[i] <= 'Z')
    ensures ClassifyFiltered(line) == Skip
  {
    assert !AllowedChar(line[i]);
  }

  /** The converter's header line "flux,julian_date" reaches std::stof in
      the reader without a filter. */
  lemma HeaderReachesConversion()
    ensures SplitAtComma("flux,julian_date") == Fields("flux", "julian_date")
  {
    var line := "flux,julian_date";
    assert line[0] != ',' && line[1] != ',' && line[2] != ',' && line[3] != ',' && line[4] == ',';
    assert FirstComma(line[4..]) == Some(0);
    assert line[3..][1..] == line[4..];
    assert line[2..][1..] == line[3..];
    assert line[1..][1..] == line[2..];
    assert line[..4] == "flux" && line[5..] == "julian_date";
  }

  /** The filtering readers skip the converter's header line. */
  lemma HeaderSkipped()
    ensures ClassifyFiltered("flux,julian_date") == Skip
  {
    FilterSkipsSignsAndLetters("flux,julian_date", 0);
  }

  /** Later commas stay in the date text. */
  lemma SecondCommaExample()
    ensures SplitAtComma("0.9,1.5,2") == Fields("0.9", "1.5,2")
  {
    var line := "0.9,1.5,2";
    assert line[0] != ',' && line[1] != ',' && line[2] != ',' && line[3] == ',';
    assert FirstComma(line[3..]) == Some(0);
    assert line[2..][1..] == line[3..];
    assert line[1..][1..] == line[2..];
    assert line[..3] == "0.9" && line[4..] == "1.5,2";
  }
}

=== FILE: pipeline.dfy ===
/**
 The three stages every generation runs before period matching: filter the
 raw samples by depth, collapse each transit into its deepest sample, and
 bucket the transits by depth. The three generations share this code
 verbatim, so it is defined once.
 */
module Pipeline {
  import opened Common
  import opened Lightcurves
  import CandidateFilter
  import TransitGrouper
  import SizeBucketer

  /** findPlanetCandidates, then groupDatapoints, then splitDatapoints. */
  function Buckets(raw: Lightcurve, planetThreshold: real, maxTransitDurationDays: real, sizeThreshold: real)
    : (r: seq<Lightcurve>)
    requires raw.Valid()
    ensures SizeBucketer.WellFormed(r)
  {
    var candidates := CandidateFilter.Candidates(raw, planetThreshold);
    var grouped := TransitGrouper.GroupDatapoints(candidates, maxTransitDurationDays);
    SizeBucketer.SplitDatapoints(grouped, sizeThreshold)
  }

  /**
   Samples in time order stay in time order through all three stages, so
   every bucket's dates strictly increase; this is what keeps the matchers'
   periods positive.
   */
  lemma BucketsChronological(raw: Lightcurve, planetThreshold: real, maxTransitDurationDays: real,
                             sizeThreshold: real)
    requires raw.Valid() && StrictlyIncreasing(raw.date)
    ensures forall b :: 0 <= b < |Buckets(raw, planetThreshold, maxTransitDurationDays, sizeThreshold)| ==>
              StrictlyIncreasing(Buckets(raw, planetThreshold, maxTransitDurationDays, sizeThreshold)[b].date)
  {
    var candidates := CandidateFilter.Candidates(raw, planetThreshold);
    var keep := CandidateFilter.CandidatesSelect(raw, planetThreshold);
    ProjectKeepsIncreasing(raw.date, keep);
    var idx, lo, hi := TransitGrouper.GroupedAreWindowPeaks(candidates, maxTransitDurationDays);
    ProjectKeepsIncreasing(candidates.date, idx);
    SizeBucketer.BucketsChronological(
      TransitGrouper.GroupDatapoints(candidates, maxTransitDurationDays), sizeThreshold);
  }

  /**
   The readers repeat the last sample of a file, so a recording's dates may
   only never go backwards; with a non-negative transit duration the
   grouping stage puts equal dates in one window, and every bucket's dates
   still strictly increase.
   */
  lemma BucketsChronologicalRepeated(raw: Lightcurve, planetThreshold: real, maxTransitDurationDays: real,
                                     sizeThreshold: real)
    requires raw.Valid() && NonDecreasing(raw.date) && maxTransitDurationDays >= 0.0
    ensures forall b :: 0 <= b < |Buckets(raw, planetThreshold, maxTransitDurationDays, sizeThreshold)| ==>
              StrictlyIncreasing(Buckets(raw, planetThreshold, maxTransitDurationDays, sizeThreshold)[b].date)
  {
    var candidates := CandidateFilter.Candidates(raw, planetThreshold);
    var keep := CandidateFilter.CandidatesSelect(raw, planetThreshold);
    ProjectKeepsNonDecreasing(raw.date, keep);
    TransitGrouper.GroupedChronological(candidates, maxTransitDurationDays);
    SizeBucketer.BucketsChronological(
      TransitGrouper.GroupDatapoints(candidates, maxTransitDurationDays), sizeThreshold);
  }

  /** The recordings whose buckets are in time order: strictly increasing
      dates, or dates that never go backwards under a non-negative transit
      duration. */
  predicate InTimeOrder(raw: Lightcurve, maxTransitDurationDays: real)
  {
    StrictlyIncreasing(raw.date) || (NonDecreasing(raw.date) && maxTransitDurationDays >= 0.0)
  }

  /** Either way, every bucket's dates strictly increase. */
  lemma BucketsInTimeOrder(raw: Lightcurve, planetThreshold: real, maxTransitDurationDays: real,
                           sizeThreshold: real)
    requires raw.Valid() && InTimeOrder(raw, maxTransitDurationDays)
    ensures forall b :: 0 <= b < |Buckets(raw, planetThreshold, maxTransitDurationDays, sizeThreshold)| ==>
              StrictlyIncreasing(Buckets(raw, planetThreshold, maxTransitDurationDays, sizeThreshold)[b].date)
  {
    if StrictlyIncreasing(raw.date) {
      BucketsChronological(raw, planetThreshold, maxTransitDurationDays, sizeThreshold);
    } else {
      BucketsChronologicalRepeated(raw, planetThreshold, maxTransitDurationDays, sizeThreshold);
    }
  }

  /** The first raw date, which the precise matcher counts missed transits
      from; an empty recording has no buckets, so the fallback is never used. */
  function RawFirst(raw: Lightcurve): (r: real)
    ensures |raw.date| > 0 ==> r == raw.date[0]
  {
    if |raw.date| > 0 then raw.date[0] else 0.0
  }
}
